=== FILE: README.md ===
# Business-Management daily forms, in Dafny

A model of the back office of a small shop or dairy business (Kode-god/Business-Management). The centre of the model is the **daily form**: one sheet per business, day and shift ("Morning" or "Evening"). It holds:

- supplier deliveries;
- one stock-and-sales row per product;
- expenses;
- a cash summary.

The model covers the following parts of the system:

- **`computeDerived`** (`Derive`). It recomputes the derived fields of a form:
  - the supplier bonus;
  - available and closing stock, floored at zero;
  - the cash totals, the expected cash and the cash difference.
- **`validateSubmit`** (`Validation`). It is the ordered, first-failure-wins check a form must pass before it is submitted.
- **The role-dependent merge of `updateDraft` and `submitForm`** (`Merge`).
- **The lifecycle handlers** (`Lifecycle`): `createDailyForm`, `getDraft`, `updateDraft`, `submitForm` and `deleteForm`.
  - They are functions over a map of forms keyed by (business, day, shift).
  - Each handler checks the role gates of `routes/dailyForms.js` before its own checks, as Express does.
- **The daily-form page** (`FormPage`, with `Inputs` for `normalizeNum`). This covers:
  - its derived-value mirror and its row-editing helpers;
  - the `saveDraft` and `submitForm` request bodies;
  - the permission flags and `toYMD`.
  - A group of lemmas states that what the page shows before saving is what the server stores after a cashier's save.
- **The report helpers** (`Calendar`, `Reports`). This covers:
  - the Monday-to-Sunday week range and the month range;
  - the submitted-only and shift filters;
  - the report totals.
- **The other controllers**, each a map or sequence of documents with its handlers:
  - the products catalogue (`Products`);
  - transactions (`Transactions`);
  - users (`Users`);
  - suppliers (`Suppliers`).
- **The product and user pages** (`ProductsPage`, `UsersPage`): their validators, query building, search filter and request bodies. Lemmas connect each page to the server handler it calls.

**Conventions used throughout the model:**

- Money and quantities are integers (minor units).
- A stored number that may be `null` or missing is `Option<int>`, and `Number(x || 0)` is `Values.Number0`.
- A request-body key is `Field<T>`, which tells an absent key from an explicit `null`.
- Days are numbered from 1970-01-01, and instants are milliseconds of local time.
- Failures carry the HTTP class and the message of the response.
- Storage is abstracted to maps and sequences:
  - a form's document id is its unique key;
  - `findOne({ _id, businessId })` is "the key is in the map and belongs to the caller's business".

## Model

| member | source | states |
|---|---|---|
| Values.Assign | backend/controllers/dailyFormController.js:154-157 | a body key that is absent keeps the stored value; a present key, `null` included, replaces it |
| Values.Coalesce | backend/controllers/dailyFormController.js:176-183 | `patch ?? existing`: the patch value when it is not null or missing, otherwise the existing one |
| Text.Trim | frontend/src/pages/Products.jsx:189-190 | the trimmed text is an infix of the text with only white space before and after it, it has no white space at either end, and it is empty exactly when the text is white space only |
| Text.TrimIdempotent | frontend/src/pages/Products.jsx:218-219 | trimming a trimmed text changes nothing |
| Text.Lower | frontend/src/pages/Users.jsx:23 | lower-casing keeps the length, maps each character on its own and leaves no upper-case ASCII letter |
| Text.LowerIdempotent | frontend/src/pages/Users.jsx:105 | lower-casing twice is lower-casing once |
| Text.Search | frontend/src/pages/Users.jsx:110-112 | the executable search answers true exactly when the query occurs in the text (`includes`) |
| Text.NatToStringRoundTrip | frontend/src/pages/DailyForms.jsx:25-31 | the decimal text of a number reads back as that number |
| Text.Pad2RoundTrip | frontend/src/pages/DailyForms.jsx:28-29 | `padStart(2, "0")` of a month or day keeps its value |
| Seqs.Filter | frontend/src/pages/Users.jsx:107-114 | `filter` keeps exactly the elements the predicate accepts |
| Seqs.FilterIsSubsequence | frontend/src/pages/Users.jsx:107-114 | the filtered list is an order-preserving subsequence of the list |
| Inputs.ParseNumber | frontend/src/pages/DailyForms.jsx:33-36 | `Number` of a blank text is 0 and a blank text is the only text that trims to nothing |
| Inputs.NormalizeNumRoundTrip | frontend/src/pages/DailyForms.jsx:33-36 | `normalizeNum` of the text of an integer is that integer |
| Inputs.NormalizeNumIdempotent | frontend/src/pages/DailyForms.jsx:33-36 | normalising a normalised value changes nothing |
| Derive.DeriveSuppliers | backend/controllers/dailyFormController.js:14-18 | same row count and order; each bonus is actual − ordered, not floored, so it can be negative; every other key is kept |
| Derive.DeriveItems | backend/controllers/dailyFormController.js:21-39 | same row count, order, codes and names; available = max(0, opening + in − spoiled), closing = max(0, available − sold), both ≥ 0; the column sums are those of the entered rows |
| Derive.SumSalesOfDerived | backend/controllers/dailyFormController.js:35-44 | summing a sales column over the recomputed rows gives the sum over the rows as entered |
| Derive.CashFrom | backend/controllers/dailyFormController.js:48-50 | expected cash = cash in − expenses; difference = counted − expected |
| Derive.DeriveCash | backend/controllers/dailyFormController.js:42-62 | the three totals are sums over the item rows; total expenses is the sum of the amounts; expected cash and difference follow; the explanation defaults to "" |
| Derive.ComputeDerived | backend/controllers/dailyFormController.js:12-65 | every non-derived field is kept, the tables keep their shape, the cash summary is the recomputed one, and the result satisfies the form invariants |
| Derive.DerivedCash | backend/controllers/dailyFormController.js:42-62 | the recomputed cash summary equals the one built by `CashFrom` from the entered totals |
| Derive.ConsistentIffUnchanged | backend/controllers/dailyFormController.js:12-65 | recomputation leaves a form unchanged exactly when the form already satisfies the invariants |
| Derive.ComputeDerivedIdempotent | backend/controllers/dailyFormController.js:12-65 | recomputing twice is recomputing once |
| Derive.ComputeDerivedReadsOnlyInput | backend/controllers/dailyFormController.js:12-65 | two forms that agree on their entered values recompute to the same form, so derived values in a patch are overwritten |
| Derive.DeriveItemsSameInput | backend/controllers/dailyFormController.js:21-39 | item tables that agree on entered values derive to the same table |
| Derive.DeriveSuppliersSameInput | backend/controllers/dailyFormController.js:14-18 | supplier tables that agree on entered values derive to the same table |
| Derive.SumSalesSameInput | backend/controllers/dailyFormController.js:42-44 | the sales sums read only the entered columns |
| Derive.ComputeDerivedKeepsAccepted | backend/models/DailyForm.js:17-56 | recomputing a form keeps every supplier name, item code, item name, expense category and expense payment method, so it passes the `required` paths and the payment-method `enum` exactly when the form did |
| Derive.SumExpensesTrimmed | backend/models/DailyForm.js:49-56 | the `trim` setters of the expense rows leave the expense total unchanged |
| DailyForm.TrimmedSuppliersNamed | backend/models/DailyForm.js:19 | supplier rows assigned to a form pass `required` on `supplierName` exactly when no sent name is white space only |
| DailyForm.TrimmedExpensesNamed | backend/models/DailyForm.js:51 | expense rows assigned to a form pass `required` on `category` exactly when no sent category is white space only |
| Validation.FirstBadSupplier | backend/controllers/dailyFormController.js:71-76 | every earlier supplier row passes and the row found fails |
| Validation.FirstBadItem | backend/controllers/dailyFormController.js:82-90 | every earlier item row passes and the row found fails |
| Validation.ValidateSubmit | backend/controllers/dailyFormController.js:67-100 | returns null exactly when every check passes; otherwise the failure of the first check that fails, in the order suppliers present, supplier rows, items present, item rows, cash explanation |
| Validation.ValidateItemsAndCash | backend/controllers/dailyFormController.js:78-99 | on a form whose supplier rows pass: null exactly when the item and cash checks pass, otherwise the first of those that fails |
| Validation.FirstFailureUnique | backend/controllers/dailyFormController.js:67-100 | a form has at most one first failure |
| Validation.FirstFailureNotSubmittable | backend/controllers/dailyFormController.js:67-100 | a form with a first failure does not pass |
| Validation.FirstFailureReported | backend/controllers/dailyFormController.js:67-100 | whatever check fails first is the one the validator reports |
| Validation.OverSoldAgainstEnteredStock | backend/controllers/dailyFormController.js:86-89 | after recomputation the over-sell check compares the quantity sold with max(0, opening + in − spoiled) |
| Merge.SpreadCash | backend/controllers/dailyFormController.js:156 | `{ ...cs, ...patch }`: for each of the eight cash keys, a key present in the patch (`null` included) replaces the stored one and an absent key keeps it |
| Merge.SpreadCashIdempotent | backend/controllers/dailyFormController.js:156 | spreading the same object twice is spreading it once |
| Merge.LastIndexFor | backend/controllers/dailyFormController.js:166-167 | the `Map` of patches keeps the last patch for each code: the index found carries the code and no later patch does |
| Merge.PatchItem | backend/controllers/dailyFormController.js:169-185 | code, name and derived fields never change; without a patch the row is unchanged |
| Merge.MergeItems | backend/controllers/dailyFormController.js:166-185 | the merge never adds or removes rows; each row keeps its code and name and takes the last patch carrying its code |
| Merge.MergeItemsUnmentioned | backend/controllers/dailyFormController.js:169-185 | rows whose codes no patch mentions stay as they are |
| Merge.MergeHeaderIdempotent | backend/controllers/dailyFormController.js:153-157 | merging the header keys twice is merging them once |
| Merge.MergeUpdateAsWritten | backend/controllers/dailyFormController.js:153-194 | the handler as written never changes the expense table |
| Merge.MergeUpdate | backend/controllers/dailyFormController.js:153-194 | the key, status and signatures are kept. Meters, notes and cash summary are merged for every role. A cashier replaces the supplier and expense tables and patches item values; other roles leave every table untouched |
| Merge.AsWrittenDropsExpenses | backend/controllers/dailyFormController.js:159-194 | the handler as written equals the corrected merge with the stored expenses, and differs from it exactly when a cashier sends a different expense table |
| Merge.MergeSubmit | backend/controllers/dailyFormController.js:232-236 | only the cash summary and the notes change |
| Lifecycle.BlankRows | backend/controllers/dailyFormController.js:371-382 | one zero row per product, in order, with the product's code and name |
| Lifecycle.BlankRowConsistent | backend/controllers/dailyFormController.js:371-382 | a zero row already satisfies the row invariants |
| Lifecycle.NewForm | backend/controllers/dailyFormController.js:384-397 | a draft of the caller with no signature, no supplier or expense rows, one zero row per product in order, a zero cash difference, and every invariant |
| Lifecycle.CreateForm | backend/controllers/dailyFormController.js:345-416 | a cashier is refused by the route gate, a caller without a business is refused, and so is a missing date. With both, the request succeeds exactly when the (business, day, shift) is free and the chosen active products are not empty and all have a code and a name that are not blank. An existing key is refused, an empty product list is refused, and a chosen product with a blank code or name makes the save fail with a 500. Success stores the new draft from the chosen products under its key. The store invariant is kept |
| Lifecycle.SumSalesBlank | backend/controllers/dailyFormController.js:371-382 | the sales of a new form add up to 0 |
| Lifecycle.NewFormAccepted | backend/models/DailyForm.js:31-32 | a new form passes the `required` code and name of its item rows exactly when no chosen product has a blank code or name |
| Lifecycle.BlankRowsNamed | backend/models/DailyForm.js:31-32 | the zero rows of a product list have a code and a name exactly when no product's code or name is blank |
| Lifecycle.CatalogNameable | backend/models/Product.js:12-22 | products drawn from a valid catalogue have a code and a name that are not blank |
| Lifecycle.CreateFromValidCatalog | backend/controllers/dailyFormController.js:360-398 | with products from a valid catalogue, creating a form never fails at the save |
| Lifecycle.GetDraft | backend/controllers/dailyFormController.js:104-134 | on a valid store: succeeds exactly when the business, the date and the form exist, and answers "not created yet" when the form is missing. It returns the stored form and leaves the store unchanged |
| Lifecycle.UpdateDraft | backend/controllers/dailyFormController.js:138-212 | a missing form is not found; a submitted form cannot be edited and nothing changes. On a valid store, a non-cashier's edit of a draft succeeds. A cashier's edit succeeds exactly when no sent supplier name or expense category is white space only and every sent expense payment method is one of the `enum` of backend/models/DailyForm.js:54 (cash, bank, mobile, other); otherwise the save fails with a 500. The stored and answered form is the recomputed merge, with the sent rows trimmed; a non-cashier leaves the tables of a consistent form unchanged. The invariant is kept |
| Lifecycle.CashierMergeAccepted | backend/models/DailyForm.js:17-56 | a cashier's merge into a form that passes `required` and the payment-method `enum` passes them exactly when no sent supplier name or expense category is white space only and every sent payment method is cash, bank, mobile or other |
| Lifecycle.UntouchedTablesStay | backend/controllers/dailyFormController.js:153-159 | recomputing a form whose tables are those of a consistent form gives those tables back |
| Lifecycle.SubmitForm | backend/controllers/dailyFormController.js:216-263 | a cashier is refused, a missing form is not found, and a non-draft is refused. A failed validation answers the validator's message without saving, and a form that fails `required` is refused with a 500. Otherwise the form is stored submitted, signed by the caller. The invariant is kept |
| Lifecycle.DeleteForm | backend/controllers/dailyFormController.js:315-342 | only an owner deletes; it succeeds exactly on a visible form, whatever its status, and removes only that form |
| Lifecycle.HandleChangesOnlyTarget | backend/routes/dailyForms.js:17-29 | every request changes at most the one form it names |
| Lifecycle.HandleKeepsInvariants | backend/routes/dailyForms.js:17-29 | every request keeps the store invariant and touches only forms of the caller's business |
| Lifecycle.CreateTwiceConflicts | backend/controllers/dailyFormController.js:355-358 | creating the same (business, day, shift) twice fails the second time |
| Lifecycle.UpdateIdempotent | backend/controllers/dailyFormController.js:138-212 | sending the same update twice stores what sending it once does |
| Lifecycle.RepatchItem | backend/controllers/dailyFormController.js:169-185 | re-patching a recomputed row with the same patch changes no entered value |
| Lifecycle.RemergeSameInput | backend/controllers/dailyFormController.js:153-196 | merging a patch into the recomputed result of the same merge changes no entered value |
| FormPage.Put | frontend/src/pages/DailyForms.jsx:434 | `{ ...row, [key]: value }` sets that key and keeps every other key |
| FormPage.UpdateRow | frontend/src/pages/DailyForms.jsx:432-458 | the length and every other row are unchanged; in row `idx` only `key` changes |
| FormPage.UpdateRowTwice | frontend/src/pages/DailyForms.jsx:432-458 | writing a key twice keeps the second value |
| FormPage.RemoveRow | frontend/src/pages/DailyForms.jsx:437-438 | deletes exactly the row at `idx` and keeps the others in order; an index out of range changes nothing |
| FormPage.AddSupplierRow | frontend/src/pages/DailyForms.jsx:420-431 | appends one row and keeps the others; the new row saves as a "Milk" delivery of 0 |
| FormPage.AddExpenseRow | frontend/src/pages/DailyForms.jsx:448-453 | appends one row and keeps the others; the new row saves as a cash expense of 0 |
| FormPage.AddThenRemove | frontend/src/pages/DailyForms.jsx:420-460 | removing the row just added gives the table back |
| FormPage.MirrorSupplier | frontend/src/pages/DailyForms.jsx:107-115 | the bonus is recomputed and every other key is kept |
| FormPage.MirrorItem | frontend/src/pages/DailyForms.jsx:117-138 | the stock figures are recomputed, the sales columns are normalised, and every other key (code and name included) is kept |
| FormPage.SumColumnMirrored | frontend/src/pages/DailyForms.jsx:140-152 | summing a sales column over the recomputed rows equals summing it over the rows as typed |
| FormPage.MirrorCash | frontend/src/pages/DailyForms.jsx:140-171 | the totals are column sums over the recomputed item rows and the expense rows; the counted cash is `normalizeNum` of its cell; expected cash and the difference follow |
| FormPage.OrDefault | frontend/src/pages/DailyForms.jsx:324 | `value \|\| fallback`: a falsy cell gives the fallback and a non-empty text gives itself |
| FormPage.SupplierPayload | frontend/src/pages/DailyForms.jsx:322-328 | every quantity is normalised and no bonus is sent |
| FormPage.ItemPayload | frontend/src/pages/DailyForms.jsx:330-342 | the code and name are echoed and every value column is normalised |
| FormPage.ExpensePayload | frontend/src/pages/DailyForms.jsx:344-349 | the amount is normalised; payment method defaults to "cash" and description to "" |
| FormPage.SavePayload | frontend/src/pages/DailyForms.jsx:317-357 | the meters are normalised, the notes are sent, and every table is sent in full with one element per row |
| FormPage.SaveDraft | frontend/src/pages/DailyForms.jsx:301-310 | sends exactly when a form exists and is not read-only; refuses before a form exists; does nothing on a read-only form |
| FormPage.SubmitPage | frontend/src/pages/DailyForms.jsx:376-400 | sends exactly for an owner or manager once a form exists, with the counted cash, the explanation and the notes |
| FormPage.PageRole | frontend/src/pages/DailyForms.jsx:42-45 | a missing or empty stored role reads as "cashier" |
| FormPage.PageRoleOfStored | frontend/src/pages/DailyForms.jsx:42-45 | any letter case of a role name gives the role the server knows |
| FormPage.PageGatesMatchServer | frontend/src/pages/DailyForms.jsx:52-58 | the page offers submitting and creating to exactly the roles the server lets through, and offers editing values to every role |
| FormPage.LockedMatchesServer | frontend/src/pages/DailyForms.jsx:71 | the page is read-only for exactly the forms the server refuses to update |
| FormPage.PatchForAligned | frontend/src/pages/DailyForms.jsx:330-342 | each stored row finds the patch built from its own page row |
| FormPage.SaveStoresTables | frontend/src/pages/DailyForms.jsx:317-357 | a cashier's save replaces the supplier table and patches the item rows with the page's values |
| FormPage.SavedItemsMatchRows | frontend/src/pages/DailyForms.jsx:330-342 | row by row, a cashier's save stores the numbers the page typed |
| FormPage.SumSalesMatchesColumn | frontend/src/pages/DailyForms.jsx:140-152 | rows that store the typed numbers add up to the page's column sum |
| FormPage.SumExpensesMatchesColumn | frontend/src/pages/DailyForms.jsx:153-156 | the sent expense amounts add up to the page's expense total |
| FormPage.SuppliersAgree | frontend/src/pages/DailyForms.jsx:107-115 | the bonus the page shows on each supplier row is the one the server stores |
| FormPage.ItemsAgree | frontend/src/pages/DailyForms.jsx:117-138 | the available and closing stock the page shows on each item row are the ones the server stores |
| FormPage.SavedSalesCell | frontend/src/pages/DailyForms.jsx:330-342 | one stored sales cell is the number typed in it |
| FormPage.SalesOfMatchingRow | frontend/src/pages/DailyForms.jsx:134-136 | a row storing the three typed sales columns stores each of them |
| FormPage.SavedSalesSum | frontend/src/pages/DailyForms.jsx:140-152 | a stored sales column adds up to the page's column sum |
| FormPage.SavedCashInputs | frontend/src/pages/DailyForms.jsx:344-354 | a cashier's save stores the counted cash, the explanation and expense rows adding up to the page's total |
| FormPage.ShownCash | frontend/src/pages/DailyForms.jsx:140-171 | the page's cash summary in the shape the server stores |
| FormPage.CashOfMatchingForm | frontend/src/pages/DailyForms.jsx:140-171 | a form whose sums and cash inputs match the page recomputes to the cash summary the page shows |
| FormPage.SaveSalesAsShown | frontend/src/pages/DailyForms.jsx:140-152 | after a cashier's save, the three stored sales columns add up as on the page |
| FormPage.SaveAddsUpAsShown | frontend/src/pages/DailyForms.jsx:317-357 | after a cashier's save, the stored sales, expenses and counted cash add up as on the page |
| FormPage.CashAgrees | frontend/src/pages/DailyForms.jsx:140-171 | the cash summary the page shows is the one the server derives from the saved body |
| FormPage.MirrorAgreesWithServer | frontend/src/pages/DailyForms.jsx:107-171 | every bonus, every stock figure and every cash total the page shows equals what the server derives after the save |
| FormPage.AsWrittenKeepsStoredExpenses | backend/controllers/dailyFormController.js:159-194 | as written, the server answers a cashier's save with the expense total of the stored form |
| FormPage.StoredExpensesAsShown | backend/controllers/dailyFormController.js:159-194 | with the corrected merge, a cashier's save of a draft succeeds exactly when the page's supplier names and expense categories are not white space only and every expense row's payment method (cash when empty) is one the schema allows; then the server answers with the page's expense total |
| FormPage.SelectedMethodsListed | frontend/src/pages/DailyForms.jsx:1026-1036 | expense rows whose payment method is unset or one of the select's options (cash, mobile, bank) all carry a method the schema allows |
| FormPage.SentPaidAsRows | frontend/src/pages/DailyForms.jsx:340-345 | the body of a save sends only allowed payment methods exactly when every page row's method, with "cash" for an empty one, is allowed |
| FormPage.SentNamedAsRows | frontend/src/pages/DailyForms.jsx:317-357 | the body of a save names its supplier and expense rows exactly when the page's rows are named |
| FormPage.OneExpenseTotal | frontend/src/pages/DailyForms.jsx:153-156 | one expense row of "100" makes the page's total 100 |
| FormPage.ExpenseCounterexample | backend/controllers/dailyFormController.js:159-194 | a cashier adds an expense of 100 to a new draft: the page shows 100, the handler as written stores 0, and the corrected one stores 100 |
| FormPage.ToYMD | frontend/src/pages/DailyForms.jsx:25-31 | the text has the shape year-MM-DD |
| FormPage.SplitYMD | frontend/src/pages/DailyForms.jsx:30 | the three parts of a joined date text can be read back |
| FormPage.ToYMDRoundTrip | frontend/src/pages/DailyForms.jsx:25-31 | the date text names that date and no other |
| Calendar.Weekday | backend/controllers/reportController.js:13 | `getDay()` is between 0 and 6 |
| Calendar.WeekStart | backend/controllers/reportController.js:13-17 | the start is a Monday on or before the day and at most 6 days back; a Sunday goes back 6 days |
| Calendar.WeekRange | backend/controllers/reportController.js:10-24 | the range holds the whole given day and spans exactly seven days |
| Calendar.SameWeekSameRange | backend/controllers/reportController.js:10-24 | every day of a week gives the same range |
| Calendar.WeekRangeHoldsItsDays | backend/controllers/reportController.js:10-24 | a day lies in a week's range exactly when it is one of its seven days |
| Calendar.WholeYear | backend/controllers/reportController.js:26-34 | the months add up to the length of the year |
| Calendar.LeapStep | backend/controllers/reportController.js:26-34 | the leap-year count grows by one exactly at a leap year |
| Calendar.NextYearStart | backend/controllers/reportController.js:26-34 | consecutive years are as far apart as the first is long |
| Calendar.MonthRangeSpansMonth | backend/controllers/reportController.js:26-34 | the range runs from day 1 of the month to its last day, through `new Date(y, m, 0)`; the year is the one `new Date` reads, so years 0 to 99 give the months of 1900 to 1999 |
| Calendar.FebruaryLength | backend/controllers/reportController.js:31 | February has 29 days exactly in leap years |
| Calendar.MonthsAdjacent | backend/controllers/reportController.js:26-34 | consecutive month ranges meet without gap or overlap, also across year ends, exactly except after December of the years -1 and 99, where the two-digit year rule makes the next January jump |
| Calendar.MonthThenNext | backend/controllers/reportController.js:26-34 | within a year, the next month starts right after the month's last instant, two-digit years included |
| Calendar.DecemberThenJanuary | backend/controllers/reportController.js:26-34 | January of the next year starts right after December's last instant exactly when the year is neither -1 nor 99 |
| Reports.Selected | backend/controllers/reportController.js:70-75 | the selection keeps, in order, exactly the submitted forms of the caller's business in range and of the shift |
| Reports.TotalAppend | backend/controllers/reportController.js:78-99 | a total over two lists is the sum of the totals |
| Reports.TotalAgrees | backend/controllers/reportController.js:78-99 | two per-form figures that agree on every form give the same total |
| Reports.SalesOf | backend/controllers/reportController.js:78-99 | the totals are the column sums over the selected forms, and totalSales = cash + bank + debt |
| Reports.WeeklySales | backend/controllers/reportController.js:62-127 | a cashier is refused by the route gate and a missing date is refused before any query. Otherwise the totals are taken over the week's selection |
| Reports.WeeklyExpenses | backend/controllers/reportController.js:133-182 | the same gates; the total is the sum of the expense amounts of the week's selection |
| Reports.StockBalance | backend/controllers/reportController.js:188-240 | a missing start or end date is refused. Otherwise the report holds the selection every report uses, and a stored form is in it exactly when it is a submitted form of the caller's business, of a day from the start to the end date, and of the chosen shift unless that is "All" |
| Reports.DayInstantInRange | backend/controllers/reportController.js:196-198 | a day lies in the range exactly when it is between the first and last day |
| Reports.MonthTotalsOf | backend/controllers/reportController.js:262-288 | the days submitted and the sums of the cash summaries; totalSales = cash + bank + debt; netCashPosition = cash in − expenses |
| Reports.MonthlySummary | backend/controllers/reportController.js:246-365 | a caller who may not read reports is refused and a missing month is refused; otherwise it succeeds, over the range of `monthRangeFromYYYYMM` (years 0 to 99 read as 1900 to 1999), with the totals of the month's selection |
| Reports.WeeklySalesSameForWholeWeek | backend/controllers/reportController.js:10-24 | every day of a week yields the same weekly reports |
| Reports.WeeklyReportDays | backend/controllers/reportController.js:70-75 | a form counts in a weekly report exactly when it is submitted, of the caller's business and shift, and dated in that Monday-to-Sunday week |
| Reports.MonthlyReportDays | backend/controllers/reportController.js:254-259 | a form counts in a monthly report exactly when it is dated in that calendar month of the year `new Date` reads (years 0 to 99 as 1900 to 1999) and passes the same filters |
| Reports.ShiftFilter | backend/controllers/reportController.js:75 | "All" keeps both shifts; any other name than "Morning" or "Evening" keeps nothing |
| Reports.MonthlyAgreesWithRows | backend/controllers/reportController.js:262-288 | on consistent forms the monthly totals equal the sums over the item and expense rows |
| Reports.MonthTotalsAdd | backend/controllers/reportController.js:262-288 | the monthly totals of two lists add up |
| Products.CreateProduct | backend/controllers/productController.js:5-43 | a cashier is refused by the route gate; a caller without a business is answered "Missing businessId for user"; a missing code or name is refused. The request succeeds exactly when the caller has a business, code and name are sent and not blank, the three numbers are not negative and the trimmed code is free in the business. A code or name of white space only, or a negative number, fails the schema and is answered with a 500; a code taken is refused. Code, name, unit and category are stored trimmed, unit and category default to "pcs" and "general", and the numbers to 0. The catalogue invariant, schema constraints included, is kept |
| Products.PatchText | backend/controllers/productController.js:98-101 | an absent key keeps the value; a present one is stored trimmed |
| Products.PatchNumber | backend/controllers/productController.js:102-104 | an absent key keeps the value; `null` stores 0 |
| Products.PatchFlag | backend/controllers/productController.js:105 | an absent key keeps the flag; a present one stores its truthiness |
| Products.ApplyPatch | backend/controllers/productController.js:97-107 | each field follows its own key; the id, business and creator are kept; the caller becomes the last editor |
| Products.EmptyPatchKeepsProduct | backend/controllers/productController.js:97-107 | an empty body changes only the last editor |
| Products.UpdateProduct | backend/controllers/productController.js:87-128 | a cashier is refused and a product of another business is not found. A patched code or name of white space only, or a negative number, fails the schema and is answered with a 500. A code taken by another product is refused. Otherwise exactly that product is patched |
| Products.DeactivateProduct | backend/controllers/productController.js:131-156 | sets `isActive` to false and the last editor, and changes nothing else |
| Products.DeactivateIdempotent | backend/controllers/productController.js:131-156 | deactivating twice is deactivating once |
| Products.ListProducts | backend/controllers/productController.js:46-69 | lists exactly the products of the caller's business matching the search and the `active` value ("true" by default), newest first |
| Products.OrderedByIdIncreasing | backend/controllers/productController.js:63 | the catalogue is in creation order |
| Products.FormProducts | backend/controllers/dailyFormController.js:360-365 | exactly the active products of the business (restricted to the chosen ids if any are given), newest first |
| ProductsPage.Param | frontend/src/pages/Products.jsx:154-163 | a query parameter is missing exactly when no entry has its key |
| ProductsPage.BuildQuery | frontend/src/pages/Products.jsx:154-163 | `q` is sent trimmed exactly when it is not blank; "active" sends `true` and "inactive" sends `false`; "all" sends no `active` |
| ProductsPage.ListQuery | frontend/src/pages/Products.jsx:154-163 | like `buildQuery`, except that "all" sends `active=all` |
| ProductsPage.ListQueryShowsChoice | backend/controllers/productController.js:49-54 | with the corrected query, a product is fetched exactly when the chosen status fits it |
| ProductsPage.AllFetchesOnlyActive | backend/controllers/productController.js:49-54 | as written, "all" fetches only active products |
| ProductsPage.AllCounterexample | frontend/src/pages/Products.jsx:160 | one inactive product: "all" as written fetches nothing, and the corrected query fetches it |
| ProductsPage.ValidateForm | frontend/src/pages/Products.jsx:188-198 | null exactly when all checks pass; otherwise the first failing check, in the order code, name, selling price, cost price, reorder level |
| ProductsPage.UnreadablePricePasses | frontend/src/pages/Products.jsx:191-192 | a price text that is not a number reads as 0 and passes |
| ProductsPage.SaveProduct | frontend/src/pages/Products.jsx:200-236 | a role other than owner or manager is refused, and a failing check shows its message. Otherwise it posts in create mode and puts in edit mode |
| ProductsPage.SavedFormCreates | frontend/src/pages/Products.jsx:217-226 | a form the page lets through is created with the trimmed code and name and prices that are not negative, unless its code is taken |
| ProductsPage.SavedFormEdits | frontend/src/pages/Products.jsx:217-226 | an accepted edit stores the form's values as the page normalised them |
| Transactions.OrNull | backend/controllers/transactionController.js:15-22 | `x \|\| null`: an empty text becomes null |
| Transactions.Trimmed | backend/models/Transaction.js:39-42 | a trimmed path keeps presence, and is empty exactly when the text is blank |
| Transactions.InsertTransaction | backend/controllers/transactionController.js:9-26 | the save succeeds exactly when the business and the recording user are known, the body has its date, type, quantity and unit price, and a payment method it sends is one of the `enum` of backend/models/Transaction.js:34-38 (cash, card, bank_transfer, check); it stores a new document with totalAmount = quantity × unitPrice, the payment method defaulting to cash, the defaults and the trimmed texts, and keeps the ledger invariant |
| Transactions.RecordTransactionAsWritten | backend/controllers/transactionController.js:23 | as written, every request is answered with a 500 and the ledger is unchanged |
| Transactions.AsWrittenLedgerStaysEmpty | backend/controllers/transactionController.js:4-45 | as written, recording any sequence of transactions into an empty ledger leaves it empty |
| Transactions.RecordTransaction | backend/controllers/transactionController.js:4-45 | with the user id the token carries: succeeds exactly when the caller has a business, the body has its date, type, quantity and unit price, and any payment method sent is cash, card, bank_transfer or check; otherwise it answers 500 and changes nothing. The new document carries the caller as recording user and totalAmount = quantity × unitPrice. The ledger invariant is kept |
| Transactions.OrNumber | backend/controllers/transactionController.js:124-125 | 0 or missing keeps the stored number |
| Transactions.OrDescription | backend/controllers/transactionController.js:128 | an empty or missing description keeps the stored one; a given one is stored trimmed |
| Transactions.ApplyUpdate | backend/controllers/transactionController.js:124-128 | falsy values keep the stored ones, the total is recomputed from the results, and no other field changes |
| Transactions.FalsyPatchKeeps | backend/controllers/transactionController.js:124-128 | an all-falsy body leaves a document unchanged exactly when its total is already quantity × unitPrice |
| Transactions.ApplyUpdateIdempotent | backend/controllers/transactionController.js:124-128 | sending the same correction twice stores what sending it once does |
| Transactions.CorrectTransaction | backend/controllers/transactionController.js:116-130 | a document outside the caller's business is not found. On a found one the save succeeds exactly when the corrected payment method is in the schema's `enum`, which on a valid ledger means the patch sends none, an empty one or an allowed one; otherwise it answers 500. Only that document changes, and the invariant is kept |
| Transactions.UpdateTransaction | backend/controllers/transactionController.js:110-150 | with the user id the token carries: a document outside the caller's business is not found; a found one is answered with success exactly when the corrected payment method is in the `enum` (on a valid ledger: the patch sends none, an empty one or an allowed one), and otherwise with a 500. A refused request changes nothing; only the target document changes. The invariant is kept |
| Transactions.UpdateTransactionAsWritten | backend/controllers/transactionController.js:132-140 | as written, the correction is stored as by the corrected handler, so only a found document with an allowed payment method is ever changed, and a found document is still answered with a 500 |
| Transactions.RemoveTransaction | backend/controllers/transactionController.js:157-167 | only owners delete; a missing document is not found; only that document is removed |
| Transactions.DeleteTransaction | backend/controllers/transactionController.js:152-185 | with the user id the token carries: answers success exactly on an owner's request for a document of the business, which is then removed; any other request changes nothing |
| Transactions.DeleteTransactionAsWritten | backend/controllers/transactionController.js:169-176 | as written, the removal happens as in the corrected handler, and no request is answered with success |
| Transactions.DeletedIsGone | backend/controllers/transactionController.js:161-165 | a deleted transaction can no longer be updated or deleted |
| Transactions.RecordThenUpdate | backend/controllers/transactionController.js:4-150 | a recorded transaction is found by its business under its new id; correcting it succeeds exactly when the patch sends no payment method, an empty one or an allowed one, and keeps the ledger invariant |
| Users.AddUser | backend/controllers/userController.js:5-53 | a non-owner is refused, and an email already registered (compared trimmed and lower-cased) is refused. The add succeeds exactly when the email is new and the required paths are filled. The directory invariant is kept |
| Users.OrName | backend/controllers/userController.js:93-94 | an empty or missing name keeps the stored one |
| Users.Patched | backend/controllers/userController.js:93-96 | falsy names and role keep the stored values; `isActive` changes exactly when the key is present |
| Users.PatchedIdempotent | backend/controllers/userController.js:93-96 | sending the same edit twice stores what sending it once does |
| Users.UpdateUser | backend/controllers/userController.js:71-125 | owner check, then the id check, then the lookup. It succeeds exactly on a valid id found in the caller's business. The invariant is kept |
| Users.DeleteUser | backend/controllers/userController.js:127-164 | owner check, then the id check; succeeds exactly on a user found in the caller's business and removes only it |
| Users.InvalidIdBeforeLookup | backend/controllers/userController.js:81-83 | a malformed id is answered before the users are looked at: the directory makes no difference |
| Users.AddedEmailTaken | backend/controllers/userController.js:14-17 | adding an email again, in any case and with any spaces around it, is refused |
| Suppliers.TrimmedText | backend/models/Supplier.js:9-30 | a path declared with `trim` keeps its presence: a missing value stays missing and a given one stays given |
| Suppliers.EmailText | backend/models/Supplier.js:22-26 | the email path, trimmed and lower-cased, keeps its presence |
| Suppliers.InsertSupplier | backend/controllers/supplierController.js:6-25 | a (business, trimmed name) already used is refused; the save succeeds exactly when the caller has a business, the trimmed name is free and not empty, and a delivery frequency it sends is one of the `enum` of backend/models/Supplier.js:31-35 (daily, weekly, bi-weekly, monthly); any other failure is a 500. The new supplier is stored trimmed, with the frequency defaulting to daily, and the store invariant is kept |
| Suppliers.CreateSupplier | backend/controllers/supplierController.js:4-44 | with the user id the token carries: answers success exactly when the save succeeds (free, non-empty name and an allowed delivery frequency), and otherwise answers its failure with nothing changed. The store invariant is kept |
| Suppliers.CreateSupplierAsWritten | backend/controllers/supplierController.js:27-34 | as written, the supplier is stored as by the corrected handler (so only with an allowed delivery frequency), and no request is answered with success |
| Suppliers.AsWrittenRetryExists | backend/controllers/supplierController.js:9-34 | as written, a created supplier is answered with a 500, and sending the same request again is answered "Supplier already exists" |
| Suppliers.OrTrimmed | backend/controllers/supplierController.js:105-110 | a sent text is stored trimmed and a missing one keeps the stored value |
| Suppliers.OrEmail | backend/controllers/supplierController.js:108 | a sent email is stored trimmed and lower-cased |
| Suppliers.Patched | backend/controllers/supplierController.js:105-113 | each of the six texts is stored as sent (trimmed, and the email lower-cased) and otherwise falls back on the stored value; `productIds` is replaced only when sent; business and status are kept |
| Suppliers.NoChangesKeeps | backend/controllers/supplierController.js:105-113 | a body with nothing truthy changes nothing |
| Suppliers.PatchedIdempotent | backend/controllers/supplierController.js:105-113 | sending the same edit twice stores what sending it once does |
| Suppliers.OrTrimmedIdempotent | backend/controllers/supplierController.js:105-110 | applying the same trimmed text twice stores what applying it once does |
| Suppliers.LowerTrimmed | backend/models/Supplier.js:22-26 | lower-casing a trimmed email keeps it trimmed |
| Suppliers.EditSupplier | backend/controllers/supplierController.js:91-115 | a supplier outside the caller's business is not found; any other failure is a 500. The save succeeds exactly when the patched name is not empty and not taken and the patched delivery frequency is in the `enum` of backend/models/Supplier.js:31-35, which on a valid store means the patch sends none or an allowed one. Only that supplier changes |
| Suppliers.UpdateSupplier | backend/controllers/supplierController.js:91-135 | with the user id the token carries: answers success exactly when the save succeeds (name free and not empty, delivery frequency allowed), and then stores the patched supplier; otherwise nothing changes |
| Suppliers.UpdateSupplierAsWritten | backend/controllers/supplierController.js:117-125 | as written, the edit is stored as by the corrected handler (so only with an allowed delivery frequency), and no request is answered with success |
| Suppliers.RetireSupplier | backend/controllers/supplierController.js:142-153 | owner-only soft delete: `isActive` becomes false, the document stays, and nothing else changes |
| Suppliers.DeleteSupplier | backend/controllers/supplierController.js:137-171 | with the user id the token carries: answers success exactly on an owner's request for a supplier of the business, which is then retired; any other request changes nothing |
| Suppliers.DeleteSupplierAsWritten | backend/controllers/supplierController.js:155-162 | as written, the supplier is retired as in the corrected handler, and no request is answered with success |
| Suppliers.Listed | backend/controllers/supplierController.js:46-69 | an id is listed exactly when it names an active supplier of the caller's business |
| Suppliers.ListedAfterCreate | backend/controllers/supplierController.js:4-69 | a created supplier is listed and the others stay as they were |
| Suppliers.ListedAfterDelete | backend/controllers/supplierController.js:137-171 | a deleted supplier is no longer listed and the others stay as they were |
| UsersPage.RoleLabel | frontend/src/pages/Users.jsx:22-27 | "Owner" and "Manager" for those names in any case; "Cashier" for anything else, a missing role included |
| UsersPage.StoredRoleLabels | frontend/src/pages/Users.jsx:22-27 | each stored role gets its own label |
| UsersPage.FilteredUsers | frontend/src/pages/Users.jsx:104-115 | a blank search returns the list unchanged. Otherwise the result is an order-preserving subsequence of exactly the users whose full name, email or role contains the lower-cased query |
| UsersPage.AddUser | frontend/src/pages/Users.jsx:214-228 | refuses missing fields first, then passwords shorter than 8 characters; it sends exactly when all four fields are filled and the password has at least 8 characters, and the body is the trimmed email and names, the password as typed and the chosen role |
| UsersPage.SentUserAdded | frontend/src/pages/Users.jsx:222-228 | a body the page sends is accepted by an owner's `addUser` when the names are not blank and the email is new; the user stored has the chosen role and email |
| UsersPage.BlankNamePassesPageOnly | frontend/src/pages/Users.jsx:215-217 | a first name of spaces passes the page's check, and the server refuses it |

## Left out

- **Persistence.** Persistence, Mongoose and the unique indexes are abstracted to maps and sequences. The race behind the `11000` duplicate-key answers is left out; a duplicate is decided on the stored state.
- **Schema validators.** The `required`, `trim`, `min: 0` and `enum` paths of the product, daily-form, transaction and supplier schemas are modelled: the transaction payment method, the supplier delivery frequency and the expense payment method are checked against their lists, and a failed validation is answered with the 500 of the failed save. An explicit `null` for one of these is modelled like an absent key, taking the default; the `null` Mongoose would store instead is not modelled. The transaction `type` and the form `shift` and `status` are datatypes, so a request carrying a value outside those lists is not representable. Enums and `lowercase` on the user paths other than the email are not modelled.
- **Setters on later saves.** Rows enter a form trimmed at the point where they are assigned. Mongoose also runs the setters again at later saves; re-trimming a trimmed text changes nothing (`Text.TrimIdempotent`), so this is not modelled separately.
- **Request plumbing.** HTTP, Express plumbing, JWT (`protect`) and `businessAccess` are left out. The role gate `authorize(...)` is modelled as a `Forbidden` failure inside each handler.
- **Audit log.** An audit entry is modelled only by whether it can be created. Its `businessId` and `userId` are required, so a missing one fails the request with a 500 after the write it records has been stored (`Values.WriteThenAudit`, `Values.AuditEntry`). The log entries themselves are not stored.
- **Passwords.** bcrypt hashing and password storage are left out; a new user's password matters only for the page's length check.
- **Numbers.**
  - Money and quantities are integers. Floating-point rounding is outside the model.
  - `Number(text)` is modelled for an optional sign followed by decimal digits. Fractions, exponents, hexadecimal and `Infinity` read as not finite (0). This differs from JavaScript for fractions, exponents and hexadecimal (`Number("0x10")` is 16).
- **Dates.** Days are day numbers in local time, and daylight-saving shifts are ignored. The report handlers take the date and month parameters already parsed; the `YYYY-MM` text is not parsed, and invalid dates are not modelled.
- **`deviation`.** This item column is not a path of the form schema, so the store drops it. It is not modelled.
- **Aggregation output.** The aggregation stages (`$unwind`, `$group`, `$avg`, `$round`, the per-day, per-category and per-item breakdowns) are left out. The reports model the filters and the totals they sum.
- **Read-only handlers.** `listForms`, `getFormById`, `getProductById`, `getTransactions`, `getTransaction`, `getSupplier`, `getUsers` and `dailySummary` only read one document or a page of them. They are left out apart from the supplier listing, which is `Suppliers.Listed`. Pagination and sorting of `getSuppliers` are not modelled.
- **Regular expressions.** The search `$regex` of `listProducts` is modelled as a substring match on lower-cased texts, which is the `i` option on ASCII letters. Regular-expression metacharacters are outside the model.
- **Text handling.**
  - `toLowerCase` is modelled on ASCII letters only.
  - `trim` covers the ECMAScript white-space and line-terminator characters.
- **Shift names.** An unknown shift string in a daily-form request is not modelled; shifts are `Morning` or `Evening`, defaulting to `Morning`.
- **Object ids.** `ObjectId.isValid` is modelled as 24 hexadecimal digits. Twelve-character strings, which the driver also accepts, are left out.
- **Missing business.** In `createSupplier`, a caller without a business is refused with the 500 of the failing save. The preceding name lookup is not modelled.
- **Required body fields.** `Users.AddUser` and `Suppliers.CreateSupplier` take the email and the name as strings. A body missing them entirely is not modelled.
- **Message precedence.** `DeleteTransaction`, `DeleteSupplier`, `UpdateUser` and `DeleteUser` answer non-owners with the controller's message. The route gate in front of them refuses the same callers first, with `Forbidden: insufficient permissions`; only the outcome, not the message, is faithful for those callers.
- **Page state.** Page rendering, `fetch`, `localStorage`, timers and the state updates after a response are left out. So are extra keys a row object may carry beyond the ones the page reads.
- Users.AddUser, Users.UpdateUser, Users.DeleteUser: for an owner without a business, the source stores the change and then answers 500, because the audit entry requires `businessId`. The model answers success in that case.
- UsersPage.AddUser: the page's own `if (!isOwner) return;` (frontend/src/pages/Users.jsx:210) is not modelled, since the server refuses non-owners anyway.
- FormPage.SavePayload: its contract states the header values and the table lengths. The element-wise contents are stated by `FormPage.Suppliers`, `FormPage.ItemPatches` and `FormPage.Expenses`, which it is built from.
- ProductsPage.SavePayload: carries no contract of its own. What the payload does is stated through `ProductsPage.SavedFormCreates` and `ProductsPage.SavedFormEdits`.
- Lifecycle.UpdateDraft: the corrected merge (`Merge.MergeUpdate`, see Findings) is used, not the handler as written.
- Transactions.RecordTransaction, Transactions.UpdateTransaction, Transactions.DeleteTransaction, Suppliers.CreateSupplier, Suppliers.UpdateSupplier and Suppliers.DeleteSupplier: these read the user id from `req.userId`, the id the token carries (see Findings). The handlers as written are the `AsWritten` members beside them.

## Findings

| source | as written | input that shows it | evidently intended | confidence | as-written member | corrected member |
|---|---|---|---|---|---|---|
| backend/controllers/dailyFormController.js:159-194 | a cashier's `updateDraft` copies the supplier table and the item values from the body but never reads `expenses`, so no expense row can ever be stored | a cashier adds one expense row of 100 on a new draft and saves: the page shows total expenses 100, and the server stores and answers 0 | the expense table of the body replaces the stored one for a cashier, like the supplier table (the page sends it and offers a cashier add, edit and remove on expense rows) | not executed | Merge.MergeUpdateAsWritten, FormPage.ExpenseCounterexample | Merge.MergeUpdate, FormPage.StoredExpensesAsShown |
| backend/controllers/transactionController.js:23 | `recordedBy` reads `req.user.id`, but `protect` sets `req.user` to the token payload `{ userId, email, role }` (backend/middleware/auth.js:18), so it is undefined and the required path fails | any request to record a transaction: the save fails, the answer is a 500, and nothing is stored, so the ledger stays empty | the recording user is the caller, `req.userId`, as the user handlers read it | not executed | Transactions.RecordTransactionAsWritten, Transactions.AsWrittenLedgerStaysEmpty | Transactions.RecordTransaction |
| backend/controllers/supplierController.js:27-34 | the audit entries of `createSupplier`, `updateSupplier` (lines 117-125), `deleteSupplier` (lines 155-162), `updateTransaction` and `deleteTransaction` (backend/controllers/transactionController.js:132-140, 169-176) read `userId: req.user.id`, which is undefined, so `AuditLog.create` fails its required `userId` after the write | an owner creates a supplier: it is stored and the answer is a 500; sending it again is answered "Supplier already exists" | the audit entry records the caller, `req.userId`, and the request is answered with success | not executed | Suppliers.CreateSupplierAsWritten, Suppliers.AsWrittenRetryExists, Suppliers.UpdateSupplierAsWritten, Suppliers.DeleteSupplierAsWritten, Transactions.UpdateTransactionAsWritten, Transactions.DeleteTransactionAsWritten | Suppliers.CreateSupplier, Suppliers.UpdateSupplier, Suppliers.DeleteSupplier, Transactions.UpdateTransaction, Transactions.DeleteTransaction |
| frontend/src/pages/Products.jsx:154-163 | the "All" status filter sends no `active` parameter, and `listProducts` reads a missing `active` as "true" (backend/controllers/productController.js:49-53) | one inactive product, filter "All": the list comes back empty | "All" lists products of every status, which any `active` value other than "true" and "false" gives | not executed | ProductsPage.BuildQuery, ProductsPage.AllCounterexample | ProductsPage.ListQuery, ProductsPage.ListQueryShowsChoice |

Owner and manager patches to `items` and `supplierEntries` are ignored, as in the code.

=== FILE: calendar.dfy ===
/** Calendar arithmetic in local time, as the report helpers use it through JavaScript
    `Date`: days are numbered from 1970-01-01 (day 0, a Thursday), instants are
    milliseconds from the start of day 0, and months follow the proleptic Gregorian
    calendar. */
module Calendar {

  const MsPerDay: int := 86_400_000

  /** `getDay()`: 0 for Sunday up to 6 for Saturday. */
  function Weekday(d: int): (w: int)
    ensures 0 <= w < 7
  {
    (d + 4) % 7
  }

  /** The instant of 00:00:00.000 of day `d` (`setHours(0, 0, 0, 0)`). */
  function StartOfDay(d: int): int {
    d * MsPerDay
  }

  /** The instant of 23:59:59.999 of day `d` (`setHours(23, 59, 59, 999)`). */
  function EndOfDay(d: int): int {
    d * MsPerDay + MsPerDay - 1
  }

  /** An interval of instants, both ends included (`$gte` / `$lte`). */
  datatype Range = Range(start: int, end: int) {
    predicate Contains(t: int) {
      start <= t <= end
    }
  }

  /** The Monday on or before `d`: a Sunday goes back six days, any other day back to
      the Monday of its week. */
  function WeekStart(d: int): (s: int)
    ensures Weekday(s) == 1
    ensures s <= d <= s + 6
    ensures Weekday(d) == 0 ==> s == d - 6
    ensures Weekday(d) != 0 ==> s == d - (Weekday(d) - 1)
  {
    var day := Weekday(d);
    var diffToMonday := (if day == 0 then -6 else 1) - day;
    d + diffToMonday
  }

  /** `weekRangeFromDate`: Monday 00:00:00.000 to Sunday 23:59:59.999 of the week of `d`. */
  function WeekRange(d: int): (r: Range)
    ensures r.Contains(StartOfDay(d)) && r.Contains(EndOfDay(d))
    ensures r.end - r.start + 1 == 7 * MsPerDay
  {
    var start := WeekStart(d);
    Range(StartOfDay(start), EndOfDay(start + 6))
  }

  /** Every day of a week gives the same range: the weeks split the days into blocks. */
  lemma {:induction false} SameWeekSameRange(d: int, e: int)
    requires WeekStart(d) <= e <= WeekStart(d) + 6
    ensures WeekRange(e) == WeekRange(d)
  {
    var s := WeekStart(d);
    assert WeekStart(e) == s by {
      var t := WeekStart(e);
      assert Weekday(t) == 1 && Weekday(s) == 1;
      assert (t + 4) % 7 == (s + 4) % 7;
      assert -6 <= t - s <= 6;
    }
  }

  /** A day instant lies in the range of a week exactly when the day is one of its seven. */
  lemma {:induction false} WeekRangeHoldsItsDays(d: int, e: int)
    ensures WeekRange(d).Contains(StartOfDay(e)) <==> WeekStart(d) <= e <= WeekStart(d) + 6
  {
    var s := WeekStart(d);
    if WeekRange(d).Contains(StartOfDay(e)) {
      assert s * MsPerDay <= e * MsPerDay;
      assert e * MsPerDay < (s + 7) * MsPerDay;
    }
  }

  predicate IsLeap(y: int) {
    y % 4 == 0 && (y % 100 != 0 || y % 400 == 0)
  }

  function YearLength(y: int): int {
    if IsLeap(y) then 366 else 365
  }

  function DaysInMonth(y: int, m: int): int
    requires 1 <= m <= 12
  {
    if m == 2 then (if IsLeap(y) then 29 else 28)
    else if m == 4 || m == 6 || m == 9 || m == 11 then 30
    else 31
  }

  /** The days of year `y` before the first of month `m` (`m == 13`: the whole year). */
  function DaysBeforeMonth(y: int, m: int): int
    requires 1 <= m <= 13
  {
    if m == 1 then 0 else DaysBeforeMonth(y, m - 1) + DaysInMonth(y, m - 1)
  }

  lemma {:induction false} WholeYear(y: int)
    ensures DaysBeforeMonth(y, 13) == YearLength(y)
  {
    var feb := DaysInMonth(y, 2);
    assert DaysBeforeMonth(y, 1) == 0;
    assert DaysBeforeMonth(y, 2) == DaysBeforeMonth(y, 1) + 31;
    assert DaysBeforeMonth(y, 3) == DaysBeforeMonth(y, 2) + feb;
    assert DaysBeforeMonth(y, 4) == DaysBeforeMonth(y, 3) + 31;
    assert DaysBeforeMonth(y, 5) == DaysBeforeMonth(y, 4) + 30;
    assert DaysBeforeMonth(y, 6) == DaysBeforeMonth(y, 5) + 31;
    assert DaysBeforeMonth(y, 7) == DaysBeforeMonth(y, 6) + 30;
    assert DaysBeforeMonth(y, 8) == DaysBeforeMonth(y, 7) + 31;
    assert DaysBeforeMonth(y, 9) == DaysBeforeMonth(y, 8) + 31;
    assert DaysBeforeMonth(y, 10) == DaysBeforeMonth(y, 9) + 30;
    assert DaysBeforeMonth(y, 11) == DaysBeforeMonth(y, 10) + 31;
    assert DaysBeforeMonth(y, 12) == DaysBeforeMonth(y, 11) + 30;
    assert DaysBeforeMonth(y, 13) == DaysBeforeMonth(y, 12) + 31;
  }

  /** The leap years among 1 .. y - 1 (shifted consistently for earlier years). */
  function LeapsBefore(y: int): int {
    (y - 1) / 4 - (y - 1) / 100 + (y - 1) / 400
  }

  /** The day number of 1 January of year `y`. */
  function YearStart(y: int): int {
    365 * (y - 1970) + LeapsBefore(y) - LeapsBefore(1970)
  }

  lemma StepDiv(y: int, k: int)
    requires k == 4 || k == 100 || k == 400
    ensures y / k - (y - 1) / k == if y % k == 0 then 1 else 0
  {
  }

  lemma Div400(y: int)
    requires y % 400 == 0
    ensures y % 100 == 0
  {
  }

  lemma Div100(y: int)
    requires y % 100 == 0
    ensures y % 4 == 0
  {
  }

  /** A year adds one to the leap years before the next exactly when it is itself a leap year. */
  lemma {:induction false} LeapStep(y: int)
    ensures LeapsBefore(y + 1) - LeapsBefore(y) == if IsLeap(y) then 1 else 0
  {
    StepDiv(y, 4);
    StepDiv(y, 100);
    StepDiv(y, 400);
    if y % 400 == 0 {
      Div400(y);
      Div100(y);
    } else if y % 100 == 0 {
      Div100(y);
    }
  }

  /** Consecutive years are as far apart as the first one is long. */
  lemma {:induction false} NextYearStart(y: int)
    ensures YearStart(y + 1) == YearStart(y) + YearLength(y)
  {
    LeapStep(y);
  }

  /** The day number of the date `y`-`m`-`d` of the calendar. */
  function CivilDay(y: int, m: int, d: int): int
    requires 1 <= m <= 12
  {
    YearStart(y) + DaysBeforeMonth(y, m) + d - 1
  }

  /** The year `new Date(y, monthIndex, d)` reads from its first argument: a whole
      number from 0 to 99 names a year of the twentieth century. */
  function FullYear(y: int): int {
    if 0 <= y <= 99 then 1900 + y else y
  }

  /** `new Date(y, monthIndex, d)`: the year is read by `FullYear` first, then a month
      index outside 0 .. 11 moves into the neighbouring years and a day outside the month
      moves into the neighbouring months. */
  function DateDay(y: int, monthIndex: int, d: int): int {
    CivilDay(FullYear(y) + monthIndex / 12, monthIndex % 12 + 1, 1) + d - 1
  }

  /** `monthRangeFromYYYYMM` for year `y` and month `m` (1 for January). */
  function MonthRange(y: int, m: int): Range {
    Range(StartOfDay(DateDay(y, m - 1, 1)), EndOfDay(DateDay(y, m, 0)))
  }

  /** The month range runs from the first to the last day of the month, in the year
      `new Date` reads: years 0 to 99 give the months of 1900 to 1999. */
  lemma {:induction false} MonthRangeSpansMonth(y: int, m: int)
    requires 1 <= m <= 12
    ensures var fy := if 0 <= y <= 99 then 1900 + y else y;
            MonthRange(y, m) == Range(StartOfDay(CivilDay(fy, m, 1)), EndOfDay(CivilDay(fy, m, DaysInMonth(fy, m))))
  {
    var fy := FullYear(y);
    assert (m - 1) / 12 == 0 && (m - 1) % 12 == m - 1;
    if m == 12 {
      assert 12 / 12 == 1 && 12 % 12 == 0;
      NextYearStart(fy);
      WholeYear(fy);
    } else {
      assert m / 12 == 0 && m % 12 == m;
    }
  }

  /** February has 29 days exactly in leap years. */
  lemma FebruaryLength(y: int)
    ensures DaysInMonth(y, 2) == 29 <==> IsLeap(y)
    ensures DaysInMonth(y, 2) == 28 <==> !IsLeap(y)
  {
  }

  /** The month ranges follow each other without gap or overlap, across year ends too,
      except where `FullYear` jumps: December of year 99 is December 1999 while January of
      year 100 is January 100, and December of year -1 is followed by January 1900. */
  lemma {:induction false} MonthsAdjacent(y: int, m: int)
    requires 1 <= m <= 12
    ensures var next := if m == 12 then MonthRange(y + 1, 1) else MonthRange(y, m + 1);
            next.start == MonthRange(y, m).end + 1 <==> m < 12 || (y != -1 && y != 99)
  {
    if m == 12 {
      DecemberThenJanuary(y);
    } else {
      MonthThenNext(y, m);
    }
  }

  lemma {:induction false} MonthThenNext(y: int, m: int)
    requires 1 <= m < 12
    ensures MonthRange(y, m + 1).start == MonthRange(y, m).end + 1
  {
    var fy := FullYear(y);
    MonthRangeSpansMonth(y, m);
    MonthRangeSpansMonth(y, m + 1);
    var last := CivilDay(fy, m, DaysInMonth(fy, m));
    assert MonthRange(y, m).end == EndOfDay(last);
    assert MonthRange(y, m + 1).start == StartOfDay(last + 1);
  }

  /** January of the next year follows December's last instant exactly when `FullYear`
      steps by one from the one year to the next. */
  lemma {:induction false} DecemberThenJanuary(y: int)
    ensures MonthRange(y + 1, 1).start == MonthRange(y, 12).end + 1 <==> y != -1 && y != 99
  {
    var fy, next := FullYear(y), FullYear(y + 1);
    DecemberEnd(y);
    JanuaryStart(y + 1);
    if y == 99 || y == -1 {
      CenturyJumps();
      StartOfDayInjective(YearStart(next), YearStart(fy + 1));
    } else {
      assert next == fy + 1;
    }
  }

  /** The instant after December of year `y` starts the year after the one `FullYear`
      reads. */
  lemma {:induction false} DecemberEnd(y: int)
    ensures MonthRange(y, 12).end + 1 == StartOfDay(YearStart(FullYear(y) + 1))
  {
    var fy := FullYear(y);
    MonthRangeSpansMonth(y, 12);
    NextYearStart(fy);
    WholeYear(fy);
  }

  /** January of year `y` starts with the year `FullYear` reads. */
  lemma {:induction false} JanuaryStart(y: int)
    ensures MonthRange(y, 1).start == StartOfDay(YearStart(FullYear(y)))
  {
    MonthRangeSpansMonth(y, 1);
  }

  lemma StartOfDayInjective(a: int, b: int)
    requires a != b
    ensures StartOfDay(a) != StartOfDay(b)
  {
  }

  /** The years `FullYear` jumps between start on different days. */
  lemma CenturyJumps()
    ensures YearStart(100) < YearStart(2000)
    ensures YearStart(0) < YearStart(1900)
  {
  }
}

=== FILE: client_form.dfy ===
/** The daily-form page: how it reads the numbers typed into its inputs, the derived
    values it shows before saving, its row editing, the request bodies it sends, and the
    flags that decide what a role may do on it. */
module FormPage {
  import opened Values
  import opened Text
  import opened Inputs
  import opened DailyForm
  import opened Derive
  import opened Merge
  import opened Lifecycle

  /** The keys the page's rows use. */
  datatype Key =
    | SupplierName | Product | OrderedQty | ActualQty | BonusQty | QtyAfterBoiling
    | ItemCode | ItemName | OpeningStock | NewStockIn | SpoiledDisposed | TotalAvailable
    | QtySold | SalesCash | SalesBank | SalesDebt | ClosingStock
    | Category | Description | Amount | PaymentMethod

  /** A table row: one cell per key a row object may carry, `Absent` for a key it lacks. */
  datatype Row = Row(
    supplierName: Cell,
    product: Cell,
    orderedQty: Cell,
    actualQty: Cell,
    bonusQty: Cell,
    qtyAfterBoiling: Cell,
    itemCode: Cell,
    itemName: Cell,
    openingStock: Cell,
    newStockIn: Cell,
    spoiledDisposed: Cell,
    totalAvailable: Cell,
    qtySold: Cell,
    salesCash: Cell,
    salesBank: Cell,
    salesDebt: Cell,
    closingStock: Cell,
    category: Cell,
    description: Cell,
    amount: Cell,
    paymentMethod: Cell)

  const EmptyRow: Row := Row(Absent, Absent, Absent, Absent, Absent, Absent, Absent, Absent, Absent, Absent, Absent, Absent, Absent, Absent, Absent, Absent, Absent, Absent, Absent, Absent, Absent)

  /** `row[key]` */
  function Get(row: Row, key: Key): Cell {
    match key
    case SupplierName => row.supplierName
    case Product => row.product
    case OrderedQty => row.orderedQty
    case ActualQty => row.actualQty
    case BonusQty => row.bonusQty
    case QtyAfterBoiling => row.qtyAfterBoiling
    case ItemCode => row.itemCode
    case ItemName => row.itemName
    case OpeningStock => row.openingStock
    case NewStockIn => row.newStockIn
    case SpoiledDisposed => row.spoiledDisposed
    case TotalAvailable => row.totalAvailable
    case QtySold => row.qtySold
    case SalesCash => row.salesCash
    case SalesBank => row.salesBank
    case SalesDebt => row.salesDebt
    case ClosingStock => row.closingStock
    case Category => row.category
    case Description => row.description
    case Amount => row.amount
    case PaymentMethod => row.paymentMethod
  }

  /** `{ ...row, [key]: value }` */
  function Put(row: Row, key: Key, value: Cell): (r: Row)
    ensures Get(r, key) == value
    ensures forall k :: k != key ==> Get(r, k) == Get(row, k)
  {
    match key
    case SupplierName => row.(supplierName := value)
    case Product => row.(product := value)
    case OrderedQty => row.(orderedQty := value)
    case ActualQty => row.(actualQty := value)
    case BonusQty => row.(bonusQty := value)
    case QtyAfterBoiling => row.(qtyAfterBoiling := value)
    case ItemCode => row.(itemCode := value)
    case ItemName => row.(itemName := value)
    case OpeningStock => row.(openingStock := value)
    case NewStockIn => row.(newStockIn := value)
    case SpoiledDisposed => row.(spoiledDisposed := value)
    case TotalAvailable => row.(totalAvailable := value)
    case QtySold => row.(qtySold := value)
    case SalesCash => row.(salesCash := value)
    case SalesBank => row.(salesBank := value)
    case SalesDebt => row.(salesDebt := value)
    case ClosingStock => row.(closingStock := value)
    case Category => row.(category := value)
    case Description => row.(description := value)
    case Amount => row.(amount := value)
    case PaymentMethod => row.(paymentMethod := value)
  }

  // ---------------------------------------------------------------------------------
  // Row editing
  // ---------------------------------------------------------------------------------

  /** `prev.map((r, i) => (i === idx ? { ...r, [key]: value } : r))`, shared by the
      supplier, item and expense tables. */
  function UpdateRow(rows: seq<Row>, idx: int, key: Key, value: Cell): (r: seq<Row>)
    ensures |r| == |rows|
    ensures forall i :: 0 <= i < |rows| && i != idx ==> r[i] == rows[i]
    ensures 0 <= idx < |rows| ==> Get(r[idx], key) == value
    ensures 0 <= idx < |rows| ==> forall k :: k != key ==> Get(r[idx], k) == Get(rows[idx], k)
  {
    seq(|rows|, i requires 0 <= i < |rows| => if i == idx then Put(rows[i], key, value) else rows[i])
  }

  /** Writing a key twice keeps the second value. */
  lemma UpdateRowTwice(rows: seq<Row>, idx: int, key: Key, a: Cell, b: Cell)
    ensures UpdateRow(UpdateRow(rows, idx, key, a), idx, key, b) == UpdateRow(rows, idx, key, b)
  {
    var r1 := UpdateRow(UpdateRow(rows, idx, key, a), idx, key, b);
    var r2 := UpdateRow(rows, idx, key, b);
    if 0 <= idx < |rows| {
      assert r1[idx] == r2[idx];
    }
  }

  /** The rows from position `from` on, without the one at `idx`. */
  function KeepOthers(rows: seq<Row>, idx: int, from: nat): (r: seq<Row>)
    requires from <= |rows|
    ensures from <= idx < |rows| ==> r == rows[from..idx] + rows[idx + 1..]
    ensures !(from <= idx < |rows|) ==> r == rows[from..]
    decreases |rows| - from
  {
    if from == |rows| then []
    else
      var rest := KeepOthers(rows, idx, from + 1);
      if from == idx then rest
      else
        assert [rows[from]] + rows[from + 1..] == rows[from..];
        assert from + 1 <= idx < |rows| ==> [rows[from]] + rows[from + 1..idx] == rows[from..idx];
        [rows[from]] + rest
  }

  /** `prev.filter((_, i) => i !== idx)` */
  function RemoveRow(rows: seq<Row>, idx: int): (r: seq<Row>)
    ensures 0 <= idx < |rows| ==> |r| == |rows| - 1 && r == rows[..idx] + rows[idx + 1..]
    ensures !(0 <= idx < |rows|) ==> r == rows
  {
    assert rows[0..] == rows;
    KeepOthers(rows, idx, 0)
  }

  const BlankSupplierRow: Row :=
    EmptyRow.(supplierName := Chars(""), product := Chars("Milk"), orderedQty := Chars(""),
              actualQty := Chars(""), qtyAfterBoiling := Chars(""))

  const BlankExpenseRow: Row :=
    EmptyRow.(category := Chars(""), description := Chars(""), amount := Chars(""),
              paymentMethod := Chars("cash"))

  /** `addSupplierRow`: one blank row at the end, which saves as a "Milk" delivery with
      every quantity 0. */
  function AddSupplierRow(rows: seq<Row>): (r: seq<Row>)
    ensures |r| == |rows| + 1 && r[..|rows|] == rows
    ensures SupplierPayload(MirrorSupplier(r[|rows|])) == SupplierEntry("", "Milk", Some(0), Some(0), None, Some(0))
  {
    BlankSupplierNumbers();
    rows + [BlankSupplierRow]
  }

  /** `addExpenseRow`: one blank row at the end, which saves as a cash expense of 0. */
  function AddExpenseRow(rows: seq<Row>): (r: seq<Row>)
    ensures |r| == |rows| + 1 && r[..|rows|] == rows
    ensures ExpensePayload(r[|rows|]) == Expense("", "", Some(0), "cash")
  {
    assert ParseNumber("") == Some(0) by { assert AllSpace(""); }
    rows + [BlankExpenseRow]
  }

  lemma BlankSupplierNumbers()
    ensures NormalizeNum(BlankSupplierRow.orderedQty) == 0
    ensures NormalizeNum(BlankSupplierRow.actualQty) == 0
    ensures NormalizeNum(BlankSupplierRow.qtyAfterBoiling) == 0
  {
    assert ParseNumber("") == Some(0) by { assert AllSpace(""); }
  }

  /** Removing the row just added gives the table back. */
  lemma AddThenRemove(rows: seq<Row>)
    ensures RemoveRow(AddSupplierRow(rows), |rows|) == rows
    ensures RemoveRow(AddExpenseRow(rows), |rows|) == rows
  {
    var s := AddSupplierRow(rows);
    assert s[..|rows|] == rows && s[|rows| + 1..] == [];
    var e := AddExpenseRow(rows);
    assert e[..|rows|] == rows && e[|rows| + 1..] == [];
  }

  // ---------------------------------------------------------------------------------
  // The derived values the page shows
  // ---------------------------------------------------------------------------------

  function MirrorBonus(row: Row): int {
    NormalizeNum(row.actualQty) - NormalizeNum(row.orderedQty)
  }

  /** One row of `computedSupplierEntries`. */
  function MirrorSupplier(row: Row): (r: Row)
    ensures r.bonusQty == Numeric(MirrorBonus(row))
    ensures forall k :: k != BonusQty ==> Get(r, k) == Get(row, k)
  {
    row.(bonusQty := Numeric(MirrorBonus(row)))
  }

  function MirrorAvailable(row: Row): int {
    Max0(NormalizeNum(row.openingStock) + NormalizeNum(row.newStockIn)
         - NormalizeNum(row.spoiledDisposed))
  }

  function MirrorClosing(row: Row): int {
    Max0(MirrorAvailable(row) - NormalizeNum(row.qtySold))
  }

  /** The keys a row of `computedItems` recomputes. */
  predicate Recomputed(k: Key) {
    k == TotalAvailable || k == ClosingStock || k == SalesCash || k == SalesBank || k == SalesDebt
  }

  /** One row of `computedItems`: the two stock figures recomputed and the sales
      columns normalised; every other key, code and name included, as it was. */
  function MirrorItem(row: Row): (r: Row)
    ensures r.totalAvailable == Numeric(MirrorAvailable(row))
    ensures r.closingStock == Numeric(MirrorClosing(row))
    ensures r.salesCash == Numeric(NormalizeNum(row.salesCash))
    ensures r.salesBank == Numeric(NormalizeNum(row.salesBank))
    ensures r.salesDebt == Numeric(NormalizeNum(row.salesDebt))
    ensures forall k :: !Recomputed(k) ==> Get(r, k) == Get(row, k)
  {
    row.(totalAvailable := Numeric(MirrorAvailable(row)),
         closingStock := Numeric(MirrorClosing(row)),
         salesCash := Numeric(NormalizeNum(row.salesCash)),
         salesBank := Numeric(NormalizeNum(row.salesBank)),
         salesDebt := Numeric(NormalizeNum(row.salesDebt)))
  }

  /** The sales columns, which the recomputed rows only normalise. */
  predicate SalesKey(k: Key) {
    k == SalesCash || k == SalesBank || k == SalesDebt
  }

  function MirrorItems(rows: seq<Row>): (r: seq<Row>)
    ensures |r| == |rows|
    ensures forall i :: 0 <= i < |rows| ==> r[i] == MirrorItem(rows[i])
  {
    seq(|rows|, i requires 0 <= i < |rows| => MirrorItem(rows[i]))
  }

  function MirrorSuppliers(rows: seq<Row>): (r: seq<Row>)
    ensures |r| == |rows|
    ensures forall i :: 0 <= i < |rows| ==> r[i] == MirrorSupplier(rows[i])
  {
    seq(|rows|, i requires 0 <= i < |rows| => MirrorSupplier(rows[i]))
  }

  /** `rows.reduce((sum, r) => sum + normalizeNum(r[key]), 0)` */
  function SumColumn(rows: seq<Row>, key: Key): int {
    if |rows| == 0 then 0 else NormalizeNum(Get(rows[0], key)) + SumColumn(rows[1..], key)
  }

  /** Summing a sales column over the recomputed rows is summing it over the rows as typed. */
  lemma {:induction false} SumColumnMirrored(rows: seq<Row>, key: Key)
    requires SalesKey(key)
    ensures SumColumn(MirrorItems(rows), key) == SumColumn(rows, key)
    decreases |rows|
  {
    if |rows| > 0 {
      SumColumnMirrored(rows[1..], key);
      assert MirrorItems(rows)[1..] == MirrorItems(rows[1..]);
      assert NormalizeNum(Get(MirrorItem(rows[0]), key)) == NormalizeNum(Get(rows[0], key));
    }
  }

  /** The cash summary the page shows. */
  datatype CashView = CashView(
    totalCashIn: int,
    totalBankIn: int,
    totalDebt: int,
    totalExpenses: int,
    expectedCashAtHand: int,
    actualCashCounted: int,
    cashDifference: int)

  /** The `cashSummary` memo: sums over the recomputed item rows and the expense rows. */
  function MirrorCash(items: seq<Row>, expenses: seq<Row>, actual: Cell): (r: CashView)
    ensures r.totalCashIn == SumColumn(items, SalesCash)
    ensures r.totalBankIn == SumColumn(items, SalesBank)
    ensures r.totalDebt == SumColumn(items, SalesDebt)
    ensures r.totalExpenses == SumColumn(expenses, Amount)
    ensures r.expectedCashAtHand == r.totalCashIn - r.totalExpenses
    ensures r.actualCashCounted == NormalizeNum(actual)
    ensures r.cashDifference == r.actualCashCounted - r.expectedCashAtHand
  {
    var computed := MirrorItems(items);
    SumColumnMirrored(items, SalesCash);
    SumColumnMirrored(items, SalesBank);
    SumColumnMirrored(items, SalesDebt);
    var cashIn := SumColumn(computed, SalesCash);
    var expenseTotal := SumColumn(expenses, Amount);
    var expected := cashIn - expenseTotal;
    var counted := NormalizeNum(actual);
    CashView(cashIn, SumColumn(computed, SalesBank), SumColumn(computed, SalesDebt),
             expenseTotal, expected, counted, counted - expected)
  }

  // ---------------------------------------------------------------------------------
  // Request bodies
  // ---------------------------------------------------------------------------------

  /** What the server stores for a text key sent from a cell: the text itself, a number
      cast to its decimal text, and "" when the key is missing. */
  function TextOf(c: Cell): string {
    match c
    case Chars(s) => s
    case Numeric(n) => IntToString(n)
    case Absent => ""
  }

  predicate Falsy(c: Cell) {
    c == Absent || c == Chars("") || c == Numeric(0)
  }

  /** `value || fallback` on a text key. */
  function OrDefault(c: Cell, fallback: string): (r: string)
    ensures Falsy(c) ==> r == fallback
    ensures c.Chars? && c.s != "" ==> r == c.s
  {
    if Falsy(c) then fallback else TextOf(c)
  }

  /** A text key sent as it is: a text is sent, anything else matches no stored code. */
  function SentText(c: Cell): Option<string> {
    if c.Chars? then Some(c.s) else None
  }

  /** One element of the `supplierEntries` array of `saveDraft`. */
  function SupplierPayload(row: Row): (e: SupplierEntry)
    ensures e.orderedQty == Some(NormalizeNum(row.orderedQty))
    ensures e.actualQty == Some(NormalizeNum(row.actualQty))
    ensures e.qtyAfterBoiling == Some(NormalizeNum(row.qtyAfterBoiling))
    ensures e.bonusQty.None?
  {
    SupplierEntry(
      TextOf(row.supplierName),
      OrDefault(row.product, "Milk"),
      Some(NormalizeNum(row.orderedQty)),
      Some(NormalizeNum(row.actualQty)),
      None,
      Some(NormalizeNum(row.qtyAfterBoiling)))
  }

  /** One element of the `items` array of `saveDraft`: code and name echoed back as they
      are, every value column normalised. */
  function ItemPayload(row: Row): (p: ItemPatch)
    ensures p.itemCode == SentText(row.itemCode) && p.itemName == SentText(row.itemName)
    ensures p.openingStock == Some(NormalizeNum(row.openingStock))
    ensures p.newStockIn == Some(NormalizeNum(row.newStockIn))
    ensures p.spoiledDisposed == Some(NormalizeNum(row.spoiledDisposed))
    ensures p.qtySold == Some(NormalizeNum(row.qtySold))
    ensures p.salesCash == Some(NormalizeNum(row.salesCash))
    ensures p.salesBank == Some(NormalizeNum(row.salesBank))
    ensures p.salesDebt == Some(NormalizeNum(row.salesDebt))
  {
    ItemPatch(
      SentText(row.itemCode), SentText(row.itemName),
      Some(NormalizeNum(row.openingStock)), Some(NormalizeNum(row.newStockIn)),
      Some(NormalizeNum(row.spoiledDisposed)), Some(NormalizeNum(row.qtySold)),
      Some(NormalizeNum(row.salesCash)), Some(NormalizeNum(row.salesBank)),
      Some(NormalizeNum(row.salesDebt)))
  }

  /** One element of the `expenses` array of `saveDraft`. */
  function ExpensePayload(row: Row): (e: Expense)
    ensures e.amount == Some(NormalizeNum(row.amount))
    ensures Falsy(row.paymentMethod) ==> e.paymentMethod == "cash"
    ensures Falsy(row.description) ==> e.description == ""
  {
    Expense(TextOf(row.category), OrDefault(row.description, ""),
            Some(NormalizeNum(row.amount)), OrDefault(row.paymentMethod, "cash"))
  }

  /** The state of the page that the requests are built from. `role` is the lower-cased
      stored role; `formExists` says a form was loaded or created for the date and shift. */
  datatype Page = Page(
    role: string,
    status: string,
    formExists: bool,
    kplcOpening: Cell,
    kplcClosing: Cell,
    supplierEntries: seq<Row>,
    items: seq<Row>,
    expenses: seq<Row>,
    actualCashCounted: Cell,
    differenceExplanation: string,
    notes: string)

  /** The `cashSummary` object both requests send: the counted cash and the explanation. */
  function CashInput(pg: Page): CashPatch {
    CashPatch(Omitted, Omitted, Omitted, Omitted, Omitted,
              Given(NormalizeNum(pg.actualCashCounted)), Omitted, Given(pg.differenceExplanation))
  }

  function Suppliers(rows: seq<Row>): (r: seq<SupplierEntry>)
    ensures |r| == |rows|
    ensures forall i :: 0 <= i < |rows| ==> r[i] == SupplierPayload(MirrorSupplier(rows[i]))
  {
    seq(|rows|, i requires 0 <= i < |rows| => SupplierPayload(MirrorSupplier(rows[i])))
  }

  function ItemPatches(rows: seq<Row>): (r: seq<ItemPatch>)
    ensures |r| == |rows|
    ensures forall i :: 0 <= i < |rows| ==> r[i] == ItemPayload(MirrorItem(rows[i]))
  {
    seq(|rows|, i requires 0 <= i < |rows| => ItemPayload(MirrorItem(rows[i])))
  }

  function Expenses(rows: seq<Row>): (r: seq<Expense>)
    ensures |r| == |rows|
    ensures forall i :: 0 <= i < |rows| ==> r[i] == ExpensePayload(rows[i])
  {
    seq(|rows|, i requires 0 <= i < |rows| => ExpensePayload(rows[i]))
  }

  /** The body `saveDraft` sends: every table in full, built from the recomputed rows. */
  function SavePayload(pg: Page): (p: FormPatch)
    ensures p.kplcMeterOpening == Given(NormalizeNum(pg.kplcOpening))
    ensures p.kplcMeterClosing == Given(NormalizeNum(pg.kplcClosing))
    ensures p.notes == Given(pg.notes)
    ensures p.supplierEntries.Some? && |p.supplierEntries.value| == |pg.supplierEntries|
    ensures p.items.Some? && |p.items.value| == |pg.items|
    ensures p.expenses.Some? && |p.expenses.value| == |pg.expenses|
  {
    FormPatch(
      Given(NormalizeNum(pg.kplcOpening)),
      Given(NormalizeNum(pg.kplcClosing)),
      Some(CashInput(pg)),
      Given(pg.notes),
      Some(Suppliers(MirrorSuppliers(pg.supplierEntries))),
      Some(ItemPatches(MirrorItems(pg.items))),
      Some(Expenses(pg.expenses)))
  }

  /** What a button press does: send a body, show an error, or nothing. */
  datatype Attempt<T> = Send(body: T) | Refuse(message: string) | Skip

  /** `saveDraft`: refused before a form exists, silently skipped on a read-only form. */
  function SaveDraft(pg: Page): (r: Attempt<FormPatch>)
    ensures r.Send? <==> pg.formExists && !ReadOnly(pg.status)
    ensures !pg.formExists ==> r == Refuse("No form exists for this date/shift. Owner/Manager must create it first.")
    ensures pg.formExists && ReadOnly(pg.status) ==> r == Skip
  {
    if !pg.formExists then Refuse("No form exists for this date/shift. Owner/Manager must create it first.")
    else if ReadOnly(pg.status) then Skip
    else
      var cs := MirrorSuppliers(pg.supplierEntries);
      var its := MirrorItems(pg.items);
      Send(SavePayload(pg))
  }

  /** `submitForm` on the page: only owners and managers, only once a form exists. */
  function SubmitPage(pg: Page): (r: Attempt<SubmitPatch>)
    ensures r.Send? <==> CanSubmit(pg.role) && pg.formExists
    ensures r.Send? ==> r.body == SubmitPatch(Some(CashInput(pg)), Given(pg.notes))
    ensures !CanSubmit(pg.role) ==> r == Refuse("Only owner/manager can submit the daily form.")
  {
    if !CanSubmit(pg.role) then Refuse("Only owner/manager can submit the daily form.")
    else if !pg.formExists then Refuse("No form exists for this date/shift.")
    else Send(SubmitPatch(Some(CashInput(pg)), Given(pg.notes)))
  }

  // ---------------------------------------------------------------------------------
  // Permission flags
  // ---------------------------------------------------------------------------------

  /** `(localStorage.getItem("role") || "cashier").toLowerCase()` */
  function PageRole(stored: Option<string>): (r: string)
    ensures stored.None? || stored.value == "" ==> r == "cashier"
  {
    Lower(OrText(stored, "cashier"))
  }

  predicate IsManagerOrOwner(role: string) {
    role == "owner" || role == "manager"
  }

  predicate IsCashier(role: string) {
    role == "cashier"
  }

  predicate CanEditStructure(role: string) {
    IsManagerOrOwner(role)
  }

  predicate CanEditValues(role: string) {
    IsManagerOrOwner(role) || IsCashier(role)
  }

  predicate CanSubmit(role: string) {
    IsManagerOrOwner(role)
  }

  /** `status !== "draft"` */
  predicate ReadOnly(status: string) {
    status != "draft"
  }

  /** `locked || (!exists && isCashier)` */
  predicate DisableAllInputs(pg: Page) {
    ReadOnly(pg.status) || (!pg.formExists && IsCashier(pg.role))
  }

  /** `locked || isCashier` */
  predicate DisableDateShift(pg: Page) {
    ReadOnly(pg.status) || IsCashier(pg.role)
  }

  function RoleName(r: Role): string {
    match r
    case Owner => "owner"
    case Manager => "manager"
    case Cashier => "cashier"
  }

  function StatusName(s: Status): string {
    match s
    case Draft => "draft"
    case Submitted => "submitted"
    case Locked => "locked"
  }

  /** The stored role is read case-insensitively: any spelling of a role name gives the
      role the server knows. */
  lemma {:induction false} PageRoleOfStored(stored: string, r: Role)
    requires Lower(stored) == RoleName(r)
    ensures PageRole(Some(stored)) == RoleName(r)
  {
    assert stored != "" by { assert |Lower(stored)| == |stored|; }
  }

  /** The page offers creating and submitting to exactly the roles the server lets
      through, and offers editing values to every role the server lets update. */
  lemma {:induction false} PageGatesMatchServer(st: Store, cat: Products.Catalog, caller: Caller, id: FormKey,
                                                date: Option<Day>, shift: Option<Shift>, ids: seq<nat>, p: SubmitPatch)
    requires Products.WellIndexed(cat)
    ensures CanSubmit(RoleName(caller.role)) <==> SubmitForm(st, caller, id, p) != Err(NotPermitted)
    ensures CanEditStructure(RoleName(caller.role)) <==> CreateForm(st, cat, caller, date, shift, ids) != Err(NotPermitted)
    ensures CanEditValues(RoleName(caller.role))
  {
  }

  /** The page turns read-only for exactly the forms the server refuses to update. */
  lemma {:induction false} LockedMatchesServer(st: Store, caller: Caller, id: FormKey, p: FormPatch)
    requires Visible(st, caller, id)
    ensures ReadOnly(StatusName(st[id].status)) <==> UpdateDraft(st, caller, id, p) == Err(NotEditable)
  {
  }

  // ---------------------------------------------------------------------------------
  // The page and the server agree
  // ---------------------------------------------------------------------------------

  /** The page's item rows are the form's rows, in order, under distinct codes. */
  predicate Aligned(rows: seq<Row>, items: seq<ItemRow>) {
    && |rows| == |items|
    && (forall i :: 0 <= i < |items| ==> rows[i].itemCode == Chars(items[i].itemCode))
    && (forall i, j :: 0 <= i < j < |items| ==> items[i].itemCode != items[j].itemCode)
  }

  /** Each stored row finds the patch built from its own page row. */
  lemma {:induction false} PatchForAligned(rows: seq<Row>, items: seq<ItemRow>, i: int)
    requires Aligned(rows, items) && 0 <= i < |items|
    ensures PatchFor(ItemPatches(MirrorItems(rows)), items[i].itemCode) == Some(ItemPayload(MirrorItem(rows[i])))
  {
    var ps := ItemPatches(MirrorItems(rows));
    var code := items[i].itemCode;
    assert LastIndexFor(ps, code) == i by {
      assert ps[i].itemCode == Some(code);
      forall j | i < j < |ps| ensures ps[j].itemCode != Some(code) {
        assert ps[j].itemCode == Some(items[j].itemCode);
      }
    }
  }

  /** The item rows a cashier's save leaves on the form. */
  function SavedItems(f: Form, pg: Page): seq<ItemRow> {
    MergeItems(f.items, ItemPatches(MirrorItems(pg.items)))
  }

  /** The supplier rows a cashier's save leaves on the form: the page's rows, trimmed by
      the row setters. */
  function SavedSuppliers(pg: Page): seq<SupplierEntry> {
    TrimSuppliers(Suppliers(MirrorSuppliers(pg.supplierEntries)))
  }

  /** A cashier's save replaces the supplier table with the page's rows and patches the
      item rows with the page's values. */
  lemma SaveStoresTables(f: Form, pg: Page)
    ensures MergeUpdate(f, Cashier, SavePayload(pg)).items == SavedItems(f, pg)
    ensures MergeUpdate(f, Cashier, SavePayload(pg)).supplierEntries == SavedSuppliers(pg)
  {
    var p := SavePayload(pg);
    assert p.supplierEntries == Some(Suppliers(MirrorSuppliers(pg.supplierEntries)));
    assert p.items == Some(ItemPatches(MirrorItems(pg.items)));
  }

  /** A cashier's save stores, row by row, the numbers the page typed. */
  lemma {:induction false} SavedItemsMatchRows(f: Form, pg: Page, i: int)
    requires Aligned(pg.items, f.items) && 0 <= i < |f.items|
    ensures var m := SavedItems(f, pg)[i];
            var row := pg.items[i];
            && Available(m) == MirrorAvailable(row)
            && Closing(m) == MirrorClosing(row)
            && Sales(m, CashColumn) == NormalizeNum(row.salesCash)
            && Sales(m, BankColumn) == NormalizeNum(row.salesBank)
            && Sales(m, DebtColumn) == NormalizeNum(row.salesDebt)
  {
    PatchForAligned(pg.items, f.items, i);
  }

  /** The page column a sales column of the form is typed in. */
  function ColumnKey(c: SalesColumn): (k: Key)
    ensures SalesKey(k)
  {
    match c
    case CashColumn => SalesCash
    case BankColumn => SalesBank
    case DebtColumn => SalesDebt
  }

  lemma {:induction false} SumSalesMatchesColumn(items: seq<ItemRow>, rows: seq<Row>, c: SalesColumn, key: Key)
    requires |items| == |rows|
    requires forall i :: 0 <= i < |rows| ==> Sales(items[i], c) == NormalizeNum(Get(rows[i], key))
    ensures SumSales(items, c) == SumColumn(rows, key)
    decreases |rows|
  {
    if |rows| > 0 {
      SumSalesMatchesColumn(items[1..], rows[1..], c, key);
    }
  }

  lemma {:induction false} SumExpensesMatchesColumn(rows: seq<Row>)
    ensures SumExpenses(Expenses(rows)) == SumColumn(rows, Amount)
    decreases |rows|
  {
    if |rows| > 0 {
      SumExpensesMatchesColumn(rows[1..]);
      assert Expenses(rows)[1..] == Expenses(rows[1..]);
    }
  }

  /** The bonus the page shows on each supplier row is the one the server stores. */
  lemma {:induction false} SuppliersAgree(f: Form, pg: Page)
    ensures var s := ComputeDerived(MergeUpdate(f, Cashier, SavePayload(pg)));
            && |s.supplierEntries| == |pg.supplierEntries|
            && forall i :: 0 <= i < |pg.supplierEntries| ==>
                 s.supplierEntries[i].bonusQty == Some(MirrorBonus(pg.supplierEntries[i]))
  {
    SaveStoresTables(f, pg);
    var saved := SavedSuppliers(pg);
    forall i | 0 <= i < |pg.supplierEntries|
      ensures Bonus(saved[i]) == MirrorBonus(pg.supplierEntries[i])
    {
      assert saved[i] == TrimSupplier(SupplierPayload(MirrorSupplier(pg.supplierEntries[i])));
    }
  }

  /** The stock figures the page shows on each item row are the ones the server stores. */
  lemma {:induction false} ItemsAgree(f: Form, pg: Page)
    requires Aligned(pg.items, f.items)
    ensures var s := ComputeDerived(MergeUpdate(f, Cashier, SavePayload(pg)));
            && |s.items| == |pg.items|
            && forall i :: 0 <= i < |pg.items| ==>
                 && s.items[i].totalAvailable == Some(MirrorAvailable(pg.items[i]))
                 && s.items[i].closingStock == Some(MirrorClosing(pg.items[i]))
  {
    var m := MergeUpdate(f, Cashier, SavePayload(pg));
    var s := ComputeDerived(m);
    SaveStoresTables(f, pg);
    forall i | 0 <= i < |pg.items|
      ensures && s.items[i].totalAvailable == Some(MirrorAvailable(pg.items[i]))
              && s.items[i].closingStock == Some(MirrorClosing(pg.items[i]))
    {
      SavedItemsMatchRows(f, pg, i);
      assert ConsistentItem(s.items[i]);
      assert SameItemInput(s.items[i], m.items[i]);
    }
  }

  /** One sales cell a cashier's save stores is the number typed in that cell. */
  lemma {:induction false} SavedSalesCell(f: Form, pg: Page, c: SalesColumn, i: int)
    requires Aligned(pg.items, f.items) && 0 <= i < |f.items|
    ensures Sales(SavedItems(f, pg)[i], c) == NormalizeNum(Get(pg.items[i], ColumnKey(c)))
  {
    SavedItemsMatchRows(f, pg, i);
    SalesOfMatchingRow(SavedItems(f, pg)[i], pg.items[i], c);
  }

  lemma SalesOfMatchingRow(m: ItemRow, row: Row, c: SalesColumn)
    requires Sales(m, CashColumn) == NormalizeNum(row.salesCash)
    requires Sales(m, BankColumn) == NormalizeNum(row.salesBank)
    requires Sales(m, DebtColumn) == NormalizeNum(row.salesDebt)
    ensures Sales(m, c) == NormalizeNum(Get(row, ColumnKey(c)))
  {
  }

  /** The sales column a cashier's save stores adds up to the page's column sum. */
  lemma {:induction false} SavedSalesSum(f: Form, pg: Page, c: SalesColumn)
    requires Aligned(pg.items, f.items)
    ensures SumSales(MergeUpdate(f, Cashier, SavePayload(pg)).items, c) == SumColumn(pg.items, ColumnKey(c))
  {
    SaveStoresTables(f, pg);
    var m := SavedItems(f, pg);
    forall i | 0 <= i < |pg.items|
      ensures Sales(m[i], c) == NormalizeNum(Get(pg.items[i], ColumnKey(c)))
    {
      SavedSalesCell(f, pg, c, i);
    }
    SumSalesMatchesColumn(m, pg.items, c, ColumnKey(c));
  }

  /** A cashier's save stores the counted cash, the explanation and the expense rows. */
  lemma {:induction false} SavedCashInputs(f: Form, pg: Page)
    ensures var m := MergeUpdate(f, Cashier, SavePayload(pg));
            && Number0(m.cashSummary.actualCashCounted) == NormalizeNum(pg.actualCashCounted)
            && m.cashSummary.differenceExplanation == Some(pg.differenceExplanation)
            && SumExpenses(m.expenses) == SumColumn(pg.expenses, Amount)
  {
    var p := SavePayload(pg);
    assert p.expenses == Some(Expenses(pg.expenses));
    SumExpensesTrimmed(Expenses(pg.expenses));
    SumExpensesMatchesColumn(pg.expenses);
  }

  /** The cash summary of the page in the shape the server stores it. */
  function ShownCash(pg: Page): (r: CashSummary)
    ensures var c := MirrorCash(pg.items, pg.expenses, pg.actualCashCounted);
            r == CashSummary(Some(c.totalCashIn), Some(c.totalBankIn), Some(c.totalDebt), Some(c.totalExpenses),
                             Some(c.expectedCashAtHand), Some(c.actualCashCounted), Some(c.cashDifference),
                             Some(pg.differenceExplanation))
  {
    CashFrom(SumColumn(pg.items, SalesCash), SumColumn(pg.items, SalesBank), SumColumn(pg.items, SalesDebt),
             SumColumn(pg.expenses, Amount), NormalizeNum(pg.actualCashCounted), pg.differenceExplanation)
  }

  /** A stored form's sales, expenses and counted cash add up as on the page. */
  predicate AddsUpAsShown(m: Form, pg: Page) {
    SalesAsShown(m, pg) && CashInputsAsShown(m, pg)
  }

  predicate SalesAsShown(m: Form, pg: Page) {
    && SumSales(m.items, CashColumn) == SumColumn(pg.items, SalesCash)
    && SumSales(m.items, BankColumn) == SumColumn(pg.items, SalesBank)
    && SumSales(m.items, DebtColumn) == SumColumn(pg.items, SalesDebt)
  }

  predicate CashInputsAsShown(m: Form, pg: Page) {
    && Number0(m.cashSummary.actualCashCounted) == NormalizeNum(pg.actualCashCounted)
    && m.cashSummary.differenceExplanation == Some(pg.differenceExplanation)
    && SumExpenses(m.expenses) == SumColumn(pg.expenses, Amount)
  }

  /** A form that adds up as on the page gets the cash summary the page shows. */
  lemma {:induction false} CashOfMatchingForm(m: Form, pg: Page)
    requires AddsUpAsShown(m, pg)
    ensures ComputeDerived(m).cashSummary == ShownCash(pg)
  {
    DerivedCash(m);
  }

  /** A cashier's save leaves a form that adds up as on the page. */
  lemma {:induction false} SaveAddsUpAsShown(f: Form, pg: Page)
    requires Aligned(pg.items, f.items)
    ensures AddsUpAsShown(MergeUpdate(f, Cashier, SavePayload(pg)), pg)
  {
    SaveSalesAsShown(f, pg);
    SavedCashInputs(f, pg);
  }

  lemma {:induction false} SaveSalesAsShown(f: Form, pg: Page)
    requires Aligned(pg.items, f.items)
    ensures SalesAsShown(MergeUpdate(f, Cashier, SavePayload(pg)), pg)
  {
    assert ColumnKey(CashColumn) == SalesCash && ColumnKey(BankColumn) == SalesBank
        && ColumnKey(DebtColumn) == SalesDebt;
    SavedSalesSum(f, pg, CashColumn);
    SavedSalesSum(f, pg, BankColumn);
    SavedSalesSum(f, pg, DebtColumn);
  }

  /** The cash summary the page shows is the one the server stores. */
  lemma {:induction false} CashAgrees(f: Form, pg: Page)
    requires Aligned(pg.items, f.items)
    ensures ComputeDerived(MergeUpdate(f, Cashier, SavePayload(pg))).cashSummary == ShownCash(pg)
  {
    SaveAddsUpAsShown(f, pg);
    CashOfMatchingForm(MergeUpdate(f, Cashier, SavePayload(pg)), pg);
  }

  /** What a cashier sees before saving is what the server stores: every bonus, every
      stock figure and every cash total the page computes equals the one the server
      derives from the saved body. */
  lemma {:induction false} MirrorAgreesWithServer(f: Form, pg: Page)
    requires Aligned(pg.items, f.items)
    ensures var s := ComputeDerived(MergeUpdate(f, Cashier, SavePayload(pg)));
            var c := MirrorCash(pg.items, pg.expenses, pg.actualCashCounted);
            && (forall i :: 0 <= i < |pg.supplierEntries| ==>
                  s.supplierEntries[i].bonusQty == Some(MirrorBonus(pg.supplierEntries[i])))
            && (forall i :: 0 <= i < |pg.items| ==>
                  && s.items[i].totalAvailable == Some(MirrorAvailable(pg.items[i]))
                  && s.items[i].closingStock == Some(MirrorClosing(pg.items[i])))
            && s.cashSummary.totalCashIn == Some(c.totalCashIn)
            && s.cashSummary.totalExpenses == Some(c.totalExpenses)
            && s.cashSummary.cashDifference == Some(c.cashDifference)
  {
    SuppliersAgree(f, pg);
    ItemsAgree(f, pg);
    CashAgrees(f, pg);
  }

  /** The handler as written answers a cashier's save with the expense total of the
      stored form, whatever expense rows the page sent. */
  lemma AsWrittenKeepsStoredExpenses(f: Form, pg: Page)
    ensures ComputeDerived(MergeUpdateAsWritten(f, Cashier, SavePayload(pg))).cashSummary.totalExpenses
            == Some(SumExpenses(f.expenses))
  {
  }

  /** Every supplier row of the page has a name and every expense row a category that
      is not white space only: what the schema's `required` rules ask of the rows a save
      sends. The page itself does not check this before saving. */
  predicate RowsNamed(pg: Page) {
    && (forall i :: 0 <= i < |pg.supplierEntries| ==> !AllSpace(TextOf(pg.supplierEntries[i].supplierName)))
    && (forall i :: 0 <= i < |pg.expenses| ==> !AllSpace(TextOf(pg.expenses[i].category)))
  }

  /** No supplier name and no expense category of a body is white space only. */
  predicate SentNamed(p: FormPatch) {
    && (p.supplierEntries.Some? ==>
          forall i :: 0 <= i < |p.supplierEntries.value| ==> !AllSpace(p.supplierEntries.value[i].supplierName))
    && (p.expenses.Some? ==>
          forall i :: 0 <= i < |p.expenses.value| ==> !AllSpace(p.expenses.value[i].category))
  }

  /** Every expense row of the page saves with a payment method the schema's `enum`
      allows; an empty one is sent as "cash". */
  predicate MethodsListed(pg: Page) {
    forall i :: 0 <= i < |pg.expenses| ==> ExpenseMethod(OrDefault(pg.expenses[i].paymentMethod, "cash"))
  }

  /** The payment methods of a body's expenses are all allowed. */
  predicate SentPaid(p: FormPatch) {
    p.expenses.Some? ==> forall i :: 0 <= i < |p.expenses.value| ==> ExpenseMethod(p.expenses.value[i].paymentMethod)
  }

  /** The page's select offers "cash", "mobile" and "bank" only: a page whose payment
      methods were all chosen there, or left empty, saves allowed ones. */
  lemma SelectedMethodsListed(pg: Page)
    requires forall i :: 0 <= i < |pg.expenses| ==>
               pg.expenses[i].paymentMethod in {Absent, Chars(""), Chars("cash"), Chars("mobile"), Chars("bank")}
    ensures MethodsListed(pg)
  {
  }

  /** A save's body names allowed payment methods exactly when the page's rows do. */
  lemma SentPaidAsRows(pg: Page)
    ensures SentPaid(SavePayload(pg)) <==> MethodsListed(pg)
  {
    var p := SavePayload(pg);
    PayloadTexts(pg);
    var exp := p.expenses.value;
    assert (forall i :: 0 <= i < |exp| ==> ExpenseMethod(exp[i].paymentMethod))
           <==> (forall i :: 0 <= i < |pg.expenses| ==> ExpenseMethod(OrDefault(pg.expenses[i].paymentMethod, "cash")));
  }

  /** A save's body is named exactly when the page's rows are. */
  lemma SentNamedAsRows(pg: Page)
    ensures SentNamed(SavePayload(pg)) <==> RowsNamed(pg)
  {
    var p := SavePayload(pg);
    PayloadTexts(pg);
    var sup, exp := p.supplierEntries.value, p.expenses.value;
    assert (forall i :: 0 <= i < |sup| ==> !AllSpace(sup[i].supplierName))
           <==> (forall i :: 0 <= i < |pg.supplierEntries| ==> !AllSpace(TextOf(pg.supplierEntries[i].supplierName)));
    assert (forall i :: 0 <= i < |exp| ==> !AllSpace(exp[i].category))
           <==> (forall i :: 0 <= i < |pg.expenses| ==> !AllSpace(TextOf(pg.expenses[i].category)));
  }

  /** The names and categories a save sends are the texts typed in the rows, and the
      payment methods those chosen, "cash" for an empty one. */
  lemma PayloadTexts(pg: Page)
    ensures var p := SavePayload(pg);
            && (forall i :: 0 <= i < |pg.supplierEntries| ==>
                  p.supplierEntries.value[i].supplierName == TextOf(pg.supplierEntries[i].supplierName))
            && (forall i :: 0 <= i < |pg.expenses| ==> p.expenses.value[i].category == TextOf(pg.expenses[i].category))
            && (forall i :: 0 <= i < |pg.expenses| ==>
                  p.expenses.value[i].paymentMethod == OrDefault(pg.expenses[i].paymentMethod, "cash"))
  {
    var p := SavePayload(pg);
    forall i | 0 <= i < |pg.supplierEntries|
      ensures p.supplierEntries.value[i].supplierName == TextOf(pg.supplierEntries[i].supplierName)
    {
      assert Get(MirrorSupplier(pg.supplierEntries[i]), SupplierName) == Get(pg.supplierEntries[i], SupplierName);
    }
  }

  /** The corrected handler accepts a cashier's save of a draft exactly when the page's
      rows are named and its payment methods allowed, and then stores and answers the
      page's expense total. */
  lemma {:induction false} StoredExpensesAsShown(st: Store, caller: Caller, id: FormKey, pg: Page)
    requires Lifecycle.Valid(st) && caller.role == Cashier && Visible(st, caller, id) && st[id].status == Draft
    ensures UpdateDraft(st, caller, id, SavePayload(pg)).Ok? <==> RowsNamed(pg) && MethodsListed(pg)
    ensures UpdateDraft(st, caller, id, SavePayload(pg)).Ok? ==>
              UpdateDraft(st, caller, id, SavePayload(pg)).value.form.cashSummary.totalExpenses
              == Some(MirrorCash(pg.items, pg.expenses, pg.actualCashCounted).totalExpenses)
  {
    SaveAcceptedAsRows(st, caller, id, pg);
    if UpdateDraft(st, caller, id, SavePayload(pg)).Ok? {
      SavedExpenseTotal(st, caller, id, pg);
    }
  }

  lemma SaveAcceptedAsRows(st: Store, caller: Caller, id: FormKey, pg: Page)
    requires Lifecycle.Valid(st) && caller.role == Cashier && Visible(st, caller, id) && st[id].status == Draft
    ensures UpdateDraft(st, caller, id, SavePayload(pg)).Ok? <==> RowsNamed(pg) && MethodsListed(pg)
  {
    var p := SavePayload(pg);
    assert UpdateDraft(st, caller, id, p).Ok? <==> SentRowsPass(p);
    SentRowsPassSplit(p);
    SentNamedAsRows(pg);
    SentPaidAsRows(pg);
  }

  /** The server's condition on a cashier's rows is the two conditions of the page. */
  lemma SentRowsPassSplit(p: FormPatch)
    ensures SentRowsPass(p) <==> SentNamed(p) && SentPaid(p)
  {
  }

  lemma SavedExpenseTotal(st: Store, caller: Caller, id: FormKey, pg: Page)
    requires caller.role == Cashier && UpdateDraft(st, caller, id, SavePayload(pg)).Ok?
    ensures UpdateDraft(st, caller, id, SavePayload(pg)).value.form.cashSummary.totalExpenses
            == Some(MirrorCash(pg.items, pg.expenses, pg.actualCashCounted).totalExpenses)
  {
    var p := SavePayload(pg);
    var r := UpdateDraft(st, caller, id, p);
    SavedCashInputs(st[id], pg);
    var m := MergeUpdate(st[id], Cashier, p);
    assert r.value.form == ComputeDerived(m);
    assert r.value.form.cashSummary.totalExpenses == Some(SumExpenses(m.expenses));
  }

  /** A new form with no rows, a cashier of its business, and a cashier's page with one
      expense row of 100 for fuel. */
  const BlankDraft := ComputeDerived(Form(FormKey("b", 0, Morning), Draft, None, None, [], [], [], EmptyCashSummary, None, "u", None))
  const BlankStore: Store := map[BlankDraft.key := BlankDraft]
  const ShiftCashier := Caller("c", Some("b"), Cashier)
  const OneExpensePage := Page("cashier", "draft", true, Absent, Absent, [], [],
                               [EmptyRow.(category := Chars("Fuel"), amount := Chars("100"))], Absent, "", "")

  /** The example page of `ExpenseCounterexample` shows a total of 100: the text "100"
      reads back as the number 100. */
  lemma OneExpenseTotal()
    ensures MirrorCash(OneExpensePage.items, OneExpensePage.expenses, OneExpensePage.actualCashCounted).totalExpenses == 100
  {
    assert ParseNumber("100") == Some(100) by {
      assert IntToString(100) == "100" by {
        assert NatToString(1) == "1";
        assert NatToString(10) == "10";
      }
      NormalizeNumRoundTrip(100);
    }
    assert SumColumn(OneExpensePage.expenses, Amount) == 100;
  }

  /** The merge as written drops the page's expense row from the new form. */
  lemma AsWrittenBlankSave()
    ensures var w := ComputeDerived(MergeUpdateAsWritten(BlankDraft, Cashier, SavePayload(OneExpensePage)));
            RowsAccepted(w) && w.cashSummary.totalExpenses == Some(0)
  {
    AsWrittenKeepsStoredExpenses(BlankDraft, OneExpensePage);
    var w := MergeUpdateAsWritten(BlankDraft, Cashier, SavePayload(OneExpensePage));
    assert w.supplierEntries == [] && w.items == [] && w.expenses == [];
    ComputeDerivedKeepsAccepted(w);
  }

  /** The new form is a consistent draft with empty tables. */
  lemma BlankDraftShape()
    ensures BlankDraft.key == FormKey("b", 0, Morning) && BlankDraft.status == Draft
    ensures BlankDraft.supplierEntries == [] && BlankDraft.items == [] && BlankDraft.expenses == []
    ensures Consistent(BlankDraft)
  {
    var raw := Form(FormKey("b", 0, Morning), Draft, None, None, [], [], [], EmptyCashSummary, None, "u", None);
    assert BlankDraft == ComputeDerived(raw);
  }

  /** The store holding only the new form is valid. */
  lemma BlankStoreValid()
    ensures Lifecycle.Valid(BlankStore)
  {
    BlankDraftValid();
    SingletonValid(BlankDraft);
  }

  lemma SingletonValid(f: Form)
    requires ValidForm(f.key, f)
    ensures Lifecycle.Valid(map[f.key := f])
  {
  }

  /** The new form is a draft of the store, visible to the cashier. */
  lemma BlankStoreReady()
    ensures Visible(BlankStore, ShiftCashier, BlankDraft.key) && BlankStore[BlankDraft.key].status == Draft
  {
    BlankDraftShape();
  }

  lemma BlankDraftValid()
    ensures ValidForm(BlankDraft.key, BlankDraft) && BlankDraft.status == Draft
  {
    BlankDraftShape();
    assert RowsAccepted(BlankDraft);
  }

  /** The page's one expense row carries a category and saves as a cash expense. */
  lemma OneExpenseNamed()
    ensures RowsNamed(OneExpensePage) && MethodsListed(OneExpensePage)
  {
    assert !IsSpace(TextOf(OneExpensePage.expenses[0].category)[0]);
  }

  /** A cashier adds one expense of 100 to a new form: the page shows a total of 100,
      the merge as written keeps no expense row and its form adds up to 0, and the
      corrected handler accepts the save and stores and answers 100. */
  lemma {:induction false} ExpenseCounterexample()
    ensures SaveDraft(OneExpensePage).Send?
    ensures MirrorCash(OneExpensePage.items, OneExpensePage.expenses, OneExpensePage.actualCashCounted).totalExpenses == 100
    ensures var w := ComputeDerived(MergeUpdateAsWritten(BlankDraft, Cashier, SavePayload(OneExpensePage)));
            RowsAccepted(w) && w.cashSummary.totalExpenses == Some(0)
    ensures var r := UpdateDraft(BlankStore, ShiftCashier, BlankDraft.key, SavePayload(OneExpensePage));
            r.Ok? && r.value.form.cashSummary.totalExpenses == Some(100)
  {
    OneExpenseTotal();
    AsWrittenBlankSave();
    BlankStoreValid();
    BlankStoreReady();
    OneExpenseNamed();
    StoredExpensesAsShown(BlankStore, ShiftCashier, BlankDraft.key, OneExpensePage);
  }

  // ---------------------------------------------------------------------------------
  // Dates
  // ---------------------------------------------------------------------------------

  /** `toYMD`: year, two-digit month and two-digit day of a local date. */
  function ToYMD(year: int, month: int, day: int): (r: string)
    requires 1 <= month <= 12 && 1 <= day <= 31
    ensures |r| >= 7 && r[|r| - 3] == '-' && r[|r| - 6] == '-'
  {
    IntToString(year) + "-" + Pad2(month) + "-" + Pad2(day)
  }

  /** Reads a "YYYY-MM-DD" text with a non-negative year back into its three numbers. */
  function ReadYMD(s: string): Option<(int, int, int)> {
    if |s| >= 7 && s[|s| - 3] == '-' && s[|s| - 6] == '-' && |s[..|s| - 6]| > 0
       && AllDigits(s[..|s| - 6]) && AllDigits(s[|s| - 5..|s| - 3]) && AllDigits(s[|s| - 2..])
    then Some((DigitsValue(s[..|s| - 6]), DigitsValue(s[|s| - 5..|s| - 3]), DigitsValue(s[|s| - 2..])))
    else None
  }

  /** The three parts of `y + "-" + mm + "-" + dd` with two-character `mm` and `dd`. */
  lemma {:induction false} SplitYMD(y: string, mm: string, dd: string)
    requires |mm| == 2 && |dd| == 2
    ensures var r := y + "-" + mm + "-" + dd;
            && |r| == |y| + 6 && r[|r| - 3] == '-' && r[|r| - 6] == '-'
            && r[..|r| - 6] == y && r[|r| - 5..|r| - 3] == mm && r[|r| - 2..] == dd
  {
    var r := y + "-" + mm + "-" + dd;
    assert r == y + ("-" + mm + "-" + dd);
  }

  /** The text the page sends for a date names that date and no other. */
  lemma {:induction false} ToYMDRoundTrip(year: nat, month: int, day: int)
    requires 1 <= month <= 12 && 1 <= day <= 31
    ensures ReadYMD(ToYMD(year, month, day)) == Some((year, month, day))
  {
    var y, mm, dd := NatToString(year), Pad2(month), Pad2(day);
    SplitYMD(y, mm, dd);
    NatToStringRoundTrip(year);
    Pad2RoundTrip(month);
    Pad2RoundTrip(day);
  }
}

=== FILE: daily_form.dfy ===
/** The daily form document: one per business, calendar day and shift, holding the
    supplier deliveries, the stock-and-sales table, expenses and the cash summary. */
module DailyForm {
  import opened Values
  import opened Text

  datatype Status = Draft | Submitted | Locked

  datatype Shift = Morning | Evening

  /** A calendar day as a day number in local time: day 0 is 1970-01-01. */
  type Day = int

  /** The unique key of a form; it also plays the part of the document id, since the
      store keeps at most one form per key. */
  datatype FormKey = FormKey(business: string, date: Day, shift: Shift)

  /** One delivery row; `bonusQty` is derived. A missing supplier name reads as "". */
  datatype SupplierEntry = SupplierEntry(
    supplierName: string,
    product: string,
    orderedQty: Num,
    actualQty: Num,
    bonusQty: Num,
    qtyAfterBoiling: Num)

  /** One product row of the stock and sales table; `itemCode` and `itemName` are fixed
      when the form is created, `totalAvailable` and `closingStock` are derived. */
  datatype ItemRow = ItemRow(
    itemCode: string,
    itemName: string,
    openingStock: Num,
    newStockIn: Num,
    spoiledDisposed: Num,
    totalAvailable: Num,
    qtySold: Num,
    salesCash: Num,
    salesBank: Num,
    salesDebt: Num,
    closingStock: Num)

  datatype Expense = Expense(category: string, description: string, amount: Num, paymentMethod: string)

  /** Everything but `actualCashCounted` and `differenceExplanation` is derived. */
  datatype CashSummary = CashSummary(
    totalCashIn: Num,
    totalBankIn: Num,
    totalDebt: Num,
    totalExpenses: Num,
    expectedCashAtHand: Num,
    actualCashCounted: Num,
    cashDifference: Num,
    differenceExplanation: Option<string>)

  datatype Form = Form(
    key: FormKey,
    status: Status,
    kplcMeterOpening: Num,
    kplcMeterClosing: Num,
    supplierEntries: seq<SupplierEntry>,
    items: seq<ItemRow>,
    expenses: seq<Expense>,
    cashSummary: CashSummary,
    notes: Option<string>,
    recordedBy: string,
    approvedBy: Option<string>)

  /** The cash summary of a new document, `{}`: every field still unset. */
  const EmptyCashSummary := CashSummary(None, None, None, None, None, None, None, None)

  /** The `trim` setters of a supplier row, run when the row is assigned to the form. */
  function TrimSupplier(e: SupplierEntry): SupplierEntry {
    e.(supplierName := Trim(e.supplierName), product := Trim(e.product))
  }

  /** The `trim` setters of an expense row. */
  function TrimExpense(x: Expense): Expense {
    x.(category := Trim(x.category), description := Trim(x.description))
  }

  function TrimSuppliers(rows: seq<SupplierEntry>): (r: seq<SupplierEntry>)
    ensures |r| == |rows|
    ensures forall i :: 0 <= i < |rows| ==> r[i] == TrimSupplier(rows[i])
  {
    seq(|rows|, i requires 0 <= i < |rows| => TrimSupplier(rows[i]))
  }

  function TrimExpenses(rows: seq<Expense>): (r: seq<Expense>)
    ensures |r| == |rows|
    ensures forall i :: 0 <= i < |rows| ==> r[i] == TrimExpense(rows[i])
  {
    seq(|rows|, i requires 0 <= i < |rows| => TrimExpense(rows[i]))
  }

  /** The validators of the row paths, checked by `save` on the trimmed texts: the
      `required` rules (no supplier row without a name, no item row without a code or a
      name, no expense without a category) and the `enum` of an expense's payment
      method. */
  predicate RowsAccepted(f: Form) {
    SuppliersNamed(f.supplierEntries) && ItemsNamed(f.items) && ExpensesNamed(f.expenses) && ExpensesPaid(f.expenses)
  }

  /** The values the schema's `enum` allows for an expense's `paymentMethod`. */
  predicate ExpenseMethod(m: string) {
    m == "cash" || m == "bank" || m == "mobile" || m == "other"
  }

  predicate ExpensesPaid(rows: seq<Expense>) {
    forall i :: 0 <= i < |rows| ==> ExpenseMethod(rows[i].paymentMethod)
  }

  predicate SuppliersNamed(rows: seq<SupplierEntry>) {
    forall i :: 0 <= i < |rows| ==> rows[i].supplierName != []
  }

  predicate ItemsNamed(rows: seq<ItemRow>) {
    forall i :: 0 <= i < |rows| ==> rows[i].itemCode != [] && rows[i].itemName != []
  }

  predicate ExpensesNamed(rows: seq<Expense>) {
    forall i :: 0 <= i < |rows| ==> rows[i].category != []
  }

  /** Supplier rows sent in a body pass `required` once trimmed exactly when no name is
      white space only. */
  lemma TrimmedSuppliersNamed(rows: seq<SupplierEntry>)
    ensures SuppliersNamed(TrimSuppliers(rows)) <==> forall i :: 0 <= i < |rows| ==> !AllSpace(rows[i].supplierName)
  {
  }

  /** Expense rows sent in a body pass `required` once trimmed exactly when no category
      is white space only. */
  lemma TrimmedExpensesNamed(rows: seq<Expense>)
    ensures ExpensesNamed(TrimExpenses(rows)) <==> forall i :: 0 <= i < |rows| ==> !AllSpace(rows[i].category)
  {
  }

  /** Two supplier rows agree on everything entered by hand. */
  predicate SameSupplierInput(a: SupplierEntry, b: SupplierEntry) {
    a.(bonusQty := None) == b.(bonusQty := None)
  }

  /** Two item rows agree on everything entered by hand, reading a missing sales amount
      as 0 (the recomputation stores it so). */
  predicate SameItemInput(a: ItemRow, b: ItemRow) {
    && a.(totalAvailable := None, closingStock := None, salesCash := None, salesBank := None, salesDebt := None)
       == b.(totalAvailable := None, closingStock := None, salesCash := None, salesBank := None, salesDebt := None)
    && Number0(a.salesCash) == Number0(b.salesCash)
    && Number0(a.salesBank) == Number0(b.salesBank)
    && Number0(a.salesDebt) == Number0(b.salesDebt)
  }

  /** Two forms agree on every field except the derived ones, reading a missing cash count
      as 0 and a missing explanation as "". */
  predicate SameInput(f: Form, g: Form) {
    && f.(supplierEntries := [], items := [], cashSummary := EmptyCashSummary)
       == g.(supplierEntries := [], items := [], cashSummary := EmptyCashSummary)
    && |f.supplierEntries| == |g.supplierEntries|
    && (forall i :: 0 <= i < |f.supplierEntries| ==> SameSupplierInput(f.supplierEntries[i], g.supplierEntries[i]))
    && |f.items| == |g.items|
    && (forall i :: 0 <= i < |f.items| ==> SameItemInput(f.items[i], g.items[i]))
    && Number0(f.cashSummary.actualCashCounted) == Number0(g.cashSummary.actualCashCounted)
    && f.cashSummary.differenceExplanation.GetOr("") == g.cashSummary.differenceExplanation.GetOr("")
  }
}

=== FILE: derive.dfy ===
/** `computeDerived`: recomputes every derived field of a daily form from the values
    entered by hand. It runs on every load, save and submit. */
module Derive {
  import opened Values
  import opened DailyForm

  /** `Math.max(0, x)` */
  function Max0(x: int): int {
    if x > 0 then x else 0
  }

  function Bonus(s: SupplierEntry): int {
    Number0(s.actualQty) - Number0(s.orderedQty)
  }

  /** Opening stock plus stock received minus stock spoiled, floored at zero. */
  function Available(it: ItemRow): int {
    Max0(Number0(it.openingStock) + Number0(it.newStockIn) - Number0(it.spoiledDisposed))
  }

  /** Available stock minus quantity sold, floored at zero. */
  function Closing(it: ItemRow): int {
    Max0(Available(it) - Number0(it.qtySold))
  }

  function DeriveSupplier(s: SupplierEntry): SupplierEntry {
    s.(bonusQty := Some(Bonus(s)))
  }

  function DeriveItem(it: ItemRow): ItemRow {
    it.(totalAvailable := Some(Available(it)),
        closingStock := Some(Closing(it)),
        salesCash := Some(Number0(it.salesCash)),
        salesBank := Some(Number0(it.salesBank)),
        salesDebt := Some(Number0(it.salesDebt)))
  }

  datatype SalesColumn = CashColumn | BankColumn | DebtColumn

  function Sales(it: ItemRow, c: SalesColumn): int {
    match c
    case CashColumn => Number0(it.salesCash)
    case BankColumn => Number0(it.salesBank)
    case DebtColumn => Number0(it.salesDebt)
  }

  /** `items.reduce((sum, it) => sum + Number(it.<column> || 0), 0)` */
  function SumSales(items: seq<ItemRow>, c: SalesColumn): int {
    if |items| == 0 then 0 else Sales(items[0], c) + SumSales(items[1..], c)
  }

  /** `expenses.reduce((sum, e) => sum + Number(e.amount || 0), 0)` */
  function SumExpenses(expenses: seq<Expense>): int {
    if |expenses| == 0 then 0 else Number0(expenses[0].amount) + SumExpenses(expenses[1..])
  }

  /** The invariants a saved form keeps: every derived field holds the value its formula
      gives from the entered values, and the columns the recomputation normalises are set. */
  predicate ConsistentSupplier(s: SupplierEntry) {
    s.bonusQty == Some(Bonus(s))
  }

  predicate ConsistentItem(it: ItemRow) {
    && it.totalAvailable == Some(Available(it))
    && it.closingStock == Some(Closing(it))
    && it.salesCash.Some? && it.salesBank.Some? && it.salesDebt.Some?
  }

  predicate ConsistentCash(cs: CashSummary, items: seq<ItemRow>, expenses: seq<Expense>) {
    var cashIn := SumSales(items, CashColumn);
    var expected := cashIn - SumExpenses(expenses);
    && cs.totalCashIn == Some(cashIn)
    && cs.totalBankIn == Some(SumSales(items, BankColumn))
    && cs.totalDebt == Some(SumSales(items, DebtColumn))
    && cs.totalExpenses == Some(SumExpenses(expenses))
    && cs.expectedCashAtHand == Some(expected)
    && cs.actualCashCounted.Some?
    && cs.cashDifference == Some(cs.actualCashCounted.value - expected)
    && cs.differenceExplanation.Some?
  }

  predicate Consistent(f: Form) {
    && (forall i :: 0 <= i < |f.supplierEntries| ==> ConsistentSupplier(f.supplierEntries[i]))
    && (forall i :: 0 <= i < |f.items| ==> ConsistentItem(f.items[i]))
    && ConsistentCash(f.cashSummary, f.items, f.expenses)
  }

  /** Row normalisation never changes a row's contribution to the sums. */
  lemma {:induction false} SumSalesOfDerived(items: seq<ItemRow>, c: SalesColumn)
    ensures SumSales(seq(|items|, i requires 0 <= i < |items| => DeriveItem(items[i])), c) == SumSales(items, c)
  {
    var d := seq(|items|, i requires 0 <= i < |items| => DeriveItem(items[i]));
    if |items| > 0 {
      var tail := items[1..];
      SumSalesOfDerived(tail, c);
      assert d[1..] == seq(|tail|, i requires 0 <= i < |tail| => DeriveItem(tail[i]));
    }
  }

  lemma SumsOfDerived(items: seq<ItemRow>)
    ensures forall c :: SumSales(seq(|items|, i requires 0 <= i < |items| => DeriveItem(items[i])), c) == SumSales(items, c)
  {
    forall c {
      SumSalesOfDerived(items, c);
    }
  }

  /** The supplier table with every bonus recomputed; the rows keep their count and order. */
  function DeriveSuppliers(rows: seq<SupplierEntry>): (r: seq<SupplierEntry>)
    ensures |r| == |rows|
    ensures forall i :: 0 <= i < |rows| ==>
              && SameSupplierInput(r[i], rows[i])
              && r[i].bonusQty == Some(Number0(rows[i].actualQty) - Number0(rows[i].orderedQty))
    ensures forall i :: 0 <= i < |r| ==> ConsistentSupplier(r[i])
  {
    seq(|rows|, i requires 0 <= i < |rows| => DeriveSupplier(rows[i]))
  }

  /** The item table with available and closing stock recomputed and the sales columns
      normalised; the rows keep their count, order, codes, names and stock inputs. */
  function DeriveItems(items: seq<ItemRow>): (r: seq<ItemRow>)
    ensures |r| == |items|
    ensures forall i :: 0 <= i < |items| ==>
              var it, out := items[i], r[i];
              && out.itemCode == it.itemCode && out.itemName == it.itemName
              && out.openingStock == it.openingStock && out.newStockIn == it.newStockIn
              && out.spoiledDisposed == it.spoiledDisposed && out.qtySold == it.qtySold
              && out.salesCash == Some(Number0(it.salesCash))
              && out.salesBank == Some(Number0(it.salesBank))
              && out.salesDebt == Some(Number0(it.salesDebt))
              && out.totalAvailable == Some(Max0(Number0(it.openingStock) + Number0(it.newStockIn) - Number0(it.spoiledDisposed)))
              && out.closingStock == Some(Max0(out.totalAvailable.value - Number0(it.qtySold)))
    // the floor-at-zero policy
    ensures forall i :: 0 <= i < |r| ==>
              && r[i].totalAvailable.Some? && r[i].totalAvailable.value >= 0
              && r[i].closingStock.Some? && r[i].closingStock.value >= 0
    ensures forall i :: 0 <= i < |r| ==> ConsistentItem(r[i])
    ensures forall c :: SumSales(r, c) == SumSales(items, c)
  {
    var r := seq(|items|, i requires 0 <= i < |items| => DeriveItem(items[i]));
    SumsOfDerived(items);
    r
  }

  /** The cash summary built from its four totals, the counted cash and the explanation:
      the expected cash is the cash taken in less the expenses, and the difference is the
      counted cash less the expected cash. */
  function CashFrom(cashIn: int, bankIn: int, debt: int, expenses: int, counted: int, explanation: string): (r: CashSummary)
    ensures r.expectedCashAtHand == Some(cashIn - expenses)
    ensures r.cashDifference == Some(counted - (cashIn - expenses))
    ensures r.actualCashCounted == Some(counted) && r.differenceExplanation == Some(explanation)
  {
    var expectedCashAtHand := cashIn - expenses;
    CashSummary(Some(cashIn), Some(bankIn), Some(debt), Some(expenses), Some(expectedCashAtHand),
                Some(counted), Some(counted - expectedCashAtHand), Some(explanation))
  }

  /** The cash summary recomputed from the item rows and expenses. */
  function DeriveCash(cs: CashSummary, items: seq<ItemRow>, expenses: seq<Expense>): (r: CashSummary)
    ensures r.totalCashIn == Some(SumSales(items, CashColumn))
    ensures r.totalBankIn == Some(SumSales(items, BankColumn))
    ensures r.totalDebt == Some(SumSales(items, DebtColumn))
    ensures r.totalExpenses == Some(SumExpenses(expenses))
    ensures r.expectedCashAtHand == Some(SumSales(items, CashColumn) - SumExpenses(expenses))
    ensures r.actualCashCounted == Some(Number0(cs.actualCashCounted))
    ensures r.cashDifference
            == Some(Number0(cs.actualCashCounted) - (SumSales(items, CashColumn) - SumExpenses(expenses)))
    ensures r.differenceExplanation == Some(cs.differenceExplanation.GetOr(""))
  {
    CashFrom(SumSales(items, CashColumn), SumSales(items, BankColumn), SumSales(items, DebtColumn),
             SumExpenses(expenses), Number0(cs.actualCashCounted), cs.differenceExplanation.GetOr(""))
  }

  /** `computeDerived(form)`. The totals are summed over the recomputed rows, as in the
      source; their contract states them over the rows as entered. */
  function ComputeDerived(f: Form): (r: Form)
    // nothing but the derived fields and the normalised sales columns changes
    ensures r.(supplierEntries := [], items := [], cashSummary := EmptyCashSummary)
            == f.(supplierEntries := [], items := [], cashSummary := EmptyCashSummary)
    ensures |r.supplierEntries| == |f.supplierEntries|
    ensures forall i :: 0 <= i < |f.supplierEntries| ==>
              && SameSupplierInput(r.supplierEntries[i], f.supplierEntries[i])
              && r.supplierEntries[i].bonusQty == Some(Number0(f.supplierEntries[i].actualQty) - Number0(f.supplierEntries[i].orderedQty))
    ensures |r.items| == |f.items|
    ensures forall i :: 0 <= i < |f.items| ==>
              && r.items[i].itemCode == f.items[i].itemCode && r.items[i].itemName == f.items[i].itemName
              && SameItemInput(r.items[i], f.items[i])
    ensures forall i :: 0 <= i < |r.items| ==>
              && r.items[i].totalAvailable.Some? && r.items[i].totalAvailable.value >= 0
              && r.items[i].closingStock.Some? && r.items[i].closingStock.value >= 0
    ensures r.cashSummary == DeriveCash(f.cashSummary, f.items, f.expenses)
    ensures Consistent(r)
  {
    var items := DeriveItems(f.items);
    assert SumSales(items, CashColumn) == SumSales(f.items, CashColumn);
    assert SumSales(items, BankColumn) == SumSales(f.items, BankColumn);
    assert SumSales(items, DebtColumn) == SumSales(f.items, DebtColumn);
    var cs := DeriveCash(f.cashSummary, items, f.expenses);
    assert ConsistentCash(cs, items, f.expenses);
    f.(supplierEntries := DeriveSuppliers(f.supplierEntries), items := items, cashSummary := cs)
  }

  /** The recomputed cash summary is the one built from the totals of the entered rows. */
  lemma DerivedCash(f: Form)
    ensures ComputeDerived(f).cashSummary
            == CashFrom(SumSales(f.items, CashColumn), SumSales(f.items, BankColumn),
                        SumSales(f.items, DebtColumn), SumExpenses(f.expenses),
                        Number0(f.cashSummary.actualCashCounted), f.cashSummary.differenceExplanation.GetOr(""))
  {
  }

  /** A form is left as it is by the recomputation exactly when it already satisfies the
      invariants; in particular the recomputation is idempotent. */
  lemma {:induction false} ConsistentIffUnchanged(f: Form)
    ensures Consistent(f) <==> ComputeDerived(f) == f
  {
    var r := ComputeDerived(f);
    if Consistent(f) {
      assert r.supplierEntries == f.supplierEntries by {
        forall i | 0 <= i < |f.supplierEntries| ensures r.supplierEntries[i] == f.supplierEntries[i] {
          assert ConsistentSupplier(f.supplierEntries[i]);
        }
      }
      assert r.items == f.items by {
        forall i | 0 <= i < |f.items| ensures r.items[i] == f.items[i] {
          assert ConsistentItem(f.items[i]);
        }
      }
    }
  }

  lemma ComputeDerivedIdempotent(f: Form)
    ensures ComputeDerived(ComputeDerived(f)) == ComputeDerived(f)
  {
    ConsistentIffUnchanged(ComputeDerived(f));
  }

  lemma {:induction false} SumSalesSameInput(a: seq<ItemRow>, b: seq<ItemRow>, c: SalesColumn)
    requires |a| == |b|
    requires forall i :: 0 <= i < |a| ==> SameItemInput(a[i], b[i])
    ensures SumSales(a, c) == SumSales(b, c)
  {
    if |a| > 0 {
      assert SameItemInput(a[0], b[0]);
      SumSalesSameInput(a[1..], b[1..], c);
    }
  }

  lemma {:induction false} DeriveItemSameInput(a: ItemRow, b: ItemRow)
    requires SameItemInput(a, b)
    ensures DeriveItem(a) == DeriveItem(b)
  {
    var blank := (it: ItemRow) => it.(totalAvailable := None, closingStock := None, salesCash := None, salesBank := None, salesDebt := None);
    assert blank(a) == blank(b);
    assert a.openingStock == b.openingStock && a.newStockIn == b.newStockIn && a.spoiledDisposed == b.spoiledDisposed;
    assert a.qtySold == b.qtySold && a.itemCode == b.itemCode && a.itemName == b.itemName;
  }

  lemma {:induction false} DeriveSupplierSameInput(a: SupplierEntry, b: SupplierEntry)
    requires SameSupplierInput(a, b)
    ensures DeriveSupplier(a) == DeriveSupplier(b)
  {
    assert a.(bonusQty := None) == b.(bonusQty := None);
    assert a.actualQty == b.actualQty && a.orderedQty == b.orderedQty;
  }

  lemma {:induction false} DeriveSuppliersSameInput(a: seq<SupplierEntry>, b: seq<SupplierEntry>)
    requires |a| == |b|
    requires forall i :: 0 <= i < |a| ==> SameSupplierInput(a[i], b[i])
    ensures DeriveSuppliers(a) == DeriveSuppliers(b)
  {
    forall i | 0 <= i < |a| ensures DeriveSuppliers(a)[i] == DeriveSuppliers(b)[i] {
      DeriveSupplierSameInput(a[i], b[i]);
    }
  }

  lemma {:induction false} DeriveItemsSameInput(a: seq<ItemRow>, b: seq<ItemRow>)
    requires |a| == |b|
    requires forall i :: 0 <= i < |a| ==> SameItemInput(a[i], b[i])
    ensures DeriveItems(a) == DeriveItems(b)
  {
    forall i | 0 <= i < |a| ensures DeriveItems(a)[i] == DeriveItems(b)[i] {
      DeriveItemSameInput(a[i], b[i]);
    }
  }

  /** The recomputation reads only the entered values: whatever derived values a form
      (or a patch merged into it) carries are overwritten. */
  lemma {:induction false} ComputeDerivedReadsOnlyInput(f: Form, g: Form)
    requires SameInput(f, g)
    ensures ComputeDerived(f) == ComputeDerived(g)
  {
    DeriveSuppliersSameInput(f.supplierEntries, g.supplierEntries);
    DeriveItemsSameInput(f.items, g.items);
    var items := DeriveItems(f.items);
    assert DeriveCash(f.cashSummary, items, f.expenses) == DeriveCash(g.cashSummary, items, g.expenses);
  }

  /** Recomputing the derived values moves no text, so it neither empties nor fills a
      required one. */
  lemma ComputeDerivedKeepsAccepted(f: Form)
    ensures RowsAccepted(ComputeDerived(f)) <==> RowsAccepted(f)
  {
    var r := ComputeDerived(f);
    assert forall i :: 0 <= i < |f.supplierEntries| ==> r.supplierEntries[i].supplierName == f.supplierEntries[i].supplierName by {
      forall i | 0 <= i < |f.supplierEntries|
        ensures r.supplierEntries[i].supplierName == f.supplierEntries[i].supplierName
      {
        assert SameSupplierInput(r.supplierEntries[i], f.supplierEntries[i]);
        assert r.supplierEntries[i].(bonusQty := None).supplierName == r.supplierEntries[i].supplierName;
      }
    }
    assert r.expenses == r.(supplierEntries := [], items := [], cashSummary := EmptyCashSummary).expenses;
  }

  /** The expense setters touch texts only, so the expense total stays. */
  lemma {:induction false} SumExpensesTrimmed(rows: seq<Expense>)
    ensures SumExpenses(TrimExpenses(rows)) == SumExpenses(rows)
    decreases |rows|
  {
    if |rows| > 0 {
      SumExpensesTrimmed(rows[1..]);
      assert TrimExpenses(rows)[1..] == TrimExpenses(rows[1..]);
    }
  }
}

=== FILE: inputs.dfy ===
/** How the pages read what is typed into their inputs: `Number(text)` on the texts the
    model covers, and the `normalizeNum` helper the daily-form and product pages share. */
module Inputs {
  import opened Values
  import opened Text

  /** A value held by an input or a row key: typed text, a number loaded from the server,
      or nothing (`undefined` or `null`). */
  datatype Cell = Chars(s: string) | Numeric(n: int) | Absent

  /** `Number(text)` on the texts the model reads: white space around the text is
      ignored, a blank text is 0, and an optional sign followed by decimal digits is that
      integer. Every other text is read as not a finite number. */
  function ParseNumber(s: string): (r: Option<int>)
    ensures AllSpace(s) <==> r == Some(0) && Trim(s) == []
  {
    var t := Trim(s);
    if |t| == 0 then Some(0)
    else if (t[0] == '-' || t[0] == '+') && |t| > 1 && AllDigits(t[1..]) then
      var magnitude: int := DigitsValue(t[1..]);
      Some(if t[0] == '-' then -magnitude else magnitude)
    else if AllDigits(t) then Some(DigitsValue(t))
    else None
  }

  /** `normalizeNum`: the number `Number(v)` gives when it is finite, otherwise 0. */
  function NormalizeNum(c: Cell): int {
    match c
    case Chars(s) => ParseNumber(s).GetOr(0)
    case Numeric(n) => n
    case Absent => 0
  }

  /** Reading back the text `String(n)` of an integer gives the integer. */
  lemma {:induction false} NormalizeNumRoundTrip(n: int)
    ensures ParseNumber(IntToString(n)) == Some(n)
    ensures NormalizeNum(Chars(IntToString(n))) == n
  {
    var t := IntToString(n);
    if n >= 0 {
      NatToStringRoundTrip(n);
      assert IsDigit(t[0]) && IsDigit(t[|t| - 1]);
      TrimUnpadded(t);
      assert !(t[0] == '-' || t[0] == '+');
    } else {
      var digits := NatToString(-n);
      NatToStringRoundTrip(-n);
      assert t[0] == '-' && t[1..] == digits;
      assert t[|t| - 1] == digits[|digits| - 1];
      assert IsDigit(t[|t| - 1]);
      TrimUnpadded(t);
      assert AllDigits(t[1..]) && DigitsValue(t[1..]) == -n;
    }
  }

  /** Normalising a normalised number changes nothing. */
  lemma NormalizeNumIdempotent(c: Cell)
    ensures NormalizeNum(Numeric(NormalizeNum(c))) == NormalizeNum(c)
  {
  }
}

=== FILE: lifecycle.dfy ===
/** The daily-form lifecycle: the five handlers of `dailyFormController.js` that change
    forms, each behind the role gate of `routes/dailyForms.js`, as functions over a store
    holding at most one form per (business, day, shift). */
module Lifecycle {
  import opened Values
  import opened Text
  import opened DailyForm
  import opened Derive
  import opened Validation
  import opened Merge
  import opened Products

  /** The daily forms of every business, by key. */
  type Store = map<FormKey, Form>

  /** What every stored form satisfies: it sits under its own key, its derived values are
      up to date, its required row texts are filled, it is a draft or a submitted form,
      and a submitted form passed the validator and names who approved it. */
  predicate ValidForm(k: FormKey, f: Form) {
    && f.key == k
    && Consistent(f)
    && RowsAccepted(f)
    && f.status != Locked
    && (f.status == Submitted ==> Submittable(f) && f.approvedBy.Some?)
  }

  predicate Valid(st: Store) {
    forall k :: k in st ==> ValidForm(k, st[k])
  }

  /** `DailyForm.findOne({ _id: id, businessId })` finds the form: it exists and belongs
      to the caller's business. */
  predicate Visible(st: Store, caller: Caller, id: FormKey) {
    id in st && caller.business == Some(id.business)
  }

  /** A successful request: the store afterwards and the form it answers with. */
  datatype Outcome = Outcome(store: Store, form: Form)

  /** The store after a request: unchanged when the request failed. */
  function After(st: Store, r: Result<Outcome>): Store {
    if r.Ok? then r.value.store else st
  }

  const FormNotFound: Failure := NotFound("Daily form not found")
  const MissingBusiness: Failure := BadRequest("Missing businessId for user")
  const MissingDate: Failure := BadRequest("Date is required")
  const AlreadyExists: Failure := BadRequest("Daily form already exists for this date/shift")
  const NoProducts: Failure := BadRequest("No active products found to create the form.")
  const NotCreatedYet: Failure := NotFound("Daily form not created yet. Owner/Manager must create it from Products.")
  const NotEditable: Failure := BadRequest("Cannot edit a submitted/locked form")
  const AlreadySubmitted: Failure := BadRequest("Form already submitted/locked")

  /** The key a request names: the caller's business, the day and the shift ("Morning"
      when none is given). */
  function KeyOf(caller: Caller, date: Day, shift: Option<Shift>): FormKey
    requires caller.business.Some?
  {
    FormKey(caller.business.value, date, shift.GetOr(Morning))
  }

  /** The schema defaults of a new cash summary. */
  const DefaultCash := CashSummary(Some(0), Some(0), Some(0), Some(0), Some(0), Some(0), Some(0), Some(""))

  /** The item row of a new form for one product: its code and name (through the
      row's `trim` setters), every number 0. */
  function BlankRow(p: Product): ItemRow {
    ItemRow(Trim(p.itemCode), Trim(p.name), Some(0), Some(0), Some(0), Some(0), Some(0), Some(0), Some(0), Some(0), Some(0))
  }

  function BlankRows(products: seq<Product>): (r: seq<ItemRow>)
    ensures |r| == |products|
    ensures forall i :: 0 <= i < |products| ==> r[i] == BlankRow(products[i])
  {
    seq(|products|, i requires 0 <= i < |products| => BlankRow(products[i]))
  }

  /** A blank row satisfies the invariants already. */
  lemma BlankRowConsistent(p: Product)
    ensures ConsistentItem(BlankRow(p))
  {
  }

  /** The draft `createDailyForm` builds: one zero row per product, in the given order,
      no supplier or expense rows, and the derived values computed. */
  function NewForm(key: FormKey, userId: string, products: seq<Product>): (f: Form)
    ensures f.key == key && f.status == Draft && f.recordedBy == userId && f.approvedBy.None?
    ensures |f.supplierEntries| == 0 && |f.expenses| == 0
    ensures |f.items| == |products|
    ensures forall i :: 0 <= i < |f.items| ==>
              && f.items[i].itemCode == Trim(products[i].itemCode) && f.items[i].itemName == Trim(products[i].name)
              && Number0(f.items[i].openingStock) == Number0(f.items[i].qtySold) == Number0(f.items[i].closingStock) == 0
    ensures Number0(f.cashSummary.cashDifference) == 0
    ensures Consistent(f)
  {
    var rows := BlankRows(products);
    SumSalesBlank(products);
    ComputeDerived(Form(key, Draft, Some(0), Some(0), [], rows, [], DefaultCash, Some(""), userId, None))
  }

  /** Every product the form is built from has a code and a name that are not white
      space only, so the item rows pass `required`. */
  predicate Nameable(products: seq<Product>) {
    forall i :: 0 <= i < |products| ==> !IsBlank(products[i].itemCode) && !IsBlank(products[i].name)
  }

  /** The last steps of `createDailyForm` for a key: a key already taken is refused, an
      empty product selection is refused, and otherwise the new draft is saved, which
      its item rows' `required` code and name can refuse. */
  function PlaceForm(st: Store, key: FormKey, userId: string, products: seq<Product>): (r: Result<Outcome>)
    ensures r.Ok? <==> key !in st && |products| > 0 && Nameable(products)
    ensures r == Err(AlreadyExists) <==> key in st
    ensures r == Err(NoProducts) <==> key !in st && |products| == 0
    ensures r == Err(Refused) <==> key !in st && |products| > 0 && !Nameable(products)
    ensures r.Ok? ==> r.value.form == NewForm(key, userId, products) && r.value.store == st[key := r.value.form]
    ensures Valid(st) && r.Ok? ==> Valid(r.value.store)
  {
    if key in st then Err(AlreadyExists)
    else if |products| == 0 then Err(NoProducts)
    else
      var f := NewForm(key, userId, products);
      NewFormAccepted(key, userId, products);
      if !RowsAccepted(f) then Err(Refused)
      else Ok(Outcome(st[key := f], f))
  }

  /** `createDailyForm` behind `authorize("owner", "manager")`. */
  function CreateForm(st: Store, cat: Catalog, caller: Caller, date: Option<Day>, shift: Option<Shift>, productIds: seq<nat>)
    : (r: Result<Outcome>)
    requires WellIndexed(cat)
    ensures caller.role == Cashier ==> r == Err(NotPermitted)
    ensures caller.role != Cashier && caller.business.None? ==> r == Err(MissingBusiness)
    ensures caller.role != Cashier && caller.business.Some? && date.None? ==> r == Err(MissingDate)
    ensures caller.role != Cashier && caller.business.Some? && date.Some? ==>
              var key := KeyOf(caller, date.value, shift);
              && (r.Ok? <==> key !in st && |FormProducts(cat, key.business, productIds)| > 0
                             && Nameable(FormProducts(cat, key.business, productIds)))
              && (r == Err(AlreadyExists) <==> key in st)
              && (r == Err(NoProducts) <==> key !in st && |FormProducts(cat, key.business, productIds)| == 0)
              && (r == Err(Refused) <==> key !in st && |FormProducts(cat, key.business, productIds)| > 0
                                         && !Nameable(FormProducts(cat, key.business, productIds)))
    ensures r.Ok? ==>
              && caller.role != Cashier && caller.business.Some? && date.Some?
              && var key, products := KeyOf(caller, date.value, shift), FormProducts(cat, caller.business.value, productIds);
                 && key !in st && |products| > 0 && Nameable(products)
                 && r.value.form == NewForm(key, caller.userId, products)
                 && r.value.store == st[key := r.value.form]
    ensures Valid(st) && r.Ok? ==> Valid(r.value.store)
  {
    if caller.role == Cashier then Err(NotPermitted)
    else if caller.business.None? then Err(MissingBusiness)
    else if date.None? then Err(MissingDate)
    else
      var key := KeyOf(caller, date.value, shift);
      PlaceForm(st, key, caller.userId, FormProducts(cat, key.business, productIds))
  }

  /** A new form passes `required` exactly when every product it is built from has a
      code and a name. */
  lemma NewFormAccepted(key: FormKey, userId: string, products: seq<Product>)
    ensures RowsAccepted(NewForm(key, userId, products)) <==> Nameable(products)
  {
    var rows := BlankRows(products);
    var raw := Form(key, Draft, Some(0), Some(0), [], rows, [], DefaultCash, Some(""), userId, None);
    assert NewForm(key, userId, products) == ComputeDerived(raw);
    ComputeDerivedKeepsAccepted(raw);
    assert RowsAccepted(raw) <==> ItemsNamed(rows);
    BlankRowsNamed(products);
  }

  lemma BlankRowsNamed(products: seq<Product>)
    ensures ItemsNamed(BlankRows(products)) <==> Nameable(products)
  {
    var rows := BlankRows(products);
    forall i | 0 <= i < |rows|
      ensures (rows[i].itemCode != [] && rows[i].itemName != []) <==> (!IsBlank(products[i].itemCode) && !IsBlank(products[i].name))
    {
      assert rows[i] == BlankRow(products[i]);
    }
  }

  /** The catalogue handlers only store products with a code and a name, so a form
      built from a catalogue they produced is never refused by `required`. */
  lemma CreateFromValidCatalog(st: Store, cat: Catalog, caller: Caller, date: Option<Day>, shift: Option<Shift>, productIds: seq<nat>)
    requires Products.Valid(cat)
    ensures CreateForm(st, cat, caller, date, shift, productIds) != Err(Refused)
  {
    if caller.business.Some? {
      CatalogNameable(cat, caller.business.value, productIds);
    }
  }

  lemma CatalogNameable(cat: Catalog, business: string, ids: seq<nat>)
    requires Products.Valid(cat)
    ensures Nameable(FormProducts(cat, business, ids))
  {
    var products := FormProducts(cat, business, ids);
    forall i | 0 <= i < |products|
      ensures !IsBlank(products[i].itemCode) && !IsBlank(products[i].name)
    {
      var j :| 0 <= j < |cat| && cat[j] == products[i];
      assert Storable(cat[j]);
      TrimUnpadded(products[i].itemCode);
      TrimUnpadded(products[i].name);
    }
  }

  lemma {:induction false} SumSalesBlank(products: seq<Product>)
    ensures SumSales(BlankRows(products), CashColumn) == 0
    decreases |products|
  {
    if |products| > 0 {
      SumSalesBlank(products[1..]);
      assert BlankRows(products)[1..] == BlankRows(products[1..]);
    }
  }

  /** `getDraft`, open to every role: the form of the day and shift, recomputed. */
  function GetDraft(st: Store, caller: Caller, date: Option<Day>, shift: Option<Shift>): (r: Result<Outcome>)
    ensures r.Ok? <==> caller.business.Some? && date.Some? && KeyOf(caller, date.value, shift) in st
                       && RowsAccepted(st[KeyOf(caller, date.value, shift)])
    ensures caller.business.Some? && date.Some? && KeyOf(caller, date.value, shift) !in st ==> r == Err(NotCreatedYet)
    ensures Valid(st) ==> (r.Ok? <==> caller.business.Some? && date.Some? && KeyOf(caller, date.value, shift) in st)
    ensures r.Ok? ==> var key := KeyOf(caller, date.value, shift);
              r.value.store == st[key := r.value.form] && r.value.form == ComputeDerived(st[key])
    ensures Valid(st) && r.Ok? ==> r.value.store == st && r.value.form == st[KeyOf(caller, date.value, shift)]
  {
    if caller.business.None? then Err(MissingBusiness)
    else if date.None? then Err(MissingDate)
    else
      var key := KeyOf(caller, date.value, shift);
      if key !in st then Err(NotCreatedYet)
      else
        var f := ComputeDerived(st[key]);
        assert Valid(st) ==> f == st[key] by {
          ConsistentIffUnchanged(st[key]);
        }
        ComputeDerivedKeepsAccepted(st[key]);
        if !RowsAccepted(f) then Err(Refused)
        else Ok(Outcome(st[key := f], f))
  }

  /** `updateDraft`, open to every role; what the body may change depends on the role.
      The save refuses a form with a required row text left blank or an expense payment
      method outside the `enum`, which a cashier's supplier or expense rows can bring in. */
  function UpdateDraft(st: Store, caller: Caller, id: FormKey, p: FormPatch): (r: Result<Outcome>)
    ensures r.Ok? <==> Visible(st, caller, id) && st[id].status == Draft
                       && RowsAccepted(MergeUpdate(st[id], caller.role, p))
    ensures !Visible(st, caller, id) ==> r == Err(FormNotFound)
    ensures Visible(st, caller, id) && st[id].status != Draft ==> r == Err(NotEditable)
    ensures Visible(st, caller, id) && st[id].status == Draft && !RowsAccepted(MergeUpdate(st[id], caller.role, p)) ==>
              r == Err(Refused)
    ensures Valid(st) && Visible(st, caller, id) && st[id].status == Draft && caller.role == Cashier ==>
              (r.Ok? <==> SentRowsPass(p))
    ensures Valid(st) && Visible(st, caller, id) && st[id].status == Draft && caller.role != Cashier ==> r.Ok?
    ensures r.Ok? ==> r.value.form == ComputeDerived(MergeUpdate(st[id], caller.role, p))
    ensures r.Ok? ==>
              var f, prev := r.value.form, st[id];
              && r.value.store == st[id := f]
              && f.key == prev.key && f.status == Draft
              && f.expenses == (if caller.role == Cashier && p.expenses.Some? then TrimExpenses(p.expenses.value) else prev.expenses)
              && f.recordedBy == prev.recordedBy && f.approvedBy == prev.approvedBy
              && |f.items| == |prev.items|
              && (forall i :: 0 <= i < |f.items| ==> f.items[i].itemCode == prev.items[i].itemCode && f.items[i].itemName == prev.items[i].itemName)
              && Consistent(f)
    ensures r.Ok? && caller.role != Cashier && Consistent(st[id]) ==>
              r.value.form.items == st[id].items && r.value.form.supplierEntries == st[id].supplierEntries
    ensures Valid(st) && r.Ok? ==> Valid(r.value.store)
  {
    if !Visible(st, caller, id) then Err(FormNotFound)
    else if st[id].status != Draft then Err(NotEditable)
    else
      var m := MergeUpdate(st[id], caller.role, p);
      assert caller.role != Cashier && Consistent(st[id]) ==>
               ComputeDerived(m).items == st[id].items && ComputeDerived(m).supplierEntries == st[id].supplierEntries by {
        if caller.role != Cashier && Consistent(st[id]) {
          UntouchedTablesStay(st[id], m);
        }
      }
      assert Valid(st) && caller.role == Cashier ==>
        (RowsAccepted(m) <==> SentRowsPass(p)) by {
        if Valid(st) && caller.role == Cashier {
          CashierMergeAccepted(st[id], p);
        }
      }
      MergedDraft(st[id], caller.role, p);
      SaveMerged(st, id, m)
  }

  /** The save at the end of `updateDraft`: the merged form is recomputed and stored,
      unless its rows fail the validators. */
  function SaveMerged(st: Store, id: FormKey, m: Form): (r: Result<Outcome>)
    requires id in st
    ensures r.Ok? <==> RowsAccepted(m)
    ensures r.Err? ==> r == Err(Refused)
    ensures r.Ok? ==> r.value.form == ComputeDerived(m) && r.value.store == st[id := r.value.form]
    ensures Valid(st) && ValidForm(id, ComputeDerived(m)) && r.Ok? ==> Valid(r.value.store)
  {
    var f := ComputeDerived(m);
    ComputeDerivedKeepsAccepted(m);
    if !RowsAccepted(f) then Err(Refused)
    else
      assert Valid(st) && ValidForm(id, f) ==> Valid(st[id := f]) by {
        if Valid(st) && ValidForm(id, f) {
          Replace(st, id, f);
        }
      }
      Ok(Outcome(st[id := f], f))
  }

  /** A draft after an update and the recomputation: the same key, status and authors,
      the expense table the role may replace, the item rows' codes and names, and the
      derived values up to date. A stored draft keeps the store invariant when its
      rows pass the validators. */
  lemma MergedDraft(prev: Form, role: Role, p: FormPatch)
    requires prev.status == Draft
    ensures var f := ComputeDerived(MergeUpdate(prev, role, p));
            && f.key == prev.key && f.status == Draft
            && f.expenses == (if role == Cashier && p.expenses.Some? then TrimExpenses(p.expenses.value) else prev.expenses)
            && f.recordedBy == prev.recordedBy && f.approvedBy == prev.approvedBy
            && |f.items| == |prev.items|
            && (forall i :: 0 <= i < |f.items| ==> f.items[i].itemCode == prev.items[i].itemCode && f.items[i].itemName == prev.items[i].itemName)
            && Consistent(f)
            && (ValidForm(prev.key, prev) && RowsAccepted(f) ==> ValidForm(prev.key, f))
  {
    var m := MergeUpdate(prev, role, p);
    var f := ComputeDerived(m);
    assert f.expenses == m.expenses;
    if role == Cashier {
      assert forall i :: 0 <= i < |m.items| ==> m.items[i].itemCode == prev.items[i].itemCode && m.items[i].itemName == prev.items[i].itemName;
    }
  }

  /** Putting a valid form under its own key keeps the store valid. */
  lemma Replace(st: Store, id: FormKey, f: Form)
    requires Valid(st) && ValidForm(id, f)
    ensures Valid(st[id := f])
  {
  }

  /** The rows a cashier's body sends pass the validators once trimmed: no supplier name
      and no expense category is white space only, and every expense names a payment
      method the `enum` allows. */
  predicate SentRowsPass(p: FormPatch) {
    && (p.supplierEntries.Some? ==>
          forall i :: 0 <= i < |p.supplierEntries.value| ==> !AllSpace(p.supplierEntries.value[i].supplierName))
    && (p.expenses.Some? ==>
          forall i :: 0 <= i < |p.expenses.value| ==>
            !AllSpace(p.expenses.value[i].category) && ExpenseMethod(p.expenses.value[i].paymentMethod))
  }

  /** A cashier's merge into a form whose rows pass the validators passes them exactly
      when the supplier and expense rows sent have names and categories that are not
      white space only and the expenses sent name allowed payment methods. */
  lemma CashierMergeAccepted(f: Form, p: FormPatch)
    requires RowsAccepted(f)
    ensures var m := MergeUpdate(f, Cashier, p);
            RowsAccepted(m) <==> SentRowsPass(p)
  {
    if p.supplierEntries.Some? {
      TrimmedSuppliersNamed(p.supplierEntries.value);
    }
    if p.expenses.Some? {
      TrimmedExpensesNamed(p.expenses.value);
    }
  }

  /** Recomputing a form whose tables are those of a consistent form gives those tables back. */
  lemma UntouchedTablesStay(f: Form, m: Form)
    requires Consistent(f)
    requires m.items == f.items && m.supplierEntries == f.supplierEntries
    ensures ComputeDerived(m).items == f.items && ComputeDerived(m).supplierEntries == f.supplierEntries
  {
    ConsistentIffUnchanged(f);
    assert ComputeDerived(f).items == f.items;
  }

  /** `submitForm` behind `authorize("owner", "manager")`. The save after the validator
      refuses a stored form with a required row text missing, which no handler stores. */
  function SubmitForm(st: Store, caller: Caller, id: FormKey, p: SubmitPatch): (r: Result<Outcome>)
    ensures caller.role == Cashier ==> r == Err(NotPermitted)
    ensures caller.role != Cashier && !Visible(st, caller, id) ==> r == Err(FormNotFound)
    ensures caller.role != Cashier && Visible(st, caller, id) && st[id].status != Draft ==> r == Err(AlreadySubmitted)
    ensures r.Ok? <==> caller.role != Cashier && Visible(st, caller, id) && st[id].status == Draft
                       && Submittable(ComputeDerived(MergeSubmit(st[id], p))) && RowsAccepted(st[id])
    ensures (caller.role != Cashier && Visible(st, caller, id) && st[id].status == Draft
             && Submittable(ComputeDerived(MergeSubmit(st[id], p))) && !RowsAccepted(st[id])) ==> r == Err(Refused)
    ensures caller.role != Cashier && Visible(st, caller, id) && st[id].status == Draft
            && !Submittable(ComputeDerived(MergeSubmit(st[id], p))) ==>
              r.Err? && r.failure.BadRequest?
              && exists rej :: FirstFailure(ComputeDerived(MergeSubmit(st[id], p)), rej) && r.failure.message == Message(rej)
    ensures r.Ok? ==>
              var f := r.value.form;
              && r.value.store == st[id := f]
              && f.status == Submitted && f.approvedBy == Some(caller.userId)
              && Submittable(f) && Consistent(f)
              && f.(status := Draft, approvedBy := None) == ComputeDerived(MergeSubmit(st[id], p)).(approvedBy := None)
    ensures Valid(st) && r.Ok? ==> Valid(r.value.store)
  {
    if caller.role == Cashier then Err(NotPermitted)
    else if !Visible(st, caller, id) then Err(FormNotFound)
    else if st[id].status != Draft then Err(AlreadySubmitted)
    else
      var m := ComputeDerived(MergeSubmit(st[id], p));
      var problem := ValidateSubmit(m);
      if problem.Some? then Err(BadRequest(Message(problem.value)))
      else
        ComputeDerivedKeepsAccepted(MergeSubmit(st[id], p));
        assert RowsAccepted(MergeSubmit(st[id], p)) == RowsAccepted(st[id]);
        if !RowsAccepted(m) then Err(Refused)
        else
          var f := m.(status := Submitted, approvedBy := Some(caller.userId));
          Ok(Outcome(st[id := f], f))
  }

  /** `deleteForm` behind `authorize("owner")`: removes the form, whatever its status. */
  function DeleteForm(st: Store, caller: Caller, id: FormKey): (r: Result<Outcome>)
    ensures caller.role != Owner ==> r == Err(NotPermitted)
    ensures r.Ok? <==> caller.role == Owner && Visible(st, caller, id)
    ensures r.Ok? ==>
              && id !in r.value.store && r.value.form == st[id]
              && (forall k :: k != id ==> (k in r.value.store <==> k in st))
              && (forall k :: k in r.value.store ==> r.value.store[k] == st[k])
    ensures Valid(st) && r.Ok? ==> Valid(r.value.store)
  {
    if caller.role != Owner then Err(NotPermitted)
    else if !Visible(st, caller, id) then Err(FormNotFound)
    else Ok(Outcome(st - {id}, st[id]))
  }

  /** One request to the daily-form routes that change forms. */
  datatype Request =
    | Create(date: Option<Day>, shift: Option<Shift>, productIds: seq<nat>)
    | LoadDraft(date: Option<Day>, shift: Option<Shift>)
    | Update(id: FormKey, patch: FormPatch)
    | Submit(id: FormKey, body: SubmitPatch)
    | Delete(id: FormKey)

  function Handle(st: Store, cat: Catalog, caller: Caller, req: Request): Result<Outcome>
    requires WellIndexed(cat)
  {
    match req
    case Create(date, shift, ids) => CreateForm(st, cat, caller, date, shift, ids)
    case LoadDraft(date, shift) => GetDraft(st, caller, date, shift)
    case Update(id, patch) => UpdateDraft(st, caller, id, patch)
    case Submit(id, body) => SubmitForm(st, caller, id, body)
    case Delete(id) => DeleteForm(st, caller, id)
  }

  /** The store after a request differs from the one before only in the form `id`. */
  predicate OnlyChanges(st: Store, st': Store, id: FormKey) {
    && (forall k :: k in st && k != id ==> k in st' && st'[k] == st[k])
    && (forall k :: k in st' && k != id ==> k in st)
  }

  /** The form a request names, or the key of a request that changes nothing. */
  function Target(st: Store, caller: Caller, req: Request): FormKey {
    match req
    case Create(date, shift, _) =>
      if caller.business.Some? && date.Some? then KeyOf(caller, date.value, shift) else FormKey("", 0, Morning)
    case LoadDraft(date, shift) =>
      if caller.business.Some? && date.Some? then KeyOf(caller, date.value, shift) else FormKey("", 0, Morning)
    case Update(id, _) => id
    case Submit(id, _) => id
    case Delete(id) => id
  }

  lemma HandleChangesOnlyTarget(st: Store, cat: Catalog, caller: Caller, req: Request)
    requires WellIndexed(cat)
    ensures var r := Handle(st, cat, caller, req);
            && OnlyChanges(st, After(st, r), Target(st, caller, req))
            && (r.Ok? ==> Some(Target(st, caller, req).business) == caller.business)
  {
    var r := Handle(st, cat, caller, req);
    var k := Target(st, caller, req);
    UnchangedOnlyChanges(st, k);
    if r.Ok? {
      match req
      case Create(date, shift, ids) =>
        PutOnlyChanges(st, k, r.value.form);
      case LoadDraft(date, shift) =>
        PutOnlyChanges(st, k, r.value.form);
      case Update(id, patch) =>
        PutOnlyChanges(st, k, r.value.form);
      case Submit(id, body) =>
        PutOnlyChanges(st, k, r.value.form);
      case Delete(id) =>
        RemoveOnlyChanges(st, k);
    }
  }

  lemma UnchangedOnlyChanges(st: Store, k: FormKey)
    ensures OnlyChanges(st, st, k)
  {
  }

  lemma PutOnlyChanges(st: Store, k: FormKey, f: Form)
    ensures OnlyChanges(st, st[k := f], k)
  {
  }

  lemma RemoveOnlyChanges(st: Store, k: FormKey)
    ensures OnlyChanges(st, st - {k}, k)
  {
  }

  /** Every request keeps the store invariant, touches only forms of the caller's
      business, and never changes a submitted form: such a form can only be deleted,
      and only by an owner. */
  lemma HandleKeepsInvariants(st: Store, cat: Catalog, caller: Caller, req: Request)
    requires WellIndexed(cat)
    requires Valid(st)
    ensures var st' := After(st, Handle(st, cat, caller, req));
            && Valid(st')
            && (forall k :: k in st && Some(k.business) != caller.business ==> k in st' && st'[k] == st[k])
            && (forall k :: k in st' && Some(k.business) != caller.business ==> k in st)
            && (forall k :: k in st && st[k].status == Submitted && k in st' ==> st'[k] == st[k])
            && (forall k :: k in st && st[k].status == Submitted && k !in st' ==> caller.role == Owner)
  {
    HandleChangesOnlyTarget(st, cat, caller, req);
  }

  /** Creating the same form twice fails the second time. */
  lemma CreateTwiceConflicts(st: Store, cat: Catalog, caller: Caller, date: Option<Day>, shift: Option<Shift>, ids: seq<nat>)
    requires WellIndexed(cat)
    requires CreateForm(st, cat, caller, date, shift, ids).Ok?
    ensures CreateForm(CreateForm(st, cat, caller, date, shift, ids).value.store, cat, caller, date, shift, ids) == Err(AlreadyExists)
  {
  }

  /** Sending the same update twice leaves the form as sending it once. */
  lemma {:induction false} UpdateIdempotent(st: Store, caller: Caller, id: FormKey, p: FormPatch)
    requires UpdateDraft(st, caller, id, p).Ok?
    ensures var once := UpdateDraft(st, caller, id, p).value.store;
            UpdateDraft(once, caller, id, p) == UpdateDraft(st, caller, id, p).(value := Outcome(once, once[id]))
  {
    var f := st[id];
    var m1 := MergeUpdate(f, caller.role, p);
    var d1 := ComputeDerived(m1);
    var m2 := MergeUpdate(d1, caller.role, p);
    RemergeSameInput(f, caller.role, p);
    ComputeDerivedReadsOnlyInput(m2, m1);
    var once := st[id := d1];
    assert once[id := d1] == once;
  }

  /** Patching a row, recomputing it and patching it again leaves its entered values as
      after the first patch. */
  lemma {:induction false} RepatchItem(it: ItemRow, q: Option<ItemPatch>)
    ensures SameItemInput(PatchItem(DeriveItem(PatchItem(it, q)), q), PatchItem(it, q))
  {
  }

  /** Merging a patch into the recomputed result of the same merge changes no entered value. */
  lemma {:induction false} RemergeSameInput(f: Form, role: Role, p: FormPatch)
    ensures SameInput(MergeUpdate(ComputeDerived(MergeUpdate(f, role, p)), role, p), MergeUpdate(f, role, p))
  {
    RemergeSameHeader(f, role, p);
    RemergeSameItems(f, role, p);
  }

  /** The remerge keeps the header, the supplier rows and the entered cash figures. */
  lemma {:induction false} RemergeSameHeader(f: Form, role: Role, p: FormPatch)
    ensures var m1 := MergeUpdate(f, role, p);
            var m2 := MergeUpdate(ComputeDerived(m1), role, p);
            && m2.(supplierEntries := [], items := [], cashSummary := EmptyCashSummary)
               == m1.(supplierEntries := [], items := [], cashSummary := EmptyCashSummary)
            && |m2.supplierEntries| == |m1.supplierEntries|
            && (forall i :: 0 <= i < |m2.supplierEntries| ==> SameSupplierInput(m2.supplierEntries[i], m1.supplierEntries[i]))
            && Number0(m2.cashSummary.actualCashCounted) == Number0(m1.cashSummary.actualCashCounted)
            && m2.cashSummary.differenceExplanation.GetOr("") == m1.cashSummary.differenceExplanation.GetOr("")
  {
    if p.cashSummary.Some? {
      SpreadCashIdempotent(MergeUpdate(f, role, p).cashSummary, p.cashSummary.value);
    }
  }

  /** The remerge keeps the entered values of every item row. */
  lemma {:induction false} RemergeSameItems(f: Form, role: Role, p: FormPatch)
    ensures var m1 := MergeUpdate(f, role, p);
            var m2 := MergeUpdate(ComputeDerived(m1), role, p);
            && |m2.items| == |m1.items|
            && forall i :: 0 <= i < |m2.items| ==> SameItemInput(m2.items[i], m1.items[i])
  {
    var m1 := MergeUpdate(f, role, p);
    var d1 := ComputeDerived(m1);
    var m2 := MergeUpdate(d1, role, p);
    if role == Cashier {
      var ps := p.items.GetOr([]);
      forall i | 0 <= i < |m1.items| ensures SameItemInput(m2.items[i], m1.items[i]) {
        var q := PatchFor(ps, f.items[i].itemCode);
        assert m1.items[i] == PatchItem(f.items[i], q);
        assert d1.items[i] == DeriveItem(m1.items[i]);
        assert m2.items[i] == PatchItem(d1.items[i], q);
        RepatchItem(f.items[i], q);
      }
    }
  }
}

=== FILE: merge.dfy ===
/** How `updateDraft` and `submitForm` fold a request body into a stored draft before
    the derived values are recomputed. */
module Merge {
  import opened Values
  import opened DailyForm

  /** A `cashSummary` object of a request body, key by key. */
  datatype CashPatch = CashPatch(
    totalCashIn: Field<int>,
    totalBankIn: Field<int>,
    totalDebt: Field<int>,
    totalExpenses: Field<int>,
    expectedCashAtHand: Field<int>,
    actualCashCounted: Field<int>,
    cashDifference: Field<int>,
    differenceExplanation: Field<string>)

  /** `{ ...cs, ...p }`: the keys present in `p` replace those of `cs`. */
  function SpreadCash(cs: CashSummary, p: CashPatch): (r: CashSummary)
    ensures r.totalCashIn == Assign(p.totalCashIn, cs.totalCashIn)
    ensures r.totalBankIn == Assign(p.totalBankIn, cs.totalBankIn)
    ensures r.totalDebt == Assign(p.totalDebt, cs.totalDebt)
    ensures r.totalExpenses == Assign(p.totalExpenses, cs.totalExpenses)
    ensures r.expectedCashAtHand == Assign(p.expectedCashAtHand, cs.expectedCashAtHand)
    ensures r.actualCashCounted == Assign(p.actualCashCounted, cs.actualCashCounted)
    ensures r.cashDifference == Assign(p.cashDifference, cs.cashDifference)
    ensures r.differenceExplanation == Assign(p.differenceExplanation, cs.differenceExplanation)
  {
    CashSummary(
      Assign(p.totalCashIn, cs.totalCashIn),
      Assign(p.totalBankIn, cs.totalBankIn),
      Assign(p.totalDebt, cs.totalDebt),
      Assign(p.totalExpenses, cs.totalExpenses),
      Assign(p.expectedCashAtHand, cs.expectedCashAtHand),
      Assign(p.actualCashCounted, cs.actualCashCounted),
      Assign(p.cashDifference, cs.cashDifference),
      Assign(p.differenceExplanation, cs.differenceExplanation))
  }

  /** Spreading the same object twice is spreading it once. */
  lemma SpreadCashIdempotent(cs: CashSummary, p: CashPatch)
    ensures SpreadCash(SpreadCash(cs, p), p) == SpreadCash(cs, p)
  {
  }

  /** One element of the `items` array of a cashier's patch: the row it is meant for, the
      name the page echoes back (never read), and the value columns it sets (`null` or
      missing keeps the stored value). */
  datatype ItemPatch = ItemPatch(
    itemCode: Option<string>,
    itemName: Option<string>,
    openingStock: Num,
    newStockIn: Num,
    spoiledDisposed: Num,
    qtySold: Num,
    salesCash: Num,
    salesBank: Num,
    salesDebt: Num)

  /** The body of `PUT /api/daily-forms/:id`. `None` for a table stands for a missing key
      or a value that is not an array. */
  datatype FormPatch = FormPatch(
    kplcMeterOpening: Field<int>,
    kplcMeterClosing: Field<int>,
    cashSummary: Option<CashPatch>,
    notes: Field<string>,
    supplierEntries: Option<seq<SupplierEntry>>,
    items: Option<seq<ItemPatch>>,
    expenses: Option<seq<Expense>>)

  /** The body of `POST /api/daily-forms/:id/submit`. */
  datatype SubmitPatch = SubmitPatch(cashSummary: Option<CashPatch>, notes: Field<string>)

  /** The position of the last patch for `code`, or -1: a `Map` built from the patch
      array keeps the last entry of each key. */
  function LastIndexFor(ps: seq<ItemPatch>, code: string): (k: int)
    ensures -1 <= k < |ps|
    ensures k >= 0 ==> ps[k].itemCode == Some(code)
    ensures forall j :: k < j < |ps| ==> ps[j].itemCode != Some(code)
    decreases |ps|
  {
    if |ps| == 0 then -1
    else if ps[|ps| - 1].itemCode == Some(code) then |ps| - 1
    else LastIndexFor(ps[..|ps| - 1], code)
  }

  /** `patchByCode.get(code)` */
  function PatchFor(ps: seq<ItemPatch>, code: string): Option<ItemPatch> {
    var k := LastIndexFor(ps, code);
    if k < 0 then None else Some(ps[k])
  }

  /** One stored row after its patch (if any): every value column takes the patch value
      where that is not `null`, the code and name never change. */
  function PatchItem(it: ItemRow, p: Option<ItemPatch>): (r: ItemRow)
    ensures r.itemCode == it.itemCode && r.itemName == it.itemName
    ensures r.totalAvailable == it.totalAvailable && r.closingStock == it.closingStock
    ensures p.None? ==> r == it
  {
    match p
    case None => it
    case Some(q) =>
      it.(openingStock := Coalesce(q.openingStock, it.openingStock),
          newStockIn := Coalesce(q.newStockIn, it.newStockIn),
          spoiledDisposed := Coalesce(q.spoiledDisposed, it.spoiledDisposed),
          qtySold := Coalesce(q.qtySold, it.qtySold),
          salesCash := Coalesce(q.salesCash, it.salesCash),
          salesBank := Coalesce(q.salesBank, it.salesBank),
          salesDebt := Coalesce(q.salesDebt, it.salesDebt))
  }

  /** `form.items.map(...)` of a cashier's update: the stored rows, each patched by the
      last patch carrying its code. Patches for codes not on the form are dropped. */
  function MergeItems(items: seq<ItemRow>, ps: seq<ItemPatch>): (r: seq<ItemRow>)
    ensures |r| == |items|
    ensures forall i :: 0 <= i < |items| ==>
              && r[i].itemCode == items[i].itemCode && r[i].itemName == items[i].itemName
              && r[i] == PatchItem(items[i], PatchFor(ps, items[i].itemCode))
  {
    seq(|items|, i requires 0 <= i < |items| => PatchItem(items[i], PatchFor(ps, items[i].itemCode)))
  }

  /** Patching rows none of whose codes is mentioned leaves them as they are. */
  lemma MergeItemsUnmentioned(items: seq<ItemRow>, ps: seq<ItemPatch>)
    requires forall i, j :: 0 <= i < |items| && 0 <= j < |ps| ==> ps[j].itemCode != Some(items[i].itemCode)
    ensures MergeItems(items, ps) == items
  {
    var r := MergeItems(items, ps);
    forall i | 0 <= i < |items| ensures r[i] == items[i] {
      assert LastIndexFor(ps, items[i].itemCode) < 0;
    }
  }

  /** The header keys any role may set: meter readings, the cash summary and notes. */
  function MergeHeader(f: Form, p: FormPatch): Form {
    f.(kplcMeterOpening := Assign(p.kplcMeterOpening, f.kplcMeterOpening),
       kplcMeterClosing := Assign(p.kplcMeterClosing, f.kplcMeterClosing),
       cashSummary := if p.cashSummary.Some? then SpreadCash(f.cashSummary, p.cashSummary.value) else f.cashSummary,
       notes := Assign(p.notes, f.notes))
  }

  lemma MergeHeaderIdempotent(f: Form, p: FormPatch)
    ensures MergeHeader(MergeHeader(f, p), p) == MergeHeader(f, p)
  {
    if p.cashSummary.Some? {
      SpreadCashIdempotent(f.cashSummary, p.cashSummary.value);
    }
  }

  /** The merge of `updateDraft` as the handler is written: the header for every role,
      then for a cashier the supplier table (replaced when an array is sent, with the
      row setters trimming its texts), the item value columns, and the header once more. The expense table of the body is never
      read, so no request can ever store an expense. */
  function MergeUpdateAsWritten(f: Form, role: Role, p: FormPatch): (r: Form)
    ensures r.expenses == f.expenses
  {
    var h := MergeHeader(f, p);
    if role == Cashier then
      var t := h.(supplierEntries := if p.supplierEntries.Some? then TrimSuppliers(p.supplierEntries.value) else h.supplierEntries,
                  items := MergeItems(h.items, p.items.GetOr([])));
      MergeHeader(t, p)
    else
      h
  }

  /** The merge of `updateDraft` with the cashier's expense table taken from the body
      (and trimmed by its row setters) like the supplier table, as the cashier's edit rights and the page's expense rows
      call for. The rest of the model uses this merge. */
  function MergeUpdate(f: Form, role: Role, p: FormPatch): (r: Form)
    ensures r.key == f.key && r.status == f.status
    ensures r.recordedBy == f.recordedBy && r.approvedBy == f.approvedBy
    ensures r.kplcMeterOpening == Assign(p.kplcMeterOpening, f.kplcMeterOpening)
    ensures r.kplcMeterClosing == Assign(p.kplcMeterClosing, f.kplcMeterClosing)
    ensures r.notes == Assign(p.notes, f.notes)
    ensures p.cashSummary.None? ==> r.cashSummary == f.cashSummary
    ensures p.cashSummary.Some? ==> r.cashSummary == SpreadCash(f.cashSummary, p.cashSummary.value)
    ensures role != Cashier ==> r.supplierEntries == f.supplierEntries && r.items == f.items && r.expenses == f.expenses
    ensures role == Cashier ==>
              && r.supplierEntries == (if p.supplierEntries.Some? then TrimSuppliers(p.supplierEntries.value) else f.supplierEntries)
              && r.items == MergeItems(f.items, p.items.GetOr([]))
              && r.expenses == (if p.expenses.Some? then TrimExpenses(p.expenses.value) else f.expenses)
  {
    var h := MergeHeader(f, p);
    MergeHeaderIdempotent(f, p);
    if role == Cashier then
      var t := h.(supplierEntries := if p.supplierEntries.Some? then TrimSuppliers(p.supplierEntries.value) else h.supplierEntries,
                  items := MergeItems(h.items, p.items.GetOr([])),
                  expenses := if p.expenses.Some? then TrimExpenses(p.expenses.value) else h.expenses);
      MergeHeader(t, p)
    else
      h
  }

  /** The handler as written differs from the intended merge in the expense table only,
      and exactly when a cashier sends an expense array that, trimmed, differs from the
      stored one. */
  lemma {:induction false} AsWrittenDropsExpenses(f: Form, role: Role, p: FormPatch)
    ensures MergeUpdateAsWritten(f, role, p) == MergeUpdate(f, role, p).(expenses := f.expenses)
    ensures (MergeUpdateAsWritten(f, role, p) == MergeUpdate(f, role, p))
              <==> (role != Cashier || p.expenses.None? || TrimExpenses(p.expenses.value) == f.expenses)
  {
    MergeHeaderIdempotent(f, p);
    var w := MergeUpdateAsWritten(f, role, p);
    var m := MergeUpdate(f, role, p);
    if role == Cashier && p.expenses.Some? && TrimExpenses(p.expenses.value) != f.expenses {
      assert w.expenses != m.expenses;
    }
  }

  /** The merge of `submitForm`: the cash summary and notes of the body. */
  function MergeSubmit(f: Form, p: SubmitPatch): (r: Form)
    ensures r.(cashSummary := f.cashSummary, notes := f.notes) == f
    ensures p.cashSummary.None? ==> r.cashSummary == f.cashSummary
    ensures p.cashSummary.Some? ==> r.cashSummary == SpreadCash(f.cashSummary, p.cashSummary.value)
    ensures r.notes == Assign(p.notes, f.notes)
  {
    f.(cashSummary := if p.cashSummary.Some? then SpreadCash(f.cashSummary, p.cashSummary.value) else f.cashSummary,
       notes := Assign(p.notes, f.notes))
  }
}

=== FILE: products.dfy ===
/** The product catalogue of `productController.js`: creating, patching, deactivating
    and listing the products a business sells. Daily forms take their item rows from it. */
module Products {
  import opened Values
  import opened Text
  import opened Seqs

  /** A product; `id` stands for the document id and also orders products by creation. */
  datatype Product = Product(
    id: nat,
    business: string,
    itemCode: string,
    name: string,
    unit: string,
    category: string,
    sellingPrice: int,
    costPrice: int,
    reorderLevel: int,
    isActive: bool,
    createdBy: Option<string>,
    updatedBy: Option<string>)

  /** The products of every business in creation order: the product at position `i`
      has id `i`, so a later product has a later `createdAt`. */
  type Catalog = seq<Product>

  predicate WellIndexed(cat: Catalog) {
    forall i :: 0 <= i < |cat| ==> cat[i].id == i
  }

  /** The unique index on (businessId, itemCode). */
  predicate UniqueCodes(cat: Catalog) {
    forall i, j :: 0 <= i < j < |cat| && cat[i].business == cat[j].business ==> cat[i].itemCode != cat[j].itemCode
  }

  /** A text as the `trim` setter leaves it and as `required` accepts it: not empty and
      without white space at either end. */
  predicate Present(t: string) {
    |t| > 0 && !IsSpace(t[0]) && !IsSpace(t[|t| - 1])
  }

  /** What the schema accepts of a saved product: a code and a name (`required`, after
      the `trim` setters) and prices and a reorder level that are not negative
      (`min: 0`). */
  predicate Storable(p: Product) {
    Present(p.itemCode) && Present(p.name) && p.sellingPrice >= 0 && p.costPrice >= 0 && p.reorderLevel >= 0
  }

  predicate Valid(cat: Catalog) {
    WellIndexed(cat) && UniqueCodes(cat) && forall i :: 0 <= i < |cat| ==> Storable(cat[i])
  }

  /** Some product other than the one with id `except` has this code in this business. */
  predicate CodeTaken(cat: Catalog, business: string, code: string, except: int) {
    exists i :: 0 <= i < |cat| && i != except && cat[i].business == business && cat[i].itemCode == code
  }

  const Duplicate: Failure := BadRequest("Item code already exists in this business")

  /** The product a request may act on: one of the caller's business. */
  predicate Owned(cat: Catalog, caller: Caller, id: nat) {
    id < |cat| && caller.business == Some(cat[id].business)
  }

  /** The body of `POST /api/products`; a missing or `null` key is `None`. */
  datatype NewProduct = NewProduct(
    itemCode: Option<string>,
    name: Option<string>,
    unit: Option<string>,
    category: Option<string>,
    sellingPrice: Num,
    costPrice: Num,
    reorderLevel: Num)

  /** `createProduct` behind `authorize("owner", "manager")`. A code or name of white
      space only passes the handler's own check, trims to "" and fails `required`, and
      a negative number fails `min: 0`: both are answered with the 500 of the failed
      create, before the unique index is consulted. */
  function CreateProduct(cat: Catalog, caller: Caller, body: NewProduct): (r: Result<Catalog>)
    ensures caller.role == Cashier ==> r == Err(NotPermitted)
    ensures caller.role != Cashier && caller.business.None? ==> r == Err(BadRequest("Missing businessId for user"))
    ensures r.Ok? <==>
              && caller.role != Cashier && caller.business.Some?
              && body.itemCode.Some? && body.itemCode.value != "" && body.name.Some? && body.name.value != ""
              && !IsBlank(body.itemCode.value) && !IsBlank(body.name.value)
              && Number0(body.sellingPrice) >= 0 && Number0(body.costPrice) >= 0 && Number0(body.reorderLevel) >= 0
              && !CodeTaken(cat, caller.business.value, Trim(body.itemCode.value), -1)
    ensures r == Err(BadRequest("itemCode and name are required")) <==>
              caller.role != Cashier && caller.business.Some?
              && (body.itemCode.None? || body.itemCode.value == "" || body.name.None? || body.name.value == "")
    ensures r == Err(Refused) <==>
              && caller.role != Cashier && caller.business.Some?
              && body.itemCode.Some? && body.itemCode.value != "" && body.name.Some? && body.name.value != ""
              && (IsBlank(body.itemCode.value) || IsBlank(body.name.value)
                  || Number0(body.sellingPrice) < 0 || Number0(body.costPrice) < 0 || Number0(body.reorderLevel) < 0)
    ensures r.Ok? ==>
              && caller.business.Some?
              && |r.value| == |cat| + 1 && r.value[..|cat|] == cat
              && var p := r.value[|cat|];
                 && p.id == |cat| && Some(p.business) == caller.business
                 && p.itemCode == Trim(body.itemCode.value) && p.name == Trim(body.name.value)
                 && p.unit == (if body.unit.Some? && body.unit.value != "" then Trim(body.unit.value) else "pcs")
                 && p.category == (if body.category.Some? && body.category.value != "" then Trim(body.category.value) else "general")
                 && p.sellingPrice == body.sellingPrice.GetOr(0)
                 && p.costPrice == body.costPrice.GetOr(0)
                 && p.reorderLevel == body.reorderLevel.GetOr(0)
                 && p.isActive && p.createdBy == p.updatedBy == Some(caller.userId)
                 && !CodeTaken(cat, p.business, p.itemCode, -1)
    ensures r == Err(Duplicate) ==> caller.business.Some? && CodeTaken(cat, caller.business.value, Trim(body.itemCode.value), -1)
    ensures Valid(cat) && r.Ok? ==> Valid(r.value)
  {
    if caller.role == Cashier then Err(NotPermitted)
    else if caller.business.None? then Err(BadRequest("Missing businessId for user"))
    else if body.itemCode.None? || body.itemCode.value == "" || body.name.None? || body.name.value == "" then
      Err(BadRequest("itemCode and name are required"))
    else
      var p := Product(|cat|, caller.business.value, Trim(body.itemCode.value), Trim(body.name.value),
                       if body.unit.Some? && body.unit.value != "" then Trim(body.unit.value) else "pcs",
                       if body.category.Some? && body.category.value != "" then Trim(body.category.value) else "general",
                       Number0(body.sellingPrice), Number0(body.costPrice), Number0(body.reorderLevel),
                       true, Some(caller.userId), Some(caller.userId));
      TrimPresent(body.itemCode.value);
      TrimPresent(body.name.value);
      if !Storable(p) then Err(Refused)
      else if CodeTaken(cat, p.business, p.itemCode, -1) then Err(Duplicate)
      else
        AppendKeepsValid(cat, p);
        Ok(cat + [p])
  }

  /** A trimmed text is present exactly when the text was not blank. */
  lemma TrimPresent(t: string)
    ensures Present(Trim(t)) <==> !IsBlank(t)
  {
  }

  /** A storable product with the next id and a code new to its business keeps the
      catalogue valid. */
  lemma AppendKeepsValid(cat: Catalog, p: Product)
    requires p.id == |cat| && Storable(p) && !CodeTaken(cat, p.business, p.itemCode, -1)
    ensures Valid(cat) ==> Valid(cat + [p])
  {
  }

  /** `String(x)` of a JSON scalar, with `String(null) == "null"`. */
  function JsonText(x: Field<Json>): string
    requires !x.Omitted?
  {
    match x
    case Null => "null"
    case Given(JStr(s)) => s
    case Given(JNum(n)) => IntToString(n)
    case Given(JBool(b)) => if b then "true" else "false"
  }

  /** `Boolean(x)` of a JSON scalar. */
  function JsonBool(x: Field<Json>): bool
    requires !x.Omitted?
  {
    x.Given? && Truthy(x.value)
  }

  /** `Number(x || 0)` of a present numeric key: `null` reads as 0. */
  function PresentNumber(x: Field<int>): int
    requires !x.Omitted?
  {
    if x.Given? then x.value else 0
  }

  /** The body of `PUT /api/products/:id`: only keys that are present are applied. */
  datatype ProductPatch = ProductPatch(
    itemCode: Field<Json>,
    name: Field<Json>,
    unit: Field<Json>,
    category: Field<Json>,
    sellingPrice: Field<int>,
    costPrice: Field<int>,
    reorderLevel: Field<int>,
    isActive: Field<Json>)

  /** `if (up.k !== undefined) p.k = String(up.k).trim()` */
  function PatchText(f: Field<Json>, current: string): (r: string)
    ensures f.Omitted? ==> r == current
    ensures f.Given? && f.value.JStr? ==> r == Trim(f.value.s)
    ensures !f.Omitted? ==> r == [] || (!IsSpace(r[0]) && !IsSpace(r[|r| - 1]))
  {
    if f.Omitted? then current else Trim(JsonText(f))
  }

  /** `if (up.k !== undefined) p.k = Number(up.k || 0)` */
  function PatchNumber(f: Field<int>, current: int): (r: int)
    ensures f.Omitted? ==> r == current
    ensures f.Null? ==> r == 0
    ensures f.Given? ==> r == f.value
  {
    if f.Omitted? then current else PresentNumber(f)
  }

  /** `if (up.k !== undefined) p.k = Boolean(up.k)` */
  function PatchFlag(f: Field<Json>, current: bool): (r: bool)
    ensures f.Omitted? ==> r == current
    ensures f.Null? ==> !r
    ensures f.Given? ==> r == Truthy(f.value)
  {
    if f.Omitted? then current else JsonBool(f)
  }

  /** The product after the present keys of `up` are applied by `updatedBy`. */
  function ApplyPatch(p: Product, up: ProductPatch, updatedBy: string): (q: Product)
    ensures q.id == p.id && q.business == p.business && q.createdBy == p.createdBy
    ensures q.updatedBy == Some(updatedBy)
    ensures q.itemCode == PatchText(up.itemCode, p.itemCode) && q.name == PatchText(up.name, p.name)
    ensures q.unit == PatchText(up.unit, p.unit) && q.category == PatchText(up.category, p.category)
    ensures q.sellingPrice == PatchNumber(up.sellingPrice, p.sellingPrice)
    ensures q.costPrice == PatchNumber(up.costPrice, p.costPrice)
    ensures q.reorderLevel == PatchNumber(up.reorderLevel, p.reorderLevel)
    ensures q.isActive == PatchFlag(up.isActive, p.isActive)
  {
    Product(p.id, p.business,
            PatchText(up.itemCode, p.itemCode), PatchText(up.name, p.name),
            PatchText(up.unit, p.unit), PatchText(up.category, p.category),
            PatchNumber(up.sellingPrice, p.sellingPrice), PatchNumber(up.costPrice, p.costPrice),
            PatchNumber(up.reorderLevel, p.reorderLevel), PatchFlag(up.isActive, p.isActive),
            p.createdBy, Some(updatedBy))
  }

  const EmptyPatch := ProductPatch(Omitted, Omitted, Omitted, Omitted, Omitted, Omitted, Omitted, Omitted)

  /** A patch with no keys changes nothing but `updatedBy`. */
  lemma EmptyPatchKeepsProduct(p: Product, user: string)
    ensures ApplyPatch(p, EmptyPatch, user) == p.(updatedBy := Some(user))
  {
  }

  /** `updateProduct` behind `authorize("owner", "manager")`. A code or name sent as
      white space only (or as "") and a negative number make `save` fail validation, and
      the handler answers with a 500. */
  function UpdateProduct(cat: Catalog, caller: Caller, id: nat, up: ProductPatch): (r: Result<Catalog>)
    ensures caller.role == Cashier ==> r == Err(NotPermitted)
    ensures caller.role != Cashier && !Owned(cat, caller, id) ==> r == Err(NotFound("Product not found"))
    ensures caller.role != Cashier && Owned(cat, caller, id) ==>
              (r == Err(Refused) <==> !Storable(ApplyPatch(cat[id], up, caller.userId)))
    ensures Valid(cat) && caller.role != Cashier && Owned(cat, caller, id) ==>
              (r == Err(Refused) <==>
                 || (!up.itemCode.Omitted? && IsBlank(JsonText(up.itemCode)))
                 || (!up.name.Omitted? && IsBlank(JsonText(up.name)))
                 || PatchNumber(up.sellingPrice, cat[id].sellingPrice) < 0
                 || PatchNumber(up.costPrice, cat[id].costPrice) < 0
                 || PatchNumber(up.reorderLevel, cat[id].reorderLevel) < 0)
    ensures r.Ok? ==> Owned(cat, caller, id) && r.value == cat[id := ApplyPatch(cat[id], up, caller.userId)]
    ensures r.Ok? <==> caller.role != Cashier && Owned(cat, caller, id)
                       && Storable(ApplyPatch(cat[id], up, caller.userId))
                       && !CodeTaken(cat, cat[id].business, ApplyPatch(cat[id], up, caller.userId).itemCode, id)
    ensures Valid(cat) && r.Ok? ==> Valid(r.value)
  {
    if caller.role == Cashier then Err(NotPermitted)
    else if !Owned(cat, caller, id) then Err(NotFound("Product not found"))
    else
      var p := ApplyPatch(cat[id], up, caller.userId);
      assert Valid(cat) ==>
               (Storable(p) <==>
                  && (up.itemCode.Omitted? || !IsBlank(JsonText(up.itemCode)))
                  && (up.name.Omitted? || !IsBlank(JsonText(up.name)))
                  && PatchNumber(up.sellingPrice, cat[id].sellingPrice) >= 0
                  && PatchNumber(up.costPrice, cat[id].costPrice) >= 0
                  && PatchNumber(up.reorderLevel, cat[id].reorderLevel) >= 0) by {
        if Valid(cat) {
          PatchStorable(cat[id], up, caller.userId);
        }
      }
      if !Storable(p) then Err(Refused)
      else if CodeTaken(cat, p.business, p.itemCode, id) then Err(Duplicate)
      else
        assert Valid(cat) ==> Valid(cat[id := p]) by {
          if Valid(cat) {
            ReplaceKeepsValid(cat, id, p);
          }
        }
        Ok(cat[id := p])
  }

  /** A patch of a storable product is storable exactly when no text it sends is blank
      and no number it leaves is negative. */
  lemma PatchStorable(p: Product, up: ProductPatch, user: string)
    requires Storable(p)
    ensures Storable(ApplyPatch(p, up, user)) <==>
              && (up.itemCode.Omitted? || !IsBlank(JsonText(up.itemCode)))
              && (up.name.Omitted? || !IsBlank(JsonText(up.name)))
              && PatchNumber(up.sellingPrice, p.sellingPrice) >= 0
              && PatchNumber(up.costPrice, p.costPrice) >= 0
              && PatchNumber(up.reorderLevel, p.reorderLevel) >= 0
  {
    if !up.itemCode.Omitted? {
      TrimPresent(JsonText(up.itemCode));
    }
    if !up.name.Omitted? {
      TrimPresent(JsonText(up.name));
    }
  }

  /** Replacing a product by a storable one with the same id whose code is free keeps
      the catalogue valid. */
  lemma ReplaceKeepsValid(cat: Catalog, id: nat, p: Product)
    requires Valid(cat) && id < |cat| && p.id == cat[id].id
    requires Storable(p) && !CodeTaken(cat, p.business, p.itemCode, id)
    ensures Valid(cat[id := p])
  {
  }

  /** `deactivateProduct` behind `authorize("owner", "manager")`: a soft delete. */
  function DeactivateProduct(cat: Catalog, caller: Caller, id: nat): (r: Result<Catalog>)
    ensures caller.role == Cashier ==> r == Err(NotPermitted)
    ensures r.Ok? <==> caller.role != Cashier && Owned(cat, caller, id)
    ensures r.Ok? ==>
              && |r.value| == |cat|
              && (forall j :: 0 <= j < |cat| && j != id ==> r.value[j] == cat[j])
              && !r.value[id].isActive && r.value[id].updatedBy == Some(caller.userId)
              && r.value[id].(isActive := true, updatedBy := None) == cat[id].(isActive := true, updatedBy := None)
    ensures Valid(cat) && r.Ok? ==> Valid(r.value)
  {
    if caller.role == Cashier then Err(NotPermitted)
    else if !Owned(cat, caller, id) then Err(NotFound("Product not found"))
    else Ok(cat[id := cat[id].(isActive := false, updatedBy := Some(caller.userId))])
  }

  lemma DeactivateIdempotent(cat: Catalog, caller: Caller, id: nat)
    requires DeactivateProduct(cat, caller, id).Ok?
    ensures DeactivateProduct(DeactivateProduct(cat, caller, id).value, caller, id) == DeactivateProduct(cat, caller, id)
  {
    var once := DeactivateProduct(cat, caller, id).value;
    assert once[id := once[id]] == once;
  }

  /** `active === "true"` keeps active products, `"false"` inactive ones, anything else all. */
  predicate ActiveMatches(p: Product, active: string) {
    (active == "true" ==> p.isActive) && (active == "false" ==> !p.isActive)
  }

  /** The `$regex` match with option `i` of a query without pattern characters. */
  ghost predicate MatchesQuery(p: Product, q: string) {
    Includes(Lower(p.itemCode), Lower(q)) || Includes(Lower(p.name), Lower(q))
  }

  /** What `listProducts` selects for the query `q` (default "") and `active` (default "true"). */
  ghost predicate Listed(p: Product, caller: Caller, q: string, active: string) {
    Some(p.business) == caller.business && ActiveMatches(p, active) && (q != "" ==> MatchesQuery(p, q))
  }

  function ListKeep(caller: Caller, q: string, active: string): Product -> bool {
    (p: Product) => Some(p.business) == caller.business && ActiveMatches(p, active)
         && (q != "" ==> Search(Lower(p.itemCode), Lower(q)) || Search(Lower(p.name), Lower(q)))
  }

  /** `listProducts`: the selected products, newest first. */
  function ListProducts(cat: Catalog, caller: Caller, q: Option<string>, active: Option<string>): (r: seq<Product>)
    requires WellIndexed(cat)
    ensures forall i :: 0 <= i < |r| ==> r[i] in cat && Listed(r[i], caller, q.GetOr(""), active.GetOr("true"))
    ensures forall i :: 0 <= i < |cat| && Listed(cat[i], caller, q.GetOr(""), active.GetOr("true")) ==> cat[i] in r
    ensures forall i, j :: 0 <= i < j < |r| ==> r[i].id > r[j].id
  {
    var keep := ListKeep(caller, q.GetOr(""), active.GetOr("true"));
    var kept := Filter(cat, keep);
    OrderedByIdIncreasing(cat);
    FilterOrdered(cat, keep, IdBefore);
    ReverseMembers(kept);
    Reverse(kept)
  }

  function IdBefore(a: Product, b: Product): bool {
    a.id < b.id
  }

  lemma OrderedByIdIncreasing(cat: Catalog)
    requires WellIndexed(cat)
    ensures Ordered(cat, IdBefore)
  {
  }

  /** The products a new daily form is built from: the active products of the business,
      only those in `ids` when `ids` is not empty, newest first. */
  function FormProducts(cat: Catalog, business: string, ids: seq<nat>): (r: seq<Product>)
    requires WellIndexed(cat)
    ensures forall i :: 0 <= i < |r| ==> r[i] in cat && r[i].business == business && r[i].isActive
                                         && (|ids| > 0 ==> r[i].id in ids)
    ensures forall i :: (0 <= i < |cat| && cat[i].business == business && cat[i].isActive
                         && (|ids| > 0 ==> cat[i].id in ids)) ==> cat[i] in r
    ensures forall i, j :: 0 <= i < j < |r| ==> r[i].id > r[j].id
  {
    var keep := (p: Product) => p.business == business && p.isActive && (|ids| > 0 ==> p.id in ids);
    var kept := Filter(cat, keep);
    OrderedByIdIncreasing(cat);
    FilterOrdered(cat, keep, IdBefore);
    ReverseMembers(kept);
    Reverse(kept)
  }
}

=== FILE: products_page.dfy ===
/** The product page: the query it sends for the list, the checks it runs on the product
    form, and the request body it saves. */
module ProductsPage {
  import opened Values
  import opened Text
  import opened Inputs
  import opened Products

  // ---------------------------------------------------------------------------------
  // The list query
  // ---------------------------------------------------------------------------------

  /** The status select: "Active only", "Inactive only" or "All". */
  datatype StatusFilter = ActiveOnly | InactiveOnly | AllProducts

  /** The parameters of a query string, in order. */
  type Query = seq<(string, string)>

  /** `params.get(key)`: the first value given for `key`. */
  function Param(query: Query, key: string): (r: Option<string>)
    ensures r.None? <==> forall i :: 0 <= i < |query| ==> query[i].0 != key
  {
    if |query| == 0 then None
    else if query[0].0 == key then Some(query[0].1)
    else Param(query[1..], key)
  }

  /** The search parameter: the trimmed search text, left out when it is blank. */
  function SearchParam(q: string): Query {
    if Trim(q) != [] then [("q", Trim(q))] else []
  }

  /** `buildQuery` as written: "All" sends no `active` parameter. */
  function BuildQuery(q: string, filter: StatusFilter): (r: Query)
    ensures Param(r, "q") == (if IsBlank(q) then None else Some(Trim(q)))
    ensures filter == ActiveOnly ==> Param(r, "active") == Some("true")
    ensures filter == InactiveOnly ==> Param(r, "active") == Some("false")
    ensures filter == AllProducts ==> Param(r, "active").None?
  {
    match filter
    case ActiveOnly => SearchParam(q) + [("active", "true")]
    case InactiveOnly => SearchParam(q) + [("active", "false")]
    case AllProducts => SearchParam(q)
  }

  /** The query with "All" sending a value of `active` the list handler reads as "every
      status". The rest of the model uses this query. */
  function ListQuery(q: string, filter: StatusFilter): (r: Query)
    ensures Param(r, "q") == (if IsBlank(q) then None else Some(Trim(q)))
    ensures filter != AllProducts ==> Param(r, "active") == Param(BuildQuery(q, filter), "active")
    ensures filter == AllProducts ==> Param(r, "active") == Some("all")
  {
    match filter
    case ActiveOnly => SearchParam(q) + [("active", "true")]
    case InactiveOnly => SearchParam(q) + [("active", "false")]
    case AllProducts => SearchParam(q) + [("active", "all")]
  }

  /** The products `GET /api/products?<query>` answers with. */
  function Fetched(cat: Catalog, caller: Caller, query: Query): seq<Product>
    requires WellIndexed(cat)
  {
    ListProducts(cat, caller, Param(query, "q"), Param(query, "active"))
  }

  /** What each choice of the select is meant to show. */
  predicate Shows(filter: StatusFilter, p: Product) {
    match filter
    case ActiveOnly => p.isActive
    case InactiveOnly => !p.isActive
    case AllProducts => true
  }

  /** With the intended query, a product of the caller's business is fetched exactly
      when the chosen status fits it (with a blank search). */
  lemma {:induction false} ListQueryShowsChoice(cat: Catalog, caller: Caller, filter: StatusFilter, i: nat)
    requires WellIndexed(cat) && i < |cat|
    requires caller.business == Some(cat[i].business)
    ensures cat[i] in Fetched(cat, caller, ListQuery("", filter)) <==> Shows(filter, cat[i])
  {
    var query := ListQuery("", filter);
    assert IsBlank("");
    var r := Fetched(cat, caller, query);
    if cat[i] in r {
      var k :| 0 <= k < |r| && r[k] == cat[i];
      assert Listed(r[k], caller, "", Param(query, "active").GetOr("true"));
    } else {
      assert !Listed(cat[i], caller, "", Param(query, "active").GetOr("true"));
    }
  }

  /** As written, "All" fetches only active products: the list handler's default for a
      missing `active` is "true". */
  lemma {:induction false} AllFetchesOnlyActive(cat: Catalog, caller: Caller, q: string)
    requires WellIndexed(cat)
    ensures forall p :: p in Fetched(cat, caller, BuildQuery(q, AllProducts)) ==> p.isActive
  {
    var r := Fetched(cat, caller, BuildQuery(q, AllProducts));
    forall p | p in r ensures p.isActive {
      var k :| 0 <= k < |r| && r[k] == p;
      assert Listed(r[k], caller, Param(BuildQuery(q, AllProducts), "q").GetOr(""), "true");
    }
  }

  /** One inactive product: "All" as written does not show it, the intended query does. */
  lemma AllCounterexample()
    ensures var p := Product(0, "b", "MLK", "Milk", "pcs", "general", 60, 50, 0, false, None, None);
            var caller := Caller("u", Some("b"), Owner);
            && Fetched([p], caller, BuildQuery("", AllProducts)) == []
            && Fetched([p], caller, ListQuery("", AllProducts)) == [p]
  {
    var p := Product(0, "b", "MLK", "Milk", "pcs", "general", 60, 50, 0, false, None, None);
    var caller := Caller("u", Some("b"), Owner);
    AllFetchesOnlyActive([p], caller, "");
    ListQueryShowsChoice([p], caller, AllProducts, 0);
  }

  // ---------------------------------------------------------------------------------
  // The product form
  // ---------------------------------------------------------------------------------

  /** The inputs of the product form: texts as typed, and the status checkbox. */
  datatype ProductForm = ProductForm(
    itemCode: string,
    name: string,
    unit: string,
    category: string,
    sellingPrice: string,
    costPrice: string,
    reorderLevel: string,
    isActive: bool)

  /** `resetForm` */
  const BlankForm := ProductForm("", "", "pcs", "general", "", "", "", true)

  /** The checks of `validateForm`, in the order it runs them. */
  datatype FormCheck = CodePresent | NamePresent | SellingPriceSigned | CostPriceSigned | ReorderLevelSigned

  function Rank(c: FormCheck): nat {
    match c
    case CodePresent => 0
    case NamePresent => 1
    case SellingPriceSigned => 2
    case CostPriceSigned => 3
    case ReorderLevelSigned => 4
  }

  function Message(c: FormCheck): string {
    match c
    case CodePresent => "Item Code is required."
    case NamePresent => "Product name is required."
    case SellingPriceSigned => "Selling price cannot be negative."
    case CostPriceSigned => "Cost price cannot be negative."
    case ReorderLevelSigned => "Reorder level cannot be negative."
  }

  /** The form passes check `c`. */
  predicate Passes(form: ProductForm, c: FormCheck) {
    match c
    case CodePresent => !IsBlank(form.itemCode)
    case NamePresent => !IsBlank(form.name)
    case SellingPriceSigned => NormalizeNum(Chars(form.sellingPrice)) >= 0
    case CostPriceSigned => NormalizeNum(Chars(form.costPrice)) >= 0
    case ReorderLevelSigned => NormalizeNum(Chars(form.reorderLevel)) >= 0
  }

  /** `validateForm`: the first check the form fails, or `None`. */
  function ValidateForm(form: ProductForm): (r: Option<FormCheck>)
    ensures r.None? <==> forall c :: Passes(form, c)
    ensures r.Some? ==> !Passes(form, r.value) && forall c :: Rank(c) < Rank(r.value) ==> Passes(form, c)
  {
    if !Passes(form, CodePresent) then Some(CodePresent)
    else if !Passes(form, NamePresent) then Some(NamePresent)
    else if !Passes(form, SellingPriceSigned) then Some(SellingPriceSigned)
    else if !Passes(form, CostPriceSigned) then Some(CostPriceSigned)
    else if !Passes(form, ReorderLevelSigned) then Some(ReorderLevelSigned)
    else None
  }

  /** A price that is not a number is read as 0, so it passes its check. */
  lemma UnreadablePricePasses(form: ProductForm)
    requires ParseNumber(form.sellingPrice).None?
    ensures Passes(form, SellingPriceSigned)
    ensures ValidateForm(form) == ValidateForm(form.(sellingPrice := "0"))
  {
    assert ParseNumber("0") == Some(0) by {
      assert Trim("0") == "0" by { TrimUnpadded("0"); }
      assert DigitsValue("0") == 0 by { assert "0"[..0] == []; }
    }
  }

  /** The body `saveProduct` sends. */
  datatype Payload = Payload(
    itemCode: string,
    name: string,
    unit: string,
    category: string,
    sellingPrice: int,
    costPrice: int,
    reorderLevel: int,
    isActive: bool)

  /** The payload of `saveProduct`: texts trimmed, unit and category defaulted, numbers
      normalised. */
  function SavePayload(form: ProductForm): Payload
  {
    Payload(Trim(form.itemCode), Trim(form.name), Trim(OrText(Some(form.unit), "pcs")),
            Trim(OrText(Some(form.category), "general")),
            NormalizeNum(Chars(form.sellingPrice)), NormalizeNum(Chars(form.costPrice)),
            NormalizeNum(Chars(form.reorderLevel)), form.isActive)
  }

  /** The payload as the body of `POST /api/products`. */
  function CreateBody(p: Payload): NewProduct {
    NewProduct(Some(p.itemCode), Some(p.name), Some(p.unit), Some(p.category),
               Some(p.sellingPrice), Some(p.costPrice), Some(p.reorderLevel))
  }

  /** The payload as the body of `PUT /api/products/:id`. */
  function EditBody(p: Payload): ProductPatch {
    ProductPatch(Given(JStr(p.itemCode)), Given(JStr(p.name)), Given(JStr(p.unit)), Given(JStr(p.category)),
                 Given(p.sellingPrice), Given(p.costPrice), Given(p.reorderLevel), Given(JBool(p.isActive)))
  }

  datatype Mode = Create | Edit(id: nat)

  /** What pressing save does: refuse with a message, or send a request. */
  datatype SaveStep = Refuse(message: string) | Post(body: NewProduct) | Put(id: nat, patch: ProductPatch)

  /** `isManagerOrOwner` of the stored role text. */
  predicate ManagerOrOwner(role: string) {
    Lower(role) == "owner" || Lower(role) == "manager"
  }

  /** `saveProduct` */
  function SaveProduct(role: string, mode: Mode, form: ProductForm): (r: SaveStep)
    ensures !ManagerOrOwner(role) ==> r == Refuse("Only owner/manager can add or edit products.")
    ensures ManagerOrOwner(role) && ValidateForm(form).Some? ==> r == Refuse(Message(ValidateForm(form).value))
    ensures r.Post? <==> ManagerOrOwner(role) && ValidateForm(form).None? && mode.Create?
    ensures r.Put? <==> ManagerOrOwner(role) && ValidateForm(form).None? && mode.Edit?
  {
    if !ManagerOrOwner(role) then Refuse("Only owner/manager can add or edit products.")
    else if ValidateForm(form).Some? then Refuse(Message(ValidateForm(form).value))
    else match mode
      case Create => Post(CreateBody(SavePayload(form)))
      case Edit(id) => Put(id, EditBody(SavePayload(form)))
  }

  /** A form the page lets through is accepted by `createProduct` unless its code is
      taken, and the product stored carries the code and name as trimmed and prices
      that are not negative. */
  lemma {:induction false} SavedFormCreates(cat: Catalog, caller: Caller, form: ProductForm)
    requires caller.role != Cashier && caller.business.Some?
    requires ValidateForm(form).None?
    requires !CodeTaken(cat, caller.business.value, Trim(form.itemCode), -1)
    ensures var r := CreateProduct(cat, caller, CreateBody(SavePayload(form)));
            && r.Ok?
            && r.value[|cat|].itemCode == Trim(form.itemCode) && r.value[|cat|].name == Trim(form.name)
            && r.value[|cat|].sellingPrice >= 0 && r.value[|cat|].costPrice >= 0 && r.value[|cat|].reorderLevel >= 0
  {
    assert Passes(form, CodePresent) && Passes(form, NamePresent);
    assert Passes(form, SellingPriceSigned) && Passes(form, CostPriceSigned) && Passes(form, ReorderLevelSigned);
    TrimIdempotent(form.itemCode);
    TrimIdempotent(form.name);
  }

  /** An edit the update handler accepts stores the form's values as the page shows them. */
  lemma {:induction false} SavedFormEdits(cat: Catalog, caller: Caller, id: nat, form: ProductForm)
    requires UpdateProduct(cat, caller, id, EditBody(SavePayload(form))).Ok?
    ensures var q := UpdateProduct(cat, caller, id, EditBody(SavePayload(form))).value[id];
            && q.itemCode == Trim(form.itemCode) && q.name == Trim(form.name)
            && q.sellingPrice == NormalizeNum(Chars(form.sellingPrice))
            && q.costPrice == NormalizeNum(Chars(form.costPrice))
            && q.reorderLevel == NormalizeNum(Chars(form.reorderLevel))
            && q.isActive == form.isActive
  {
    TrimIdempotent(form.itemCode);
    TrimIdempotent(form.name);
  }
}

=== FILE: reports.dfy ===
/** The owner and manager reports over submitted daily forms: which forms a report
    reads, and the totals it adds up from them. */
module Reports {
  import opened Values
  import opened DailyForm
  import opened Derive
  import opened Calendar
  import opened Seqs

  /** The value of the `shift` query parameter; a missing one reads as "All". */
  function ShiftParam(shift: Option<string>): string {
    shift.GetOr("All")
  }

  function ShiftName(s: Shift): string {
    match s
    case Morning => "Morning"
    case Evening => "Evening"
  }

  /** The `$match` stage every report uses: the caller's business, a stored day whose
      midnight lies in the range, submitted status, and the shift unless it is "All". */
  predicate InReport(f: Form, caller: Caller, range: Range, shift: string) {
    && caller.business == Some(f.key.business)
    && range.Contains(StartOfDay(f.key.date))
    && f.status == Submitted
    && (shift == "All" || ShiftName(f.key.shift) == shift)
  }

  /** The stored forms a report reads, in store order. */
  function Selected(forms: seq<Form>, caller: Caller, range: Range, shift: string): (r: seq<Form>)
    ensures IsSubsequence(r, forms)
    ensures forall i :: 0 <= i < |r| ==> InReport(r[i], caller, range, shift)
    ensures forall i :: 0 <= i < |forms| && InReport(forms[i], caller, range, shift) ==> forms[i] in r
  {
    FilterIsSubsequence(forms, (f: Form) => InReport(f, caller, range, shift));
    Filter(forms, (f: Form) => InReport(f, caller, range, shift))
  }

  /** `$sum` of a per-form figure over a sequence of forms (0 for none, like the
      fallback object of every report). */
  function Total(forms: seq<Form>, g: Form -> int): int {
    if |forms| == 0 then 0 else g(forms[0]) + Total(forms[1..], g)
  }

  lemma {:induction false} TotalAppend(a: seq<Form>, b: seq<Form>, g: Form -> int)
    ensures Total(a + b, g) == Total(a, g) + Total(b, g)
    decreases |a|
  {
    if |a| == 0 {
      assert a + b == b;
    } else {
      TotalAppend(a[1..], b, g);
      assert (a + b)[0] == a[0] && (a + b)[1..] == a[1..] + b;
    }
  }

  /** Two figures that agree on every form have the same total. */
  lemma {:induction false} TotalAgrees(forms: seq<Form>, g: Form -> int, h: Form -> int)
    requires forall i :: 0 <= i < |forms| ==> g(forms[i]) == h(forms[i])
    ensures Total(forms, g) == Total(forms, h)
    decreases |forms|
  {
    if |forms| > 0 {
      TotalAgrees(forms[1..], g, h);
    }
  }

  /** `$sum: '$items.qtySold'` of one form. */
  function SumSold(items: seq<ItemRow>): int {
    if |items| == 0 then 0 else Number0(items[0].qtySold) + SumSold(items[1..])
  }

  function ItemSales(c: SalesColumn): Form -> int {
    (f: Form) => SumSales(f.items, c)
  }

  function ItemsSold(): Form -> int {
    (f: Form) => SumSold(f.items)
  }

  function ExpenseAmounts(): Form -> int {
    (f: Form) => SumExpenses(f.expenses)
  }

  /** The numbers of a stored cash summary that the monthly summary adds up. */
  datatype CashFigure = CashIn | BankIn | Debt | Expenses | Expected | Difference

  function CashValue(cs: CashSummary, fig: CashFigure): Num {
    match fig
    case CashIn => cs.totalCashIn
    case BankIn => cs.totalBankIn
    case Debt => cs.totalDebt
    case Expenses => cs.totalExpenses
    case Expected => cs.expectedCashAtHand
    case Difference => cs.cashDifference
  }

  /** One cash summary number of a form, a missing one adding nothing. */
  function CashField(fig: CashFigure): Form -> int {
    (f: Form) => Number0(CashValue(f.cashSummary, fig))
  }

  datatype SalesTotals = SalesTotals(cash: int, bank: int, debt: int, totalSoldQty: int, totalSales: int)

  datatype WeekSales = WeekSales(range: Range, shift: string, totals: SalesTotals)

  datatype WeekExpenses = WeekExpenses(range: Range, shift: string, totalExpenses: int)

  datatype StockRange = StockRange(range: Range, shift: string, forms: seq<Form>)

  datatype MonthTotals = MonthTotals(
    daysSubmitted: int,
    totalCashDifference: int,
    totalExpenses: int,
    totalCashIn: int,
    totalBankIn: int,
    totalDebt: int,
    totalSales: int,
    netCashPosition: int)

  datatype MonthSummary = MonthSummary(range: Range, shift: string, totals: MonthTotals)

  /** The `month` query parameter after `split('-').map(Number)`. */
  datatype MonthParam = MonthParam(year: int, month: int)

  /** The `authorize('owner', 'manager')` of every report route. */
  predicate MayReadReports(caller: Caller) {
    caller.role != Cashier
  }

  const DateRequired: Failure := BadRequest("date is required")
  const RangeRequired: Failure := BadRequest("startDate and endDate are required")
  const MonthRequired: Failure := BadRequest("month is required (YYYY-MM)")

  /** The item totals of the weekly sales report over the forms it selected. */
  function SalesOf(sel: seq<Form>): (t: SalesTotals)
    ensures t.cash == Total(sel, ItemSales(CashColumn))
    ensures t.bank == Total(sel, ItemSales(BankColumn))
    ensures t.debt == Total(sel, ItemSales(DebtColumn))
    ensures t.totalSoldQty == Total(sel, ItemsSold())
    ensures t.totalSales == t.cash + t.bank + t.debt
  {
    var cash := Total(sel, ItemSales(CashColumn));
    var bank := Total(sel, ItemSales(BankColumn));
    var debt := Total(sel, ItemSales(DebtColumn));
    SalesTotals(cash, bank, debt, Total(sel, ItemsSold()), cash + bank + debt)
  }

  /** `GET /api/reports/weekly-sales` */
  function WeeklySales(forms: seq<Form>, caller: Caller, date: Option<Day>, shift: Option<string>): (r: Result<WeekSales>)
    ensures !MayReadReports(caller) ==> r == Err(NotPermitted)
    ensures MayReadReports(caller) && date.None? ==> r == Err(DateRequired)
    ensures r.Ok? <==> MayReadReports(caller) && date.Some?
    ensures r.Ok? ==>
              && r.value.range == WeekRange(date.value)
              && r.value.shift == ShiftParam(shift)
              && r.value.totals == SalesOf(Selected(forms, caller, WeekRange(date.value), ShiftParam(shift)))
  {
    if !MayReadReports(caller) then Err(NotPermitted)
    else if date.None? then Err(DateRequired)
    else
      var range := WeekRange(date.value);
      Ok(WeekSales(range, ShiftParam(shift), SalesOf(Selected(forms, caller, range, ShiftParam(shift)))))
  }

  /** `GET /api/reports/weekly-expenses` */
  function WeeklyExpenses(forms: seq<Form>, caller: Caller, date: Option<Day>, shift: Option<string>): (r: Result<WeekExpenses>)
    ensures !MayReadReports(caller) ==> r == Err(NotPermitted)
    ensures MayReadReports(caller) && date.None? ==> r == Err(DateRequired)
    ensures r.Ok? <==> MayReadReports(caller) && date.Some?
    ensures r.Ok? ==>
              && r.value.range == WeekRange(date.value)
              && r.value.totalExpenses == Total(Selected(forms, caller, WeekRange(date.value), ShiftParam(shift)), ExpenseAmounts())
  {
    if !MayReadReports(caller) then Err(NotPermitted)
    else if date.None? then Err(DateRequired)
    else
      var range := WeekRange(date.value);
      Ok(WeekExpenses(range, ShiftParam(shift), Total(Selected(forms, caller, range, ShiftParam(shift)), ExpenseAmounts())))
  }

  /** `GET /api/reports/stock-balance`: the forms of the days from `startDate` to
      `endDate`, both whole days included. */
  function StockBalance(forms: seq<Form>, caller: Caller, startDate: Option<Day>, endDate: Option<Day>, shift: Option<string>)
    : (r: Result<StockRange>)
    ensures !MayReadReports(caller) ==> r == Err(NotPermitted)
    ensures MayReadReports(caller) && (startDate.None? || endDate.None?) ==> r == Err(RangeRequired)
    ensures r.Ok? <==> MayReadReports(caller) && startDate.Some? && endDate.Some?
    ensures r.Ok? ==>
              && r.value.range == Range(StartOfDay(startDate.value), EndOfDay(endDate.value))
              && forall i :: 0 <= i < |r.value.forms| ==>
                   startDate.value <= r.value.forms[i].key.date <= endDate.value
    ensures r.Ok? ==>
              && r.value.shift == ShiftParam(shift)
              && r.value.forms == Selected(forms, caller, r.value.range, ShiftParam(shift))
    // a stored form is reported exactly when it is a submitted form of the caller's
    // business, of a day in the range, and of the chosen shift unless that is "All"
    ensures r.Ok? ==>
              forall i :: 0 <= i < |forms| ==>
                (forms[i] in r.value.forms <==>
                   && caller.business == Some(forms[i].key.business)
                   && startDate.value <= forms[i].key.date <= endDate.value
                   && forms[i].status == Submitted
                   && (ShiftParam(shift) == "All" || ShiftName(forms[i].key.shift) == ShiftParam(shift)))
  {
    if !MayReadReports(caller) then Err(NotPermitted)
    else if startDate.None? || endDate.None? then Err(RangeRequired)
    else
      var range := Range(StartOfDay(startDate.value), EndOfDay(endDate.value));
      var sel := Selected(forms, caller, range, ShiftParam(shift));
      assert forall i :: 0 <= i < |sel| ==> startDate.value <= sel[i].key.date <= endDate.value by {
        forall i | 0 <= i < |sel| ensures startDate.value <= sel[i].key.date <= endDate.value {
          DayInstantInRange(sel[i].key.date, startDate.value, endDate.value);
        }
      }
      forall i | 0 <= i < |forms|
        ensures forms[i] in sel <==> InReport(forms[i], caller, range, ShiftParam(shift))
        ensures range.Contains(StartOfDay(forms[i].key.date)) <==> startDate.value <= forms[i].key.date <= endDate.value
      {
        DayInstantInRange(forms[i].key.date, startDate.value, endDate.value);
      }
      Ok(StockRange(range, ShiftParam(shift), sel))
  }

  /** The stored day's midnight lies between the midnight of `first` and the last
      instant of `last` exactly when the day lies between them. */
  lemma {:induction false} DayInstantInRange(d: Day, first: Day, last: Day)
    ensures Range(StartOfDay(first), EndOfDay(last)).Contains(StartOfDay(d)) <==> first <= d <= last
  {
    if StartOfDay(first) <= StartOfDay(d) {
      assert first * MsPerDay <= d * MsPerDay;
    }
    if StartOfDay(d) <= EndOfDay(last) {
      assert d * MsPerDay < (last + 1) * MsPerDay;
    }
  }

  /** The totals of the monthly summary over the forms it selected. */
  function MonthTotalsOf(sel: seq<Form>): (t: MonthTotals)
    ensures t.daysSubmitted == |sel|
    ensures t.totalCashIn == Total(sel, CashField(CashIn))
    ensures t.totalBankIn == Total(sel, CashField(BankIn))
    ensures t.totalDebt == Total(sel, CashField(Debt))
    ensures t.totalExpenses == Total(sel, CashField(Expenses))
    ensures t.totalCashDifference == Total(sel, CashField(Difference))
    ensures t.totalSales == t.totalCashIn + t.totalBankIn + t.totalDebt
    ensures t.netCashPosition == t.totalCashIn - t.totalExpenses
  {
    var cashIn := Total(sel, CashField(CashIn));
    var bankIn := Total(sel, CashField(BankIn));
    var debt := Total(sel, CashField(Debt));
    var expenses := Total(sel, CashField(Expenses));
    MonthTotals(|sel|, Total(sel, CashField(Difference)), expenses, cashIn, bankIn, debt,
                cashIn + bankIn + debt, cashIn - expenses)
  }

  /** `GET /api/reports/monthly-summary` */
  function MonthlySummary(forms: seq<Form>, caller: Caller, month: Option<MonthParam>, shift: Option<string>)
    : (r: Result<MonthSummary>)
    ensures !MayReadReports(caller) ==> r == Err(NotPermitted)
    ensures MayReadReports(caller) && month.None? ==> r == Err(MonthRequired)
    ensures r.Ok? <==> MayReadReports(caller) && month.Some?
    ensures r.Ok? ==>
              && r.value.range == MonthRange(month.value.year, month.value.month)
              && r.value.totals == MonthTotalsOf(Selected(forms, caller, r.value.range, ShiftParam(shift)))
  {
    if !MayReadReports(caller) then Err(NotPermitted)
    else if month.None? then Err(MonthRequired)
    else
      var range := MonthRange(month.value.year, month.value.month);
      Ok(MonthSummary(range, ShiftParam(shift), MonthTotalsOf(Selected(forms, caller, range, ShiftParam(shift)))))
  }

  /** The weekly report is the same whichever day of the week it is asked for. */
  lemma {:induction false} WeeklySalesSameForWholeWeek(forms: seq<Form>, caller: Caller, d: Day, e: Day, shift: Option<string>)
    requires WeekStart(d) <= e <= WeekStart(d) + 6
    ensures WeeklySales(forms, caller, Some(d), shift) == WeeklySales(forms, caller, Some(e), shift)
    ensures WeeklyExpenses(forms, caller, Some(d), shift) == WeeklyExpenses(forms, caller, Some(e), shift)
  {
    SameWeekSameRange(d, e);
  }

  /** A form belongs to the weekly report exactly when its day is in the Monday-to-Sunday
      week of the requested day. */
  lemma {:induction false} WeeklyReportDays(f: Form, caller: Caller, d: Day, shift: string)
    ensures InReport(f, caller, WeekRange(d), shift) <==>
              && caller.business == Some(f.key.business) && f.status == Submitted
              && (shift == "All" || ShiftName(f.key.shift) == shift)
              && WeekStart(d) <= f.key.date <= WeekStart(d) + 6
  {
    DayInstantInRange(f.key.date, WeekStart(d), WeekStart(d) + 6);
  }

  /** A form belongs to the monthly report exactly when its day is one of the month's,
      in the year `new Date` reads from the parameter (years 0 to 99 as 1900 to 1999). */
  lemma {:induction false} MonthlyReportDays(f: Form, caller: Caller, y: int, m: int, shift: string)
    requires 1 <= m <= 12
    ensures var fy := if 0 <= y <= 99 then 1900 + y else y;
            InReport(f, caller, MonthRange(y, m), shift) <==>
              && caller.business == Some(f.key.business) && f.status == Submitted
              && (shift == "All" || ShiftName(f.key.shift) == shift)
              && CivilDay(fy, m, 1) <= f.key.date <= CivilDay(fy, m, DaysInMonth(fy, m))
  {
    var fy := FullYear(y);
    MonthRangeSpansMonth(y, m);
    DayInstantInRange(f.key.date, CivilDay(fy, m, 1), CivilDay(fy, m, DaysInMonth(fy, m)));
  }

  /** "All" reads the forms of both shifts, a shift name reads that shift only, and any
      other value reads nothing. */
  lemma ShiftFilter(f: Form, caller: Caller, range: Range, shift: string)
    ensures InReport(f, caller, range, "All") <==>
              InReport(f, caller, range, "Morning") || InReport(f, caller, range, "Evening")
    ensures shift != "All" && shift != "Morning" && shift != "Evening" ==> !InReport(f, caller, range, shift)
  {
  }

  /** On forms that keep their derived values, the monthly cash totals (taken from the
      cash summaries) equal the weekly figures (taken from the item rows and expenses):
      the two reports never disagree about the same forms. */
  lemma {:induction false} MonthlyAgreesWithRows(sel: seq<Form>)
    requires forall i :: 0 <= i < |sel| ==> Consistent(sel[i])
    ensures var t := MonthTotalsOf(sel);
            var s := SalesOf(sel);
            && t.totalCashIn == s.cash && t.totalBankIn == s.bank && t.totalDebt == s.debt
            && t.totalSales == s.totalSales
            && t.totalExpenses == Total(sel, ExpenseAmounts())
            && t.netCashPosition == Total(sel, CashField(Expected))
    decreases |sel|
  {
    if |sel| > 0 {
      MonthlyAgreesWithRows(sel[1..]);
      assert ConsistentCash(sel[0].cashSummary, sel[0].items, sel[0].expenses);
    }
  }

  /** Forms saved across two stores add up: a report over the concatenation is the sum of
      the reports over the parts. */
  lemma {:induction false} MonthTotalsAdd(a: seq<Form>, b: seq<Form>)
    ensures var t := MonthTotalsOf(a + b);
            var ta := MonthTotalsOf(a);
            var tb := MonthTotalsOf(b);
            && t.daysSubmitted == ta.daysSubmitted + tb.daysSubmitted
            && t.totalSales == ta.totalSales + tb.totalSales
            && t.netCashPosition == ta.netCashPosition + tb.netCashPosition
  {
    TotalAppend(a, b, CashField(CashIn));
    TotalAppend(a, b, CashField(BankIn));
    TotalAppend(a, b, CashField(Debt));
    TotalAppend(a, b, CashField(Expenses));
  }
}

=== FILE: seqs.dfy ===
/** Sequence helpers shared by the listing and search operations: filtering, reversal
    and order-preserving subsequences. */
module Seqs {

  /** `r` is `s` with some elements left out and the rest in their original order. */
  predicate IsSubsequence<T(==)>(r: seq<T>, s: seq<T>)
    decreases |s|
  {
    if |r| == 0 then true
    else if |s| == 0 then false
    else if r[0] == s[0] then IsSubsequence(r[1..], s[1..])
    else IsSubsequence(r, s[1..])
  }

  /** `s.filter(keep)` */
  function Filter<T>(s: seq<T>, keep: T -> bool): (r: seq<T>)
    ensures |r| <= |s|
    ensures forall i :: 0 <= i < |r| ==> keep(r[i]) && r[i] in s
    ensures forall i :: 0 <= i < |s| && keep(s[i]) ==> s[i] in r
    decreases |s|
  {
    if |s| == 0 then []
    else if keep(s[0]) then [s[0]] + Filter(s[1..], keep)
    else Filter(s[1..], keep)
  }

  lemma {:induction false} FilterIsSubsequence<T>(s: seq<T>, keep: T -> bool)
    ensures IsSubsequence(Filter(s, keep), s)
    decreases |s|
  {
    if |s| > 0 {
      FilterIsSubsequence(s[1..], keep);
      var r := Filter(s, keep);
      if keep(s[0]) {
        assert r[0] == s[0] && r[1..] == Filter(s[1..], keep);
      } else if |r| > 0 {
        assert r[0] != s[0] by { assert keep(r[0]); }
      }
    }
  }

  /** Keeping every element changes nothing. */
  lemma {:induction false} FilterKeepAll<T>(s: seq<T>, keep: T -> bool)
    requires forall i :: 0 <= i < |s| ==> keep(s[i])
    ensures Filter(s, keep) == s
    decreases |s|
  {
    if |s| > 0 {
      assert keep(s[0]);
      FilterKeepAll(s[1..], keep);
      assert [s[0]] + s[1..] == s;
    }
  }

  /** Every element comes before every later one in the order `before`. */
  predicate Ordered<T>(s: seq<T>, before: (T, T) -> bool) {
    forall i, j :: 0 <= i < j < |s| ==> before(s[i], s[j])
  }

  lemma {:induction false} FilterOrdered<T>(s: seq<T>, keep: T -> bool, before: (T, T) -> bool)
    requires Ordered(s, before)
    ensures Ordered(Filter(s, keep), before)
    decreases |s|
  {
    if |s| > 0 {
      FilterOrdered(s[1..], keep, before);
      var r := Filter(s, keep);
      if keep(s[0]) {
        forall j | 0 < j < |r| ensures before(r[0], r[j]) {
          assert r[j] in s[1..];
        }
      }
    }
  }

  function Reverse<T>(s: seq<T>): (r: seq<T>)
    ensures |r| == |s|
    ensures forall i :: 0 <= i < |s| ==> r[i] == s[|s| - 1 - i]
    decreases |s|
  {
    if |s| == 0 then [] else Reverse(s[1..]) + [s[0]]
  }

  lemma ReverseMembers<T>(s: seq<T>)
    ensures forall i :: 0 <= i < |s| ==> s[i] in Reverse(s)
    ensures forall i :: 0 <= i < |s| ==> Reverse(s)[i] in s
  {
    var r := Reverse(s);
    forall i | 0 <= i < |s| ensures s[i] in r {
      assert r[|s| - 1 - i] == s[i];
    }
  }
}

=== FILE: suppliers.dfy ===
/** The suppliers of `supplierController.js`: creating one with a name unique in the
    business, editing it, retiring it with a soft delete, and listing the active ones. */
module Suppliers {
  import opened Values
  import opened Text

  /** A stored supplier; the text paths are trimmed by the schema, the email is also put
      in lower case. */
  datatype Supplier = Supplier(
    business: string,
    name: string,
    contactPerson: Option<string>,
    phone: Option<string>,
    email: Option<string>,
    location: Option<string>,
    deliveryFrequency: string,
    productIds: seq<string>,
    isActive: bool)

  /** The suppliers by document id. */
  type SupplierStore = map<string, Supplier>

  /** The values the schema's `enum` allows for `deliveryFrequency`; any other value
      fails the save. */
  predicate Frequency(f: string) {
    f == "daily" || f == "weekly" || f == "bi-weekly" || f == "monthly"
  }

  /** Names are not empty, delivery frequencies are allowed, and the unique index on
      (businessId, name) holds. */
  predicate Valid(s: SupplierStore) {
    && (forall id :: id in s ==> s[id].name != [] && Frequency(s[id].deliveryFrequency))
    && (forall a, b :: a in s && b in s && a != b && s[a].business == s[b].business ==> s[a].name != s[b].name)
  }

  /** Some supplier of `business` other than `except` carries `name`. */
  predicate NameTaken(s: SupplierStore, business: string, name: string, except: string) {
    exists id :: id in s && id != except && s[id].business == business && s[id].name == name
  }

  /** `findOne({ _id: supplierId, businessId })` */
  predicate Found(s: SupplierStore, caller: Caller, id: string) {
    id in s && caller.business == Some(s[id].business)
  }

  const SupplierExists: Failure := BadRequest("Supplier already exists")
  const SupplierNotFound: Failure := NotFound("Supplier not found")

  /** A text path with `trim: true`. */
  function TrimmedText(x: Option<string>): (r: Option<string>)
    ensures r.Some? <==> x.Some?
  {
    if x.Some? then Some(Trim(x.value)) else None
  }

  /** The email path: trimmed and in lower case. */
  function EmailText(x: Option<string>): (r: Option<string>)
    ensures r.Some? <==> x.Some?
  {
    if x.Some? then Some(Lower(Trim(x.value))) else None
  }

  /** The body of `POST /api/suppliers`; an absent key is `None`. */
  datatype NewSupplier = NewSupplier(
    name: string,
    contactPerson: Option<string>,
    phone: Option<string>,
    email: Option<string>,
    location: Option<string>,
    deliveryFrequency: Option<string>,
    productIds: Option<seq<string>>)

  /** The write step of `createSupplier`, open to every role. `newId` is the id the
      database gives the new document. The name lookup compares the trimmed name, as the
      schema's setter applies to the query too; the save then refuses an empty name and a
      delivery frequency outside the `enum` (an absent one takes the default "daily"). */
  function InsertSupplier(s: SupplierStore, caller: Caller, newId: string, body: NewSupplier): (r: Result<SupplierStore>)
    requires newId !in s
    ensures r == Err(SupplierExists) <==> caller.business.Some? && NameTaken(s, caller.business.value, Trim(body.name), newId)
    ensures r.Ok? <==> caller.business.Some? && !NameTaken(s, caller.business.value, Trim(body.name), newId)
                       && Trim(body.name) != []
                       && (body.deliveryFrequency.None? || Frequency(body.deliveryFrequency.value))
    ensures r.Err? && r != Err(SupplierExists) ==> r == Err(Refused)
    ensures r.Ok? ==>
              && r.value.Keys == s.Keys + {newId}
              && (forall id :: id in s ==> r.value[id] == s[id])
              && var p := r.value[newId];
                 && Some(p.business) == caller.business && p.name == Trim(body.name) && p.isActive
                 && p.productIds == body.productIds.GetOr([])
                 && p.deliveryFrequency == body.deliveryFrequency.GetOr("daily")
                 && p.email == EmailText(body.email)
    ensures Valid(s) && r.Ok? ==> Valid(r.value)
  {
    if caller.business.None? then Err(Refused)
    else if NameTaken(s, caller.business.value, Trim(body.name), newId) then Err(SupplierExists)
    else if Trim(body.name) == [] || !Frequency(body.deliveryFrequency.GetOr("daily")) then Err(Refused)
    else
      var p := Supplier(caller.business.value, Trim(body.name), TrimmedText(body.contactPerson),
                        TrimmedText(body.phone), EmailText(body.email), TrimmedText(body.location),
                        body.deliveryFrequency.GetOr("daily"), body.productIds.GetOr([]), true);
      Ok(s[newId := p])
  }

  /** The body of `PUT /api/suppliers/:supplierId`. A text that is absent, `null` or
      empty is `None`; `productIds` is `None` when absent or `null`, and any array
      (even an empty one) is `Some`. */
  datatype SupplierPatch = SupplierPatch(
    name: Option<string>,
    contactPerson: Option<string>,
    phone: Option<string>,
    email: Option<string>,
    location: Option<string>,
    deliveryFrequency: Option<string>,
    productIds: Option<seq<string>>)

  /** `doc.k = k || doc.k` on a trimmed text path. */
  function OrTrimmed(x: Option<string>, current: Option<string>): (r: Option<string>)
    ensures x.Some? ==> r == Some(Trim(x.value))
    ensures x.None? ==> r == current
  {
    if x.Some? then TrimmedText(x) else current
  }

  /** `doc.email = email || doc.email` */
  function OrEmail(x: Option<string>, current: Option<string>): (r: Option<string>)
    ensures x.Some? ==> r == Some(Lower(Trim(x.value)))
    ensures x.None? ==> r == current
  {
    if x.Some? then EmailText(x) else current
  }

  /** The supplier after the assignments of `updateSupplier`: every text falls back on
      the stored value, the product list is replaced only when one is sent. */
  function Patched(p: Supplier, up: SupplierPatch): (q: Supplier)
    ensures q.business == p.business && q.isActive == p.isActive
    ensures up.name.Some? ==> q.name == Trim(up.name.value)
    ensures up.name.None? ==> q.name == p.name
    ensures q.contactPerson == (if up.contactPerson.Some? then Some(Trim(up.contactPerson.value)) else p.contactPerson)
    ensures q.phone == (if up.phone.Some? then Some(Trim(up.phone.value)) else p.phone)
    ensures q.email == (if up.email.Some? then Some(Lower(Trim(up.email.value))) else p.email)
    ensures q.location == (if up.location.Some? then Some(Trim(up.location.value)) else p.location)
    ensures q.deliveryFrequency == up.deliveryFrequency.GetOr(p.deliveryFrequency)
    ensures q.productIds == up.productIds.GetOr(p.productIds)
  {
    p.(name := if up.name.Some? then Trim(up.name.value) else p.name,
       contactPerson := OrTrimmed(up.contactPerson, p.contactPerson),
       phone := OrTrimmed(up.phone, p.phone),
       email := OrEmail(up.email, p.email),
       location := OrTrimmed(up.location, p.location),
       deliveryFrequency := up.deliveryFrequency.GetOr(p.deliveryFrequency),
       productIds := up.productIds.GetOr(p.productIds))
  }

  const NoChanges := SupplierPatch(None, None, None, None, None, None, None)

  /** A body with nothing truthy in it changes nothing. */
  lemma NoChangesKeeps(p: Supplier)
    ensures Patched(p, NoChanges) == p
  {
  }

  /** Sending the same edit twice stores what sending it once does. */
  lemma {:induction false} PatchedIdempotent(p: Supplier, up: SupplierPatch)
    ensures Patched(Patched(p, up), up) == Patched(p, up)
  {
    if up.name.Some? {
      TrimIdempotent(up.name.value);
    }
    OrTrimmedIdempotent(up.contactPerson, p.contactPerson);
    OrTrimmedIdempotent(up.phone, p.phone);
    OrTrimmedIdempotent(up.location, p.location);
    OrEmailIdempotent(up.email, p.email);
  }

  lemma {:induction false} OrTrimmedIdempotent(x: Option<string>, current: Option<string>)
    ensures OrTrimmed(x, OrTrimmed(x, current)) == OrTrimmed(x, current)
  {
    if x.Some? {
      TrimIdempotent(x.value);
    }
  }

  lemma {:induction false} OrEmailIdempotent(x: Option<string>, current: Option<string>)
    ensures OrEmail(x, OrEmail(x, current)) == OrEmail(x, current)
  {
    if x.Some? {
      var e := x.value;
      var t := Trim(e);
      TrimIdempotent(e);
      LowerTrimmed(t);
      LowerIdempotent(t);
    }
  }

  /** Lower case keeps a trimmed text trimmed: spaces are not letters. */
  lemma {:induction false} LowerTrimmed(t: string)
    requires Trim(t) == t
    ensures Trim(Lower(t)) == Lower(t)
  {
    var l := Lower(t);
    if t != [] {
      assert !IsSpace(t[0]) && !IsSpace(t[|t| - 1]);
      assert l[0] == LowerChar(t[0]) && l[|l| - 1] == LowerChar(t[|t| - 1]);
      TrimUnpadded(l);
    } else {
      assert l == [];
    }
  }

  /** The write step of `updateSupplier`, open to every role; an empty name or a delivery
      frequency outside the `enum` fails the save's validation, and a name another
      supplier of the business already has makes the unique index refuse it. */
  function EditSupplier(s: SupplierStore, caller: Caller, id: string, up: SupplierPatch): (r: Result<SupplierStore>)
    ensures !Found(s, caller, id) ==> r == Err(SupplierNotFound)
    ensures Found(s, caller, id) && r.Err? ==> r == Err(Refused)
    ensures r.Ok? <==> Found(s, caller, id) && Patched(s[id], up).name != []
                       && Frequency(Patched(s[id], up).deliveryFrequency)
                       && !NameTaken(s, s[id].business, Patched(s[id], up).name, id)
    ensures Valid(s) && Found(s, caller, id) ==>
              (Frequency(Patched(s[id], up).deliveryFrequency) <==>
                 up.deliveryFrequency.None? || Frequency(up.deliveryFrequency.value))
    ensures r.Ok? ==> r.value == s[id := Patched(s[id], up)]
    ensures Valid(s) && r.Ok? ==> Valid(r.value)
  {
    if !Found(s, caller, id) then Err(SupplierNotFound)
    else
      var q := Patched(s[id], up);
      if q.name == [] || !Frequency(q.deliveryFrequency) || NameTaken(s, q.business, q.name, id) then Err(Refused)
      else Ok(s[id := q])
  }

  /** The write step of `deleteSupplier`: owners only, and a soft delete that keeps the
      document. */
  function RetireSupplier(s: SupplierStore, caller: Caller, id: string): (r: Result<SupplierStore>)
    ensures caller.role != Owner ==> r == Err(Forbidden("Only owners can delete suppliers"))
    ensures caller.role == Owner && !Found(s, caller, id) ==> r == Err(SupplierNotFound)
    ensures r.Ok? <==> caller.role == Owner && Found(s, caller, id)
    ensures r.Ok? ==>
              && r.value.Keys == s.Keys
              && !r.value[id].isActive && r.value[id].(isActive := true) == s[id].(isActive := true)
              && forall k :: k in s && k != id ==> r.value[k] == s[k]
    ensures Valid(s) && r.Ok? ==> Valid(r.value)
  {
    if caller.role != Owner then Err(Forbidden("Only owners can delete suppliers"))
    else if !Found(s, caller, id) then Err(SupplierNotFound)
    else Ok(s[id := s[id].(isActive := false)])
  }

  /** `createSupplier` with the audit entry's `userId` read from `req.userId`: it
      succeeds exactly when the write step does, and then keeps what the step stored. */
  function CreateSupplier(s: SupplierStore, caller: Caller, newId: string, body: NewSupplier): (r: Reply<SupplierStore>)
    requires newId !in s
    ensures r.answer.None? <==> InsertSupplier(s, caller, newId, body).Ok?
    ensures r.answer.None? ==> r.store == InsertSupplier(s, caller, newId, body).value
    ensures r.answer.Some? ==> r == Reply(s, Some(InsertSupplier(s, caller, newId, body).failure))
    ensures Valid(s) ==> Valid(r.store)
  {
    WriteThenAudit(s, InsertSupplier(s, caller, newId, body), AuditEntry(caller.business, Some(caller.userId)))
  }

  /** `createSupplier` as written: the audit entry reads `req.user.id`, which the token
      does not carry, so a stored supplier is still answered with a 500. */
  function CreateSupplierAsWritten(s: SupplierStore, caller: Caller, newId: string, body: NewSupplier): (r: Reply<SupplierStore>)
    requires newId !in s
    ensures r.store == CreateSupplier(s, caller, newId, body).store
    ensures r.answer.Some?
    ensures InsertSupplier(s, caller, newId, body).Ok? ==> r.answer == Some(Refused)
    ensures InsertSupplier(s, caller, newId, body).Err? ==> r.answer == Some(InsertSupplier(s, caller, newId, body).failure)
  {
    WriteThenAudit(s, InsertSupplier(s, caller, newId, body), AuditEntry(caller.business, TokenId))
  }

  /** As written, a supplier whose creation was answered with a 500 is stored anyway, so
      sending the same request again is answered "Supplier already exists". */
  lemma {:induction false} AsWrittenRetryExists(s: SupplierStore, caller: Caller, newId: string, retryId: string, body: NewSupplier)
    requires newId !in s && retryId !in s && retryId != newId
    requires InsertSupplier(s, caller, newId, body).Ok?
    ensures CreateSupplierAsWritten(s, caller, newId, body).answer == Some(Refused)
    ensures var s1 := CreateSupplierAsWritten(s, caller, newId, body).store;
            CreateSupplierAsWritten(s1, caller, retryId, body) == Reply(s1, Some(SupplierExists))
  {
    var s1 := CreateSupplierAsWritten(s, caller, newId, body).store;
    assert s1[newId].name == Trim(body.name) && s1[newId].business == caller.business.value;
    assert NameTaken(s1, caller.business.value, Trim(body.name), retryId);
  }

  /** `updateSupplier` with the audit entry's `userId` read from `req.userId`: it succeeds
      exactly when the write step does, and then keeps what the step stored. */
  function UpdateSupplier(s: SupplierStore, caller: Caller, id: string, up: SupplierPatch): (r: Reply<SupplierStore>)
    ensures r.answer.None? <==> EditSupplier(s, caller, id, up).Ok?
    ensures r.answer.None? ==> r.store == s[id := Patched(s[id], up)]
    ensures r.answer.Some? ==> r == Reply(s, Some(EditSupplier(s, caller, id, up).failure))
    ensures Valid(s) ==> Valid(r.store)
  {
    WriteThenAudit(s, EditSupplier(s, caller, id, up), AuditEntry(caller.business, Some(caller.userId)))
  }

  /** `updateSupplier` as written: an accepted edit is stored and answered with a 500. */
  function UpdateSupplierAsWritten(s: SupplierStore, caller: Caller, id: string, up: SupplierPatch): (r: Reply<SupplierStore>)
    ensures r.store == UpdateSupplier(s, caller, id, up).store
    ensures r.answer.Some?
    ensures EditSupplier(s, caller, id, up).Ok? ==> r.answer == Some(Refused)
    ensures EditSupplier(s, caller, id, up).Err? ==> r.answer == Some(EditSupplier(s, caller, id, up).failure)
  {
    WriteThenAudit(s, EditSupplier(s, caller, id, up), AuditEntry(caller.business, TokenId))
  }

  /** `deleteSupplier` with the audit entry's `userId` read from `req.userId`: an owner's
      request for a found supplier retires it and succeeds; every other request changes
      nothing. */
  function DeleteSupplier(s: SupplierStore, caller: Caller, id: string): (r: Reply<SupplierStore>)
    ensures r.answer.None? <==> caller.role == Owner && Found(s, caller, id)
    ensures r.answer.None? ==> r.store == s[id := s[id].(isActive := false)]
    ensures r.answer.Some? ==> r.store == s
    ensures Valid(s) ==> Valid(r.store)
  {
    WriteThenAudit(s, RetireSupplier(s, caller, id), AuditEntry(caller.business, Some(caller.userId)))
  }

  /** `deleteSupplier` as written: an owner's delete retires the supplier and is still
      answered with a 500. */
  function DeleteSupplierAsWritten(s: SupplierStore, caller: Caller, id: string): (r: Reply<SupplierStore>)
    ensures r.store == DeleteSupplier(s, caller, id).store
    ensures r.answer.Some?
    ensures caller.role == Owner && Found(s, caller, id) ==> r.answer == Some(Refused)
  {
    WriteThenAudit(s, RetireSupplier(s, caller, id), AuditEntry(caller.business, TokenId))
  }

  /** The ids `getSuppliers` returns: the active suppliers of the caller's business. */
  function Listed(s: SupplierStore, caller: Caller): (r: set<string>)
    ensures r <= s.Keys
    ensures forall id :: id in r <==> Found(s, caller, id) && s[id].isActive
  {
    set id | id in s && caller.business == Some(s[id].business) && s[id].isActive
  }

  /** A new supplier is listed, a deleted one no longer is, and the others stay as they
      were. */
  lemma {:induction false} ListedAfterCreate(s: SupplierStore, caller: Caller, newId: string, body: NewSupplier)
    requires newId !in s
    requires CreateSupplier(s, caller, newId, body).answer.None?
    ensures Listed(CreateSupplier(s, caller, newId, body).store, caller) == Listed(s, caller) + {newId}
  {
    var s1 := CreateSupplier(s, caller, newId, body).store;
    assert s1 == s[newId := s1[newId]];
  }

  lemma {:induction false} ListedAfterDelete(s: SupplierStore, caller: Caller, id: string)
    requires DeleteSupplier(s, caller, id).answer.None?
    ensures Listed(DeleteSupplier(s, caller, id).store, caller) == Listed(s, caller) - {id}
  {
    var s1 := DeleteSupplier(s, caller, id).store;
    assert s1 == s[id := s[id].(isActive := false)];
  }
}

=== FILE: text.dfy ===
/** The string operations the application relies on: JavaScript `trim`, ASCII
    `toLowerCase`, `includes`, and decimal digits (`String(n)`, `padStart(2, "0")` and
    reading a digit string back). */
module Text {

  /** The characters JavaScript `trim` and `Number` treat as white space or line
      terminators (ECMAScript WhiteSpace and LineTerminator, including the Zs category). */
  predicate IsSpace(c: char) {
    || c == ' ' || c == '\t' || c == '\n' || c == '\r'
    || c == '\U{000B}' || c == '\U{000C}' || c == '\U{00A0}' || c == '\U{FEFF}'
    || c == '\U{1680}' || ('\U{2000}' <= c <= '\U{200A}')
    || c == '\U{2028}' || c == '\U{2029}' || c == '\U{202F}' || c == '\U{205F}'
    || c == '\U{3000}'
  }

  /** Every character of `s` from position `lo` up to (not including) `hi` is white space. */
  predicate SpaceBetween(s: string, lo: int, hi: int)
    requires 0 <= lo && hi <= |s|
  {
    forall k :: lo <= k < hi ==> IsSpace(s[k])
  }

  predicate AllSpace(s: string) {
    SpaceBetween(s, 0, |s|)
  }

  /** The first position at or after `i` that does not hold white space (or `|s|`). */
  function SkipSpace(s: string, i: nat): (r: nat)
    requires i <= |s|
    ensures i <= r <= |s| && SpaceBetween(s, i, r)
    ensures r < |s| ==> !IsSpace(s[r])
    decreases |s| - i
  {
    if i < |s| && IsSpace(s[i]) then SkipSpace(s, i + 1) else i
  }

  /** The position after the last character before `j`, and not before `lo`, that does
      not hold white space (or `lo`). */
  function SkipSpaceBack(s: string, lo: nat, j: nat): (r: nat)
    requires lo <= j <= |s|
    ensures lo <= r <= j && SpaceBetween(s, r, j)
    ensures r > lo ==> !IsSpace(s[r - 1])
    decreases j
  {
    if j > lo && IsSpace(s[j - 1]) then SkipSpaceBack(s, lo, j - 1) else j
  }

  /** `r` occurs in `s` at `i`, and only white space lies before and after it. */
  predicate PaddedAt(s: string, r: string, i: int) {
    OccursAt(s, r, i) && SpaceBetween(s, 0, i) && SpaceBetween(s, i + |r|, |s|)
  }

  /** `s.trim()`: the infix of `s` left after removing white space at both ends. */
  function Trim(s: string): (r: string)
    ensures exists i :: PaddedAt(s, r, i)
    ensures r == [] || (!IsSpace(r[0]) && !IsSpace(r[|r| - 1]))
    ensures r == [] <==> AllSpace(s)
  {
    var i := SkipSpace(s, 0);
    var j := SkipSpaceBack(s, i, |s|);
    assert j > i ==> s[i..j][0] == s[i];
    assert j > i ==> s[i..j][j - i - 1] == s[j - 1];
    assert PaddedAt(s, s[i..j], i);
    s[i..j]
  }

  /** `!String(x).trim()`: the text is empty or white space only. */
  predicate IsBlank(s: string) {
    Trim(s) == []
  }

  lemma {:induction false} TrimIdempotent(s: string)
    ensures Trim(Trim(s)) == Trim(s)
  {
    var t := Trim(s);
    if t != [] {
      assert SkipSpace(t, 0) == 0;
      assert SkipSpaceBack(t, 0, |t|) == |t|;
      assert t[0..|t|] == t;
    }
  }

  /** A text without white space at either end is its own trim. */
  lemma {:induction false} TrimUnpadded(s: string)
    requires |s| > 0 && !IsSpace(s[0]) && !IsSpace(s[|s| - 1])
    ensures Trim(s) == s
  {
    assert SkipSpace(s, 0) == 0;
    assert SkipSpaceBack(s, 0, |s|) == |s|;
    assert s[0..|s|] == s;
  }

  /** ASCII `toLowerCase` on one character. */
  function LowerChar(c: char): char {
    if 'A' <= c <= 'Z' then (c as int + 32) as char else c
  }

  /** `s.toLowerCase()`, on ASCII letters. */
  function Lower(s: string): (r: string)
    ensures |r| == |s|
    ensures forall i :: 0 <= i < |s| ==> r[i] == LowerChar(s[i])
    ensures forall i :: 0 <= i < |r| ==> !('A' <= r[i] <= 'Z')
  {
    seq(|s|, i requires 0 <= i < |s| => LowerChar(s[i]))
  }

  lemma LowerIdempotent(s: string)
    ensures Lower(Lower(s)) == Lower(s)
  {
  }

  predicate OccursAt(s: string, q: string, i: int) {
    0 <= i && i + |q| <= |s| && s[i..i + |q|] == q
  }

  /** `s.includes(q)` */
  ghost predicate Includes(s: string, q: string) {
    exists i :: OccursAt(s, q, i)
  }

  /** An executable search for `q` in `s`, starting at each position in turn. */
  function Search(s: string, q: string): (r: bool)
    ensures r <==> Includes(s, q)
    decreases |s|
  {
    if q <= s then
      assert OccursAt(s, q, 0);
      true
    else if |s| == 0 then
      false
    else
      var rest := Search(s[1..], q);
      if rest then
        var i :| OccursAt(s[1..], q, i);
        OccursInTail(s, q, i + 1);
        true
      else
        assert !Includes(s, q) by {
          forall i | 0 <= i ensures !OccursAt(s, q, i) {
            if i == 0 {
              assert !(q <= s);
            } else {
              OccursInTail(s, q, i);
            }
          }
        }
        false
  }

  /** An occurrence past the first character is an occurrence in the tail, one to the left. */
  lemma OccursInTail(s: string, q: string, i: int)
    requires |s| > 0 && i > 0
    ensures OccursAt(s, q, i) <==> OccursAt(s[1..], q, i - 1)
  {
    if i + |q| <= |s| {
      var here, there := s[i..i + |q|], s[1..][i - 1..i - 1 + |q|];
      forall k | 0 <= k < |q|
        ensures here[k] == there[k]
      {
        assert here[k] == s[i + k];
        assert there[k] == s[1..][i - 1 + k];
      }
      assert here == there;
    }
  }

  predicate IsDigit(c: char) {
    '0' <= c <= '9'
  }

  predicate AllDigits(s: string) {
    forall i :: 0 <= i < |s| ==> IsDigit(s[i])
  }

  predicate IsHexDigit(c: char) {
    IsDigit(c) || 'a' <= c <= 'f' || 'A' <= c <= 'F'
  }

  /** `mongoose.Types.ObjectId.isValid(s)` of a text: 24 hexadecimal digits. */
  predicate IsObjectId(s: string) {
    |s| == 24 && forall i :: 0 <= i < |s| ==> IsHexDigit(s[i])
  }

  function DigitChar(d: nat): (c: char)
    requires d < 10
    ensures IsDigit(c)
  {
    ('0' as int + d) as char
  }

  function DigitValue(c: char): nat
    requires IsDigit(c)
  {
    c as int - '0' as int
  }

  /** `String(n)` for a non-negative integer: its decimal digits, without leading zeros. */
  function NatToString(n: nat): (r: string)
    ensures |r| > 0 && AllDigits(r)
    ensures r[0] == '0' ==> n == 0
    ensures |r| == 1 <==> n < 10
    ensures n < 100 ==> |r| <= 2
    decreases n
  {
    if n < 10 then [DigitChar(n)] else NatToString(n / 10) + [DigitChar(n % 10)]
  }

  /** `String(n)` for any integer. */
  function IntToString(n: int): (r: string)
    ensures n >= 0 ==> r == NatToString(n)
    ensures n < 0 ==> r == "-" + NatToString(-n)
  {
    if n >= 0 then NatToString(n) else "-" + NatToString(-n)
  }

  /** The number a string of decimal digits denotes. */
  function DigitsValue(s: string): nat
    requires AllDigits(s)
  {
    if |s| == 0 then 0 else DigitsValue(s[..|s| - 1]) * 10 + DigitValue(s[|s| - 1])
  }

  lemma {:induction false} NatToStringRoundTrip(n: nat)
    ensures DigitsValue(NatToString(n)) == n
    decreases n
  {
    var s := NatToString(n);
    if n < 10 {
      assert s[..0] == [];
    } else {
      NatToStringRoundTrip(n / 10);
      assert s[..|s| - 1] == NatToString(n / 10);
    }
  }

  /** `String(n).padStart(2, "0")` */
  function Pad2(n: nat): (r: string)
    ensures AllDigits(r) && |r| >= 2
    ensures n < 100 ==> |r| == 2
  {
    var s := NatToString(n);
    if |s| < 2 then "0" + s else s
  }

  lemma Pad2RoundTrip(n: nat)
    ensures DigitsValue(Pad2(n)) == n
  {
    NatToStringRoundTrip(n);
    var s := NatToString(n);
    if |s| < 2 {
      assert |s| == 1;
      assert ("0" + s)[..1] == "0";
      assert DigitsValue("0") == 0 by { assert "0"[..0] == []; }
    }
  }
}

=== FILE: transactions.dfy ===
/** The transaction ledger of `transactionController.js`: recording a sale, expense,
    stock arrival or damage with its total amount, correcting one, and deleting one. */
module Transactions {
  import opened Values
  import opened Text

  datatype Kind = Sale | Expense | StockIn | Damage

  /** A stored transaction. Money and quantities are integers (minor units). */
  datatype Transaction = Transaction(
    business: string,
    date: int,
    kind: Kind,
    productId: Option<string>,
    quantity: int,
    unitPrice: int,
    totalAmount: int,
    paymentMethod: string,
    description: Option<string>,
    supplierId: Option<string>,
    expenseCategory: Option<string>,
    recordedBy: string)

  /** The amount invariant every handler keeps. */
  predicate Amounted(t: Transaction) {
    t.totalAmount == t.quantity * t.unitPrice
  }

  /** The values the schema's `enum` allows for `paymentMethod`; any other value fails
      the save. */
  predicate PaymentMethod(m: string) {
    m == "cash" || m == "card" || m == "bank_transfer" || m == "check"
  }

  /** The transactions by document id; `next` is an id no document has been given yet. */
  datatype Ledger = Ledger(next: nat, txs: map<nat, Transaction>)

  predicate Valid(l: Ledger) {
    forall id :: id in l.txs ==> id < l.next && Amounted(l.txs[id]) && PaymentMethod(l.txs[id].paymentMethod)
  }

  /** The document a request may act on: `findOne({ _id, businessId })`. */
  predicate Found(l: Ledger, caller: Caller, id: nat) {
    id in l.txs && caller.business == Some(l.txs[id].business)
  }

  const TransactionNotFound: Failure := NotFound("Transaction not found")
  const OwnersOnly: Failure := Forbidden("Only owners can delete transactions")

  /** `x || null` on an optional text. */
  function OrNull(x: Option<string>): (r: Option<string>)
    ensures r.Some? <==> x.Some? && x.value != ""
    ensures r.Some? ==> r == x
  {
    if x.Some? && x.value != "" then x else None
  }

  /** A text path declared with `trim: true`: the stored value is trimmed. */
  function Trimmed(x: Option<string>): (r: Option<string>)
    ensures r.Some? <==> x.Some?
    ensures r.Some? ==> (!IsBlank(x.value) <==> r.value != [])
  {
    if x.Some? then Some(Trim(x.value)) else None
  }

  /** The body of `POST /api/transactions`; an absent key is `None`. */
  datatype NewTransaction = NewTransaction(
    date: Option<int>,
    kind: Option<Kind>,
    productId: Option<string>,
    quantity: Option<int>,
    unitPrice: Option<int>,
    paymentMethod: Option<string>,
    description: Option<string>,
    supplierId: Option<string>,
    expenseCategory: Option<string>)

  /** The body carries every path the schema requires of it. A missing quantity or unit
      price also makes `quantity * unitPrice` NaN, which the required `totalAmount`
      refuses. */
  predicate Complete(body: NewTransaction) {
    body.date.Some? && body.kind.Some? && body.quantity.Some? && body.unitPrice.Some?
  }

  /** The body passes the schema's validators: it is complete, and a payment method it
      sends is one the `enum` allows (an absent one takes the default "cash"). */
  predicate Admissible(body: NewTransaction) {
    Complete(body) && (body.paymentMethod.None? || PaymentMethod(body.paymentMethod.value))
  }

  /** The document `recordTransaction` saves, with the business and the recording user
      as the handler reads them: the new document gets the id `l.next` and the total
      amount `quantity * unitPrice`, and a missing `businessId`, `recordedBy` or body
      path (all required) or a payment method outside the `enum` makes the save fail. */
  function InsertTransaction(l: Ledger, business: Option<string>, recordedBy: Option<string>,
                             body: NewTransaction): (r: Result<Ledger>)
    ensures r.Ok? <==> business.Some? && recordedBy.Some? && Admissible(body)
    ensures r.Err? ==> r.failure == Refused
    ensures r.Ok? ==>
              && r.value.next == l.next + 1
              && r.value.txs.Keys == l.txs.Keys + {l.next}
              && (forall id :: id in l.txs && id != l.next ==> r.value.txs[id] == l.txs[id])
              && var t := r.value.txs[l.next];
                 && Some(t.business) == business && Some(t.recordedBy) == recordedBy
                 && Some(t.date) == body.date && Some(t.kind) == body.kind
                 && Some(t.quantity) == body.quantity && Some(t.unitPrice) == body.unitPrice
                 && t.totalAmount == t.quantity * t.unitPrice
                 && t.productId == OrNull(body.productId) && t.supplierId == OrNull(body.supplierId)
                 && t.expenseCategory == Trimmed(OrNull(body.expenseCategory))
                 && t.description == Trimmed(body.description)
                 && t.paymentMethod == body.paymentMethod.GetOr("cash")
    ensures Valid(l) && r.Ok? ==> Valid(r.value) && l.next !in l.txs
  {
    if business.None? || recordedBy.None? || !Admissible(body) then Err(Refused)
    else
      var t := Transaction(business.value, body.date.value, body.kind.value, OrNull(body.productId),
                           body.quantity.value, body.unitPrice.value, body.quantity.value * body.unitPrice.value,
                           body.paymentMethod.GetOr("cash"), Trimmed(body.description),
                           OrNull(body.supplierId), Trimmed(OrNull(body.expenseCategory)), recordedBy.value);
      Ok(Ledger(l.next + 1, l.txs[l.next := t]))
  }

  /** `recordTransaction` as written: `recordedBy` and the audit entry's `userId` read
      `req.user.id`, which the token does not carry, so every save is refused and no
      transaction is ever stored. */
  function RecordTransactionAsWritten(l: Ledger, caller: Caller, body: NewTransaction): (r: Reply<Ledger>)
    ensures r == Reply(l, Some(Refused))
  {
    WriteThenAudit(l, InsertTransaction(l, caller.business, TokenId, body), AuditEntry(caller.business, TokenId))
  }

  /** `recordTransaction` reading the user id the token does carry (`req.userId`): it
      succeeds exactly when the caller belongs to a business and the body carries its
      required paths and an allowed payment method, and stores the caller as the
      recording user. */
  function RecordTransaction(l: Ledger, caller: Caller, body: NewTransaction): (r: Reply<Ledger>)
    ensures r.answer.None? <==> caller.business.Some? && Admissible(body)
    ensures r.answer.Some? ==> r == Reply(l, Some(Refused))
    ensures r.answer.None? ==>
              && r.store.next == l.next + 1
              && r.store.txs.Keys == l.txs.Keys + {l.next}
              && (forall id :: id in l.txs && id != l.next ==> r.store.txs[id] == l.txs[id])
              && var t := r.store.txs[l.next];
                 && Some(t.business) == caller.business && t.recordedBy == caller.userId
                 && Some(t.date) == body.date && Some(t.kind) == body.kind
                 && Some(t.quantity) == body.quantity && Some(t.unitPrice) == body.unitPrice
                 && t.totalAmount == t.quantity * t.unitPrice
    ensures Valid(l) ==> Valid(r.store)
  {
    WriteThenAudit(l, InsertTransaction(l, caller.business, Some(caller.userId), body),
                   AuditEntry(caller.business, Some(caller.userId)))
  }

  /** The body of `PUT /api/transactions/:transactionId`; an absent or `null` key is `None`. */
  datatype TransactionPatch = TransactionPatch(
    quantity: Option<int>,
    unitPrice: Option<int>,
    paymentMethod: Option<string>,
    description: Option<string>)

  /** `x || current` on a number: absent, `null` and 0 keep the current value. */
  function OrNumber(x: Option<int>, current: int): (r: int)
    ensures x.Some? && x.value != 0 ==> r == x.value
    ensures x.None? || x.value == 0 ==> r == current
  {
    if x.Some? && x.value != 0 then x.value else current
  }

  /** `doc.description = description || doc.description` on a trimmed path. */
  function OrDescription(x: Option<string>, current: Option<string>): (r: Option<string>)
    ensures x.Some? && x.value != "" ==> r == Some(Trim(x.value))
    ensures x.None? || x.value == "" ==> r == current
  {
    if x.Some? && x.value != "" then Some(Trim(x.value)) else current
  }

  /** The document after the assignments of `updateTransaction`: the falsy keys of the
      body keep the stored values, and the total is recomputed from the results. */
  function ApplyUpdate(t: Transaction, p: TransactionPatch): (u: Transaction)
    ensures Amounted(u)
    ensures u.quantity == OrNumber(p.quantity, t.quantity)
    ensures u.unitPrice == OrNumber(p.unitPrice, t.unitPrice)
    ensures u.paymentMethod == OrText(p.paymentMethod, t.paymentMethod)
    ensures u.description == OrDescription(p.description, t.description)
    ensures u.(quantity := 0, unitPrice := 0, totalAmount := 0, paymentMethod := "", description := None)
            == t.(quantity := 0, unitPrice := 0, totalAmount := 0, paymentMethod := "", description := None)
  {
    var quantity := OrNumber(p.quantity, t.quantity);
    var unitPrice := OrNumber(p.unitPrice, t.unitPrice);
    t.(quantity := quantity, unitPrice := unitPrice, totalAmount := quantity * unitPrice,
       paymentMethod := OrText(p.paymentMethod, t.paymentMethod),
       description := OrDescription(p.description, t.description))
  }

  /** A body whose keys are all falsy changes nothing in a document that keeps the
      amount invariant. */
  lemma FalsyPatchKeeps(t: Transaction, p: TransactionPatch)
    requires p.quantity.None? || p.quantity.value == 0
    requires p.unitPrice.None? || p.unitPrice.value == 0
    requires p.paymentMethod.None? || p.paymentMethod.value == ""
    requires p.description.None? || p.description.value == ""
    ensures ApplyUpdate(t, p) == t <==> Amounted(t)
  {
  }

  /** Sending the same correction twice stores what sending it once does. */
  lemma {:induction false} ApplyUpdateIdempotent(t: Transaction, p: TransactionPatch)
    ensures ApplyUpdate(ApplyUpdate(t, p), p) == ApplyUpdate(t, p)
  {
    if p.description.Some? && p.description.value != "" {
      TrimIdempotent(p.description.value);
    }
  }

  /** A correction's payment method is allowed: a falsy one keeps the stored value, a
      truthy one must be in the `enum`. */
  predicate PatchAdmissible(p: TransactionPatch) {
    p.paymentMethod.None? || p.paymentMethod.value == "" || PaymentMethod(p.paymentMethod.value)
  }

  /** The write step of `updateTransaction`, open to every role: the document of the
      caller's business is corrected, and the save refuses a payment method outside
      the `enum`. */
  function CorrectTransaction(l: Ledger, caller: Caller, id: nat, p: TransactionPatch): (r: Result<Ledger>)
    ensures r.Ok? <==> Found(l, caller, id) && PaymentMethod(ApplyUpdate(l.txs[id], p).paymentMethod)
    ensures Valid(l) ==> (r.Ok? <==> Found(l, caller, id) && PatchAdmissible(p))
    ensures !Found(l, caller, id) ==> r == Err(TransactionNotFound)
    ensures Found(l, caller, id) && r.Err? ==> r == Err(Refused)
    ensures r.Ok? ==> r.value == l.(txs := l.txs[id := ApplyUpdate(l.txs[id], p)])
    ensures Valid(l) && r.Ok? ==> Valid(r.value)
  {
    if !Found(l, caller, id) then Err(TransactionNotFound)
    else
      var u := ApplyUpdate(l.txs[id], p);
      if !PaymentMethod(u.paymentMethod) then Err(Refused)
      else Ok(l.(txs := l.txs[id := u]))
  }

  /** `updateTransaction` with the audit entry's `userId` read from `req.userId`: the
      correction is stored and answered with success exactly when the document is
      found and the payment method it leaves is allowed. */
  function UpdateTransaction(l: Ledger, caller: Caller, id: nat, p: TransactionPatch): (r: Reply<Ledger>)
    ensures r.answer.None? <==> Found(l, caller, id) && PaymentMethod(ApplyUpdate(l.txs[id], p).paymentMethod)
    ensures Valid(l) ==> (r.answer.None? <==> Found(l, caller, id) && PatchAdmissible(p))
    ensures r.answer.Some? ==> r.store == l
    ensures !Found(l, caller, id) ==> r.answer == Some(TransactionNotFound)
    ensures Found(l, caller, id) && r.answer.Some? ==> r.answer == Some(Refused)
    ensures r.answer.None? ==> r.store == l.(txs := l.txs[id := ApplyUpdate(l.txs[id], p)])
    ensures Valid(l) ==> Valid(r.store)
  {
    WriteThenAudit(l, CorrectTransaction(l, caller, id, p), AuditEntry(caller.business, Some(caller.userId)))
  }

  /** `updateTransaction` as written: the audit entry reads `req.user.id`, so a found
      document whose correction the save accepts is corrected and the request is still
      answered with a 500. */
  function UpdateTransactionAsWritten(l: Ledger, caller: Caller, id: nat, p: TransactionPatch): (r: Reply<Ledger>)
    ensures r.store == UpdateTransaction(l, caller, id, p).store
    ensures r.store != l ==> Found(l, caller, id) && PaymentMethod(r.store.txs[id].paymentMethod)
    ensures r.answer == Some(if Found(l, caller, id) then Refused else TransactionNotFound)
  {
    WriteThenAudit(l, CorrectTransaction(l, caller, id, p), AuditEntry(caller.business, TokenId))
  }

  /** The write step of `deleteTransaction`: owners only, then the document of the
      caller's business is removed. */
  function RemoveTransaction(l: Ledger, caller: Caller, id: nat): (r: Result<Ledger>)
    ensures caller.role != Owner ==> r == Err(OwnersOnly)
    ensures caller.role == Owner && !Found(l, caller, id) ==> r == Err(TransactionNotFound)
    ensures r.Ok? <==> caller.role == Owner && Found(l, caller, id)
    ensures r.Ok? ==>
              && r.value.next == l.next
              && r.value.txs.Keys == l.txs.Keys - {id}
              && forall k :: k in r.value.txs ==> r.value.txs[k] == l.txs[k]
    ensures Valid(l) && r.Ok? ==> Valid(r.value)
  {
    if caller.role != Owner then Err(OwnersOnly)
    else if !Found(l, caller, id) then Err(TransactionNotFound)
    else Ok(l.(txs := l.txs - {id}))
  }

  /** `deleteTransaction` with the audit entry's `userId` read from `req.userId`: an
      owner's request for a found document removes it and succeeds; every other request
      changes nothing. */
  function DeleteTransaction(l: Ledger, caller: Caller, id: nat): (r: Reply<Ledger>)
    ensures r.answer.None? <==> caller.role == Owner && Found(l, caller, id)
    ensures r.answer.Some? ==> r.store == l
    ensures r.answer.None? ==> r.store == l.(txs := l.txs - {id})
    ensures Valid(l) ==> Valid(r.store)
  {
    WriteThenAudit(l, RemoveTransaction(l, caller, id), AuditEntry(caller.business, Some(caller.userId)))
  }

  /** `deleteTransaction` as written: the audit entry reads `req.user.id`, so an owner's
      delete removes the document and is still answered with a 500. */
  function DeleteTransactionAsWritten(l: Ledger, caller: Caller, id: nat): (r: Reply<Ledger>)
    ensures r.store == DeleteTransaction(l, caller, id).store
    ensures r.answer.Some?
    ensures caller.role == Owner && Found(l, caller, id) ==> r.answer == Some(Refused)
  {
    WriteThenAudit(l, RemoveTransaction(l, caller, id), AuditEntry(caller.business, TokenId))
  }

  /** A deleted transaction can no longer be corrected or deleted. */
  lemma DeletedIsGone(l: Ledger, caller: Caller, id: nat, p: TransactionPatch)
    requires DeleteTransaction(l, caller, id).answer.None?
    ensures var l1 := DeleteTransaction(l, caller, id).store;
            && UpdateTransaction(l1, caller, id, p) == Reply(l1, Some(TransactionNotFound))
            && DeleteTransaction(l1, caller, id) == Reply(l1, Some(TransactionNotFound))
  {
  }

  /** A recorded transaction is found by its own business under its new id, a correction
      of it is accepted exactly when its payment method is allowed, and correcting it
      keeps the ledger invariant. */
  lemma {:induction false} RecordThenUpdate(l: Ledger, caller: Caller, body: NewTransaction, p: TransactionPatch)
    requires Valid(l)
    requires RecordTransaction(l, caller, body).answer.None?
    ensures var l1 := RecordTransaction(l, caller, body).store;
            && Found(l1, caller, l.next)
            && (UpdateTransaction(l1, caller, l.next, p).answer.None? <==> PatchAdmissible(p))
            && Valid(UpdateTransaction(l1, caller, l.next, p).store)
  {
    var l1 := RecordTransaction(l, caller, body).store;
    assert Valid(l1);
  }

  /** The ledger after recording `bodies` one after another with the handler as written. */
  function RecordAllAsWritten(l: Ledger, caller: Caller, bodies: seq<NewTransaction>): Ledger
    decreases |bodies|
  {
    if bodies == [] then l
    else RecordAllAsWritten(RecordTransactionAsWritten(l, caller, bodies[0]).store, caller, bodies[1..])
  }

  /** As written, the ledger stays as it was whatever is recorded into it, so the
      documents the correcting and deleting handlers look for never come to exist. */
  lemma {:induction false} AsWrittenLedgerStaysEmpty(caller: Caller, bodies: seq<NewTransaction>)
    ensures RecordAllAsWritten(Ledger(0, map[]), caller, bodies) == Ledger(0, map[])
  {
    if bodies != [] {
      AsWrittenLedgerStaysEmpty(caller, bodies[1..]);
    }
  }
}

=== FILE: users.dfy ===
/** The staff accounts of `userController.js`: an owner adds, edits and removes the users
    of the business. Passwords are hashed before they are stored and are not modelled. */
module Users {
  import opened Values
  import opened Text

  /** A stored user; `isActive` is `None` once a request has written `null` into it. */
  datatype User = User(
    email: string,
    firstName: string,
    lastName: string,
    role: Role,
    business: Option<string>,
    isActive: Option<bool>)

  /** The users by document id. */
  type Directory = map<string, User>

  /** The form of an email the schema stores and a query on it compares: trimmed and in
      lower case. */
  function EmailKey(s: string): string {
    Lower(Trim(s))
  }

  predicate EmailTaken(d: Directory, email: string) {
    exists id :: id in d && d[id].email == EmailKey(email)
  }

  /** Document ids are object ids, emails are unique (the unique index), and the names
      the schema requires are not empty. */
  predicate Valid(d: Directory) {
    && (forall id :: id in d ==> IsObjectId(id) && d[id].firstName != [] && d[id].lastName != [])
    && (forall a, b :: a in d && b in d && a != b ==> d[a].email != d[b].email)
  }

  /** `findOne({ _id: userId, businessId })` */
  predicate Found(d: Directory, caller: Caller, userId: string) {
    userId in d && d[userId].business == caller.business
  }

  const UserExists: Failure := BadRequest("User already exists")
  const InvalidId: Failure := BadRequest("Invalid user id")
  const UserNotFound: Failure := NotFound("User not found")

  /** The body of `POST /api/users`; an absent key is `None`. */
  datatype NewUser = NewUser(
    email: string,
    password: Option<string>,
    firstName: Option<string>,
    lastName: Option<string>,
    role: Option<Role>)

  /** A `required` text path with `trim: true` accepts the value. */
  predicate Filled(x: Option<string>) {
    x.Some? && Trim(x.value) != []
  }

  /** Every required path of a new user has a value. */
  predicate Complete(body: NewUser) {
    Filled(Some(body.email)) && body.password.Some? && body.password.value != ""
    && Filled(body.firstName) && Filled(body.lastName)
  }

  /** `addUser`. `newId` is the id the database gives the new document. */
  function AddUser(d: Directory, caller: Caller, newId: string, body: NewUser): (r: Result<Directory>)
    requires IsObjectId(newId) && newId !in d
    ensures caller.role != Owner ==> r == Err(Forbidden("Only owners can add users"))
    ensures r == Err(UserExists) <==> caller.role == Owner && EmailTaken(d, body.email)
    ensures r.Ok? <==> caller.role == Owner && !EmailTaken(d, body.email) && Complete(body)
    ensures r.Ok? ==>
              && r.value.Keys == d.Keys + {newId}
              && (forall id :: id in d ==> r.value[id] == d[id])
              && var u := r.value[newId];
                 && u.email == EmailKey(body.email)
                 && u.firstName == Trim(body.firstName.value) && u.lastName == Trim(body.lastName.value)
                 && u.business == caller.business && u.isActive == Some(true)
                 && (body.role.Some? ==> u.role == body.role.value)
                 // the schema default: a user added without a role is an owner
                 && (body.role.None? ==> u.role == Owner)
    ensures Valid(d) && r.Ok? ==> Valid(r.value)
  {
    if caller.role != Owner then Err(Forbidden("Only owners can add users"))
    else if EmailTaken(d, body.email) then Err(UserExists)
    else if !Complete(body) then Err(Refused)
    else
      var u := User(EmailKey(body.email), Trim(body.firstName.value), Trim(body.lastName.value),
                    body.role.GetOr(Owner), caller.business, Some(true));
      Ok(d[newId := u])
  }

  /** The body of `PUT /api/users/:userId`. A name or role that is absent, `null` or empty
      is `None`. */
  datatype UserPatch = UserPatch(
    firstName: Option<string>,
    lastName: Option<string>,
    role: Option<Role>,
    isActive: Field<bool>)

  /** `doc.k = k || doc.k` on a trimmed text path. */
  function OrName(x: Option<string>, current: string): (r: string)
    ensures x.Some? && x.value != "" ==> r == Trim(x.value)
    ensures x.None? || x.value == "" ==> r == current
  {
    if x.Some? && x.value != "" then Trim(x.value) else current
  }

  /** The user after the assignments of `updateUser`: falsy names and role keep the
      stored values, `isActive` changes exactly when the key is present. */
  function Patched(u: User, p: UserPatch): (v: User)
    ensures v.email == u.email && v.business == u.business
    ensures v.firstName == OrName(p.firstName, u.firstName)
    ensures v.lastName == OrName(p.lastName, u.lastName)
    ensures v.role == p.role.GetOr(u.role)
    ensures p.isActive.Omitted? ==> v.isActive == u.isActive
    ensures p.isActive.Given? ==> v.isActive == Some(p.isActive.value)
  {
    u.(firstName := OrName(p.firstName, u.firstName), lastName := OrName(p.lastName, u.lastName),
       role := p.role.GetOr(u.role), isActive := Assign(p.isActive, u.isActive))
  }

  /** Sending the same edit twice stores what sending it once does. */
  lemma {:induction false} PatchedIdempotent(u: User, p: UserPatch)
    ensures Patched(Patched(u, p), p) == Patched(u, p)
  {
    if p.firstName.Some? && p.firstName.value != "" {
      TrimIdempotent(p.firstName.value);
    }
    if p.lastName.Some? && p.lastName.value != "" {
      TrimIdempotent(p.lastName.value);
    }
  }

  /** `updateUser` */
  function UpdateUser(d: Directory, caller: Caller, userId: string, p: UserPatch): (r: Result<Directory>)
    ensures caller.role != Owner ==> r == Err(Forbidden("Only owners can update users"))
    ensures caller.role == Owner && !IsObjectId(userId) ==> r == Err(InvalidId)
    ensures caller.role == Owner && IsObjectId(userId) && !Found(d, caller, userId) ==> r == Err(UserNotFound)
    ensures r.Ok? ==>
              && Found(d, caller, userId)
              && r.value == d[userId := Patched(d[userId], p)]
    ensures r.Ok? <==> caller.role == Owner && IsObjectId(userId) && Found(d, caller, userId)
                       && Patched(d[userId], p).firstName != [] && Patched(d[userId], p).lastName != []
    ensures Valid(d) && r.Ok? ==> Valid(r.value)
  {
    if caller.role != Owner then Err(Forbidden("Only owners can update users"))
    else if !IsObjectId(userId) then Err(InvalidId)
    else if !Found(d, caller, userId) then Err(UserNotFound)
    else
      var u := Patched(d[userId], p);
      if u.firstName == [] || u.lastName == [] then Err(Refused)
      else Ok(d[userId := u])
  }

  /** `deleteUser`: the document is removed. */
  function DeleteUser(d: Directory, caller: Caller, userId: string): (r: Result<Directory>)
    ensures caller.role != Owner ==> r == Err(Forbidden("Only owners can delete users"))
    ensures caller.role == Owner && !IsObjectId(userId) ==> r == Err(InvalidId)
    ensures r.Ok? <==> caller.role == Owner && IsObjectId(userId) && Found(d, caller, userId)
    ensures r.Ok? ==> r.value.Keys == d.Keys - {userId} && forall id :: id in r.value ==> r.value[id] == d[id]
    ensures Valid(d) && r.Ok? ==> Valid(r.value)
  {
    if caller.role != Owner then Err(Forbidden("Only owners can delete users"))
    else if !IsObjectId(userId) then Err(InvalidId)
    else if !Found(d, caller, userId) then Err(UserNotFound)
    else Ok(d - {userId})
  }

  /** A malformed id is answered before the users are looked at: the directory does not
      matter. */
  lemma InvalidIdBeforeLookup(d1: Directory, d2: Directory, caller: Caller, userId: string, p: UserPatch)
    requires !IsObjectId(userId)
    ensures UpdateUser(d1, caller, userId, p) == UpdateUser(d2, caller, userId, p)
    ensures DeleteUser(d1, caller, userId) == DeleteUser(d2, caller, userId)
    ensures UpdateUser(d1, caller, userId, p).Err? && DeleteUser(d1, caller, userId).Err?
  {
  }

  /** Once an email is registered, adding it again is refused, whatever its case or the
      white space around it. */
  lemma {:induction false} AddedEmailTaken(d: Directory, caller: Caller, newId: string, otherId: string,
                                           body: NewUser, again: NewUser)
    requires IsObjectId(newId) && newId !in d
    requires IsObjectId(otherId) && otherId !in d && otherId != newId
    requires EmailKey(again.email) == EmailKey(body.email)
    ensures AddUser(d, caller, newId, body).Ok? ==>
              AddUser(AddUser(d, caller, newId, body).value, caller, otherId, again) == Err(UserExists)
  {
    if AddUser(d, caller, newId, body).Ok? {
      var d1 := AddUser(d, caller, newId, body).value;
      assert d1[newId].email == EmailKey(again.email);
    }
  }
}

=== FILE: users_page.dfy ===
/** The user management page: role labels, the search over the user list, and the checks
    it runs before adding a user. */
module UsersPage {
  import opened Values
  import opened Text
  import opened Seqs
  import Users

  /** `roleLabel`: "owner" and "manager" in any letter case name themselves, anything
      else (a missing role included) is shown as a cashier. */
  function RoleLabel(role: Option<string>): (r: string)
    ensures r == "Owner" <==> role.Some? && Lower(role.value) == "owner"
    ensures r == "Manager" <==> role.Some? && Lower(role.value) == "manager"
    ensures r == "Cashier" <==> !(role.Some? && Lower(role.value) in {"owner", "manager"})
  {
    var r := Lower(OrText(role, ""));
    if r == "owner" then "Owner"
    else if r == "manager" then "Manager"
    else "Cashier"
  }

  /** The role text the server stores. */
  function RoleName(role: Role): string {
    match role
    case Owner => "owner"
    case Manager => "manager"
    case Cashier => "cashier"
  }

  /** Every stored role gets its own label. */
  lemma StoredRoleLabels()
    ensures RoleLabel(Some(RoleName(Owner))) == "Owner"
    ensures RoleLabel(Some(RoleName(Manager))) == "Manager"
    ensures RoleLabel(Some(RoleName(Cashier))) == "Cashier"
  {
    assert Lower("owner") == "owner";
    assert Lower("manager") == "manager";
    assert Lower("cashier") == "cashier";
  }

  /** A user object of the list as the page receives it. */
  datatype UserView = UserView(
    firstName: Option<string>,
    lastName: Option<string>,
    email: Option<string>,
    role: Option<string>)

  /** The lower-case texts the search looks in: full name, email and role. */
  function FullName(u: UserView): string {
    Lower(OrText(u.firstName, "") + " " + OrText(u.lastName, ""))
  }

  /** The user mentions the (lower-case) query in its name, email or role. */
  ghost predicate Mentions(u: UserView, q: string) {
    Includes(FullName(u), q) || Includes(Lower(OrText(u.email, "")), q) || Includes(Lower(OrText(u.role, "")), q)
  }

  function MentionsQuery(q: string): UserView -> bool {
    (u: UserView) => Search(FullName(u), q) || Search(Lower(OrText(u.email, "")), q) || Search(Lower(OrText(u.role, "")), q)
  }

  /** `filteredUsers` */
  function FilteredUsers(users: seq<UserView>, search: string): (r: seq<UserView>)
    ensures IsBlank(search) ==> r == users
    ensures IsSubsequence(r, users)
    ensures !IsBlank(search) ==> forall i :: 0 <= i < |r| ==> Mentions(r[i], Lower(Trim(search)))
    ensures forall i :: 0 <= i < |users| && Mentions(users[i], Lower(Trim(search))) ==> users[i] in r
  {
    var q := Lower(Trim(search));
    if q == [] then
      assert IsSubsequence(users, users) by { SubsequenceOfItself(users); }
      users
    else
      var keep := MentionsQuery(q);
      FilterIsSubsequence(users, keep);
      Filter(users, keep)
  }

  lemma {:induction false} SubsequenceOfItself<T>(s: seq<T>)
    ensures IsSubsequence(s, s)
    decreases |s|
  {
    if |s| > 0 {
      SubsequenceOfItself(s[1..]);
    }
  }

  /** The add-user form. */
  datatype AddForm = AddForm(firstName: string, lastName: string, email: string, role: Role, password: string)

  /** `addUser` on the page: an error message, or the body it sends. */
  datatype AddStep = Reject(message: string) | Send(body: Users.NewUser)

  const FillAll := "Please fill all required fields"
  const ShortPassword := "Password must be at least 8 characters"

  function AddUser(form: AddForm): (r: AddStep)
    ensures r == Reject(FillAll) <==> form.firstName == "" || form.lastName == "" || form.email == "" || form.password == ""
    ensures r == Reject(ShortPassword) <==>
              form.firstName != "" && form.lastName != "" && form.email != "" && form.password != "" && |form.password| < 8
    ensures r.Send? <==> form.firstName != "" && form.lastName != "" && form.email != "" && |form.password| >= 8
    ensures r.Send? ==>
              && r.body.email == Trim(form.email) && r.body.password == Some(form.password)
              && r.body.firstName == Some(Trim(form.firstName)) && r.body.lastName == Some(Trim(form.lastName))
              && r.body.role == Some(form.role)
  {
    if form.firstName == "" || form.lastName == "" || form.email == "" || form.password == "" then Reject(FillAll)
    else if |form.password| < 8 then Reject(ShortPassword)
    else Send(Users.NewUser(Trim(form.email), Some(form.password), Some(Trim(form.firstName)), Some(Trim(form.lastName)),
                            Some(form.role)))
  }

  /** A body the page sends is accepted by the owner's `addUser` when the names and the
      email are not blank and the email is new; the user stored has the role chosen. */
  lemma {:induction false} SentUserAdded(d: Users.Directory, caller: Caller, newId: string, form: AddForm)
    requires caller.role == Owner && IsObjectId(newId) && newId !in d
    requires AddUser(form).Send?
    requires !IsBlank(form.firstName) && !IsBlank(form.lastName) && !IsBlank(form.email)
    requires !Users.EmailTaken(d, form.email)
    ensures var r := Users.AddUser(d, caller, newId, AddUser(form).body);
            && r.Ok?
            && r.value[newId].role == form.role
            && r.value[newId].email == Users.EmailKey(form.email)
            && r.value[newId].firstName == Trim(form.firstName)
  {
    TrimIdempotent(form.email);
    TrimIdempotent(form.firstName);
    TrimIdempotent(form.lastName);
    assert Users.EmailKey(Trim(form.email)) == Users.EmailKey(form.email);
    assert Users.EmailTaken(d, Trim(form.email)) == Users.EmailTaken(d, form.email);
  }

  /** A name of spaces only passes the page's check, and the server refuses it. */
  lemma BlankNamePassesPageOnly(d: Users.Directory, newId: string)
    requires IsObjectId(newId) && newId !in d
    requires !Users.EmailTaken(d, "a@b.c")
    ensures var form := AddForm(" ", "Doe", "a@b.c", Cashier, "password");
            && AddUser(form).Send?
            && Users.AddUser(d, Caller("u", Some("b"), Owner), newId, AddUser(form).body) == Err(Refused)
  {
    BlankNameSent();
  }

  /** The page sends the form with a first name of spaces, trimmed to nothing. */
  lemma BlankNameSent()
    ensures var r := AddUser(AddForm(" ", "Doe", "a@b.c", Cashier, "password"));
            r.Send? && r.body.email == "a@b.c" && !Users.Complete(r.body)
  {
    var r := AddUser(AddForm(" ", "Doe", "a@b.c", Cashier, "password"));
    assert Trim(" ") == [];
    TrimUnpadded("a@b.c");
    assert r.body.firstName == Some([]);
  }
}

=== FILE: validation.dfy ===
/** `validateSubmit`: the checks a recomputed daily form must pass before it can be
    submitted. They run in a fixed order and the first one that fails decides the message. */
module Validation {
  import opened Values
  import opened Text
  import opened DailyForm
  import opened Derive

  /** Why a form cannot be submitted; rows are counted from 0 here and from 1 in messages. */
  datatype Rejection =
    | NoSupplierRows
    | SupplierNameRequired(row: nat)
    | OrderedQtyNotPositive(row: nat)
    | ActualQtyNotPositive(row: nat)
    | NoItemRows
    | ItemCodeRequired(row: nat)
    | ItemNameRequired(row: nat)
    | OverSold(row: nat, itemCode: string)
    | ExplanationRequired

  /** The message the server answers with. */
  function Message(r: Rejection): string {
    match r
    case NoSupplierRows => "Add at least one supplier entry."
    case SupplierNameRequired(i) => "Supplier row " + NatToString(i + 1) + ": Supplier Name is required."
    case OrderedQtyNotPositive(i) => "Supplier row " + NatToString(i + 1) + ": Ordered Qty must be > 0."
    case ActualQtyNotPositive(i) => "Supplier row " + NatToString(i + 1) + ": Actual Qty must be > 0."
    case NoItemRows => "Add at least one item row in the stock table."
    case ItemCodeRequired(i) => "Item row " + NatToString(i + 1) + ": Item Code is required."
    case ItemNameRequired(i) => "Item row " + NatToString(i + 1) + ": Item Name is required."
    case OverSold(_, code) => "Item " + code + ": Qty sold exceeds available stock."
    case ExplanationRequired => "Cash difference is not zero. Provide explanation."
  }

  predicate SupplierRowOk(s: SupplierEntry) {
    !IsBlank(s.supplierName) && Number0(s.orderedQty) > 0 && Number0(s.actualQty) > 0
  }

  predicate ItemRowOk(it: ItemRow) {
    !IsBlank(it.itemCode) && !IsBlank(it.itemName) && Number0(it.qtySold) <= Number0(it.totalAvailable)
  }

  /** A non-zero cash difference comes with an explanation. */
  predicate CashExplained(cs: CashSummary) {
    Number0(cs.cashDifference) != 0 ==> !IsBlank(cs.differenceExplanation.GetOr(""))
  }

  /** Every check passes. */
  predicate Submittable(f: Form) {
    && |f.supplierEntries| > 0
    && (forall i :: 0 <= i < |f.supplierEntries| ==> SupplierRowOk(f.supplierEntries[i]))
    && |f.items| > 0
    && (forall i :: 0 <= i < |f.items| ==> ItemRowOk(f.items[i]))
    && CashExplained(f.cashSummary)
  }

  predicate SuppliersPass(f: Form) {
    |f.supplierEntries| > 0 && forall j :: 0 <= j < |f.supplierEntries| ==> SupplierRowOk(f.supplierEntries[j])
  }

  predicate ItemsPass(f: Form) {
    |f.items| > 0 && forall j :: 0 <= j < |f.items| ==> ItemRowOk(f.items[j])
  }

  /** `rej` is the failure of the first check, in the validator's order, that `f` fails. */
  predicate FirstFailure(f: Form, rej: Rejection) {
    var s, it := f.supplierEntries, f.items;
    match rej
    case NoSupplierRows => |s| == 0
    case SupplierNameRequired(i) =>
      i < |s| && (forall j :: 0 <= j < i ==> SupplierRowOk(s[j]))
      && IsBlank(s[i].supplierName)
    case OrderedQtyNotPositive(i) =>
      i < |s| && (forall j :: 0 <= j < i ==> SupplierRowOk(s[j]))
      && !IsBlank(s[i].supplierName) && Number0(s[i].orderedQty) <= 0
    case ActualQtyNotPositive(i) =>
      i < |s| && (forall j :: 0 <= j < i ==> SupplierRowOk(s[j]))
      && !IsBlank(s[i].supplierName) && Number0(s[i].orderedQty) > 0 && Number0(s[i].actualQty) <= 0
    case NoItemRows => SuppliersPass(f) && |it| == 0
    case ItemCodeRequired(i) =>
      SuppliersPass(f) && i < |it| && (forall j :: 0 <= j < i ==> ItemRowOk(it[j]))
      && IsBlank(it[i].itemCode)
    case ItemNameRequired(i) =>
      SuppliersPass(f) && i < |it| && (forall j :: 0 <= j < i ==> ItemRowOk(it[j]))
      && !IsBlank(it[i].itemCode) && IsBlank(it[i].itemName)
    case OverSold(i, code) =>
      SuppliersPass(f) && i < |it| && (forall j :: 0 <= j < i ==> ItemRowOk(it[j]))
      && !IsBlank(it[i].itemCode) && !IsBlank(it[i].itemName)
      && Number0(it[i].qtySold) > Number0(it[i].totalAvailable) && code == it[i].itemCode
    case ExplanationRequired => SuppliersPass(f) && ItemsPass(f) && !CashExplained(f.cashSummary)
  }

  /** The index of the first supplier row from `from` on that fails its checks, or `|rows|`. */
  function FirstBadSupplier(rows: seq<SupplierEntry>, from: nat): (k: nat)
    requires from <= |rows|
    ensures from <= k <= |rows|
    ensures forall j :: from <= j < k ==> SupplierRowOk(rows[j])
    ensures k < |rows| ==> !SupplierRowOk(rows[k])
    decreases |rows| - from
  {
    if from == |rows| || !SupplierRowOk(rows[from]) then from else FirstBadSupplier(rows, from + 1)
  }

  /** The index of the first item row from `from` on that fails its checks, or `|rows|`. */
  function FirstBadItem(rows: seq<ItemRow>, from: nat): (k: nat)
    requires from <= |rows|
    ensures from <= k <= |rows|
    ensures forall j :: from <= j < k ==> ItemRowOk(rows[j])
    ensures k < |rows| ==> !ItemRowOk(rows[k])
    decreases |rows| - from
  {
    if from == |rows| || !ItemRowOk(rows[from]) then from else FirstBadItem(rows, from + 1)
  }

  /** The first failing check of one supplier row. */
  function SupplierProblem(s: SupplierEntry, i: nat): Rejection
    requires !SupplierRowOk(s)
  {
    if IsBlank(s.supplierName) then SupplierNameRequired(i)
    else if Number0(s.orderedQty) <= 0 then OrderedQtyNotPositive(i)
    else ActualQtyNotPositive(i)
  }

  /** The first failing check of one item row. */
  function ItemProblem(it: ItemRow, i: nat): Rejection
    requires !ItemRowOk(it)
  {
    if IsBlank(it.itemCode) then ItemCodeRequired(i)
    else if IsBlank(it.itemName) then ItemNameRequired(i)
    else OverSold(i, it.itemCode)
  }

  /** `validateSubmit(form)`: `None` stands for the `null` of a form that passes. */
  function ValidateSubmit(f: Form): (r: Option<Rejection>)
    ensures r.None? <==> Submittable(f)
    ensures r.Some? ==> FirstFailure(f, r.value)
  {
    if |f.supplierEntries| == 0 then Some(NoSupplierRows)
    else
      var k := FirstBadSupplier(f.supplierEntries, 0);
      if k < |f.supplierEntries| then Some(SupplierProblem(f.supplierEntries[k], k))
      else ValidateItemsAndCash(f)
  }

  /** The checks after the supplier rows, on a form whose supplier rows pass. */
  function ValidateItemsAndCash(f: Form): (r: Option<Rejection>)
    requires SuppliersPass(f)
    ensures r.None? <==> ItemsPass(f) && CashExplained(f.cashSummary)
    ensures r.Some? ==> FirstFailure(f, r.value)
  {
    if |f.items| == 0 then Some(NoItemRows)
    else
      var m := FirstBadItem(f.items, 0);
      if m < |f.items| then Some(ItemProblem(f.items[m], m))
      else if !CashExplained(f.cashSummary) then Some(ExplanationRequired)
      else None
  }

  /** A form fails at most one check first. */
  lemma FirstFailureUnique(f: Form, a: Rejection, b: Rejection)
    requires FirstFailure(f, a) && FirstFailure(f, b)
    ensures a == b
  {
  }

  lemma FirstFailureNotSubmittable(f: Form, rej: Rejection)
    requires FirstFailure(f, rej)
    ensures !Submittable(f)
  {
  }

  /** Conversely, whatever check a form fails first is the one the validator reports. */
  lemma FirstFailureReported(f: Form, rej: Rejection)
    requires FirstFailure(f, rej)
    ensures ValidateSubmit(f) == Some(rej)
  {
    FirstFailureNotSubmittable(f, rej);
    FirstFailureUnique(f, ValidateSubmit(f).value, rej);
  }

  /** On a recomputed form the over-sell check compares the quantity sold with the stock
      available from the entered values. */
  lemma OverSoldAgainstEnteredStock(f: Form, i: nat)
    requires i < |f.items|
    ensures var it, d := f.items[i], ComputeDerived(f).items[i];
            ItemRowOk(d) <==> !IsBlank(it.itemCode) && !IsBlank(it.itemName) && Number0(it.qtySold) <= Available(it)
  {
  }
}

=== FILE: values.dfy ===
/** Values shared by every part of the model: optional values, the three ways a key
    of a JSON request body can arrive, request outcomes, and the `Number(x || 0)`
    reading of a stored number. */
module Values {

  /** A value that may be missing; `None` stands for JavaScript `null` or `undefined`. */
  datatype Option<+T> = None | Some(value: T) {
    /** `x ?? fallback` */
    function GetOr(fallback: T): T {
      match this
      case Some(v) => v
      case None => fallback
    }
  }

  /** One key of a JSON request body: absent, present with `null`, or present with a value. */
  datatype Field<+T> = Omitted | Null | Given(value: T)

  /** `if (body.k !== undefined) doc.k = body.k`, which is also what `{ ...doc, ...body }`
      does to the key `k`: a `null` is written, an absent key keeps the current value. */
  function Assign<T>(f: Field<T>, current: Option<T>): (r: Option<T>)
    ensures f.Omitted? ==> r == current
    ensures f.Null? ==> r == None
    ensures f.Given? ==> r == Some(f.value)
  {
    match f
    case Omitted => current
    case Null => None
    case Given(v) => Some(v)
  }

  /** A stored JavaScript number, or `null` / missing. */
  type Num = Option<int>

  /** `Number(x || 0)` on a stored number: `null` and missing read as 0. */
  function Number0(x: Num): int {
    x.GetOr(0)
  }

  /** The failures a request handler answers with (HTTP 403, 404, 400 and the 500 of a
      document the store refuses), with the message of the response body. */
  datatype Failure =
    | Forbidden(message: string)
    | NotFound(message: string)
    | BadRequest(message: string)
    | ServerError(message: string)

  datatype Result<+T> = Ok(value: T) | Err(failure: Failure) {
    predicate IsFailure() {
      Err?
    }

    function PropagateFailure<U>(): Result<U>
      requires Err?
    {
      Err(failure)
    }

    function Extract(): T
      requires Ok?
    {
      value
    }
  }

  /** What a handler leaves in the store and what it answers (`None`: success). A
      handler that writes and then fails in a later step of the same `try` keeps its
      write and answers the later failure. */
  datatype Reply<+S> = Reply(store: S, answer: Option<Failure>)

  /** A write step followed by the audit entry of the same `try` block: a refused
      write answers its own failure and changes nothing, an accepted one stays in the
      store whatever the audit entry answers. */
  function WriteThenAudit<S>(before: S, write: Result<S>, audit: Option<Failure>): (r: Reply<S>)
    ensures write.Err? ==> r == Reply(before, Some(write.failure))
    ensures write.Ok? ==> r.store == write.value && r.answer == audit
  {
    if write.Err? then Reply(before, Some(write.failure)) else Reply(write.value, audit)
  }

  /** `AuditLog.create({ businessId, userId, ... })`: both ids are required, so a
      missing one makes the create throw into the handler's 500. */
  function AuditEntry(business: Option<string>, userId: Option<string>): (r: Option<Failure>)
    ensures r.None? <==> business.Some? && userId.Some?
    ensures r.Some? ==> r == Some(Refused)
  {
    if business.Some? && userId.Some? then None else Some(Refused)
  }

  /** `req.user.id`: the token the middleware decodes carries `userId`, `email`, `role`
      and `businessId`, and no `id`. */
  const TokenId: Option<string> := None

  /** `x ?? y` on two optional values. */
  function Coalesce<T>(x: Option<T>, y: Option<T>): (r: Option<T>)
    ensures x.Some? ==> r == x
    ensures x.None? ==> r == y
  {
    if x.Some? then x else y
  }

  /** A JSON scalar of a request body. */
  datatype Json = JBool(b: bool) | JNum(n: int) | JStr(s: string)

  /** JavaScript truthiness of a present scalar: `false`, `0` and `""` are falsy. */
  predicate Truthy(x: Json) {
    match x
    case JBool(b) => b
    case JNum(n) => n != 0
    case JStr(s) => s != ""
  }

  /** `x || fallback` on an optional text value: missing and `""` give the fallback. */
  function OrText(x: Option<string>, fallback: string): (r: string)
    ensures x.Some? && x.value != "" ==> r == x.value
    ensures x.None? || x.value == "" ==> r == fallback
  {
    if x.Some? && x.value != "" then x.value else fallback
  }

  /** The 500 answer of a handler whose `save` the schema validators or a unique index
      refuse, or whose audit entry cannot be created. */
  const Refused: Failure := ServerError("Server error")

  /** The response of `authorize(...roles)` to a caller whose role is not listed. */
  const NotPermitted: Failure := Forbidden("Forbidden: insufficient permissions")

  /** The user a request is made for, as the authentication middleware leaves it on the
      request: user id, the business the user belongs to (possibly missing) and role. */
  datatype Role = Owner | Manager | Cashier

  datatype Caller = Caller(userId: string, business: Option<string>, role: Role)
}
